=== FILE: README.md ===
# eduplan core in Dafny

This project models the core of the eduplan web app. The app is a weekly
homeschool planner. A parent records children's profiles in an onboarding
flow and edits them on a settings page. The parent then schedules activities
on a dashboard. The dashboard has a drag-and-drop week grid, day, week, month
and today views, search and per-child filters, completion statistics, and a
linear undo/redo history of full snapshots. Activity plans can be generated by
an AI chat-completion service in three ways: one shot, "concepts first"
(ideas, then details), and a four-stage pipeline (outline, details,
enrichment, cohesion). Every generator falls back to built-in mock plans. All
data goes through a hosted table store that uses snake-case columns, while
the app uses camel-case properties.

The model has one module per concern:

- `Dashboard` (board.dfy) models the schedule store. It holds the activity
  list, the history and its index, and the status, drag, save and delete
  edits. All of these are functions on a `Board` value. The `Schedule` class
  holds the same state as fields and has one method per event handler; each
  method is proved equal to its function.
- `ScheduleView` (views.dfy) models the view, child and search filters, the
  statistics, the slot and day look-ups, and the month grid. `ViewWindow`
  (window.dfy) models the date window that the current week selects.
- `Calendar` (calendar.dfy) and `Clock` (clock.dfy) model the proleptic
  Gregorian dates behind the code's `Date` arithmetic. This covers day
  numbers, Monday of the week, the `YYYY-MM-DD` text and its ordering, the
  week number of section 4.1.4 of ISO 8601:2004, and the `HH:MM` text.
- `Text` and `Lists` model the string and array built-ins the code relies
  on: `padStart`, `toLowerCase`, `includes`, `trim`, `split`, `||`,
  `filter`, and toggling an item in or out of a list.
- `MockData` models the fixture children and activities, the time slots,
  the week days and the subjects.
- `Remote` holds the shape of an AI reply and the errors the generators
  throw. `OpenAI`, `Concepts` and `MultiStep` model the three generators.
  `ChildIds` models the identity resolver that maps a child name in a reply
  back to a roster id.
- `ActivityForm` models the activity edit modal. `PlanWizard` models the
  three-step generate-plan dialog. `Onboarding` and `Settings` model the two
  profile pages. Each has a class whose methods are that page's event
  handlers.
- `Records` models the insert and update payloads sent to the `children` and
  `activities` tables and the renaming of the rows read back.

Every call into the store or the AI service is an input to the model. A
`Persist` value says whether no call was made, the call succeeded, or it
threw. A `Reply` or `Completion` value is what the service returned.
`Date.now()` and `Math.random()` are passed in as numbers.

## Model

| member | source | states |
|---|---|---|
| Dashboard.Loaded | apps/web/src/pages/Dashboard.tsx:268-277 | the loaded list replaces the activities (the fixtures when nothing is loaded); history and index are untouched |
| Dashboard.LoadedSeeded | apps/web/src/pages/Dashboard.tsx:268-271 | corrected load: the history becomes the single loaded snapshot at index 0 |
| Dashboard.Recorded | apps/web/src/pages/Dashboard.tsx:352-357 | keeps the snapshots up to and including the index, appends the new list and points the index at it, which is the last entry |
| Dashboard.Undone | apps/web/src/pages/Dashboard.tsx:367-372 | steps the index back one and shows that snapshot; at index 0 nothing changes; the history is never changed |
| Dashboard.Redone | apps/web/src/pages/Dashboard.tsx:375-380 | steps the index forward one and shows that snapshot; at the last entry nothing changes |
| Dashboard.UndosReach | apps/web/src/pages/Dashboard.tsx:367-372 | n undos (n at most the index) show the snapshot n entries back |
| Dashboard.RedosReach | apps/web/src/pages/Dashboard.tsx:375-380 | n redos show the snapshot n entries ahead while one exists |
| Dashboard.UndosThenRedos | apps/web/src/pages/Dashboard.tsx:367-380 | n undos followed by n redos return to the current snapshot |
| Dashboard.UndoAfterRecord | apps/web/src/pages/Dashboard.tsx:352-372 | undo right after a recording shows the snapshot that was current before it |
| Dashboard.RecordDropsRedo | apps/web/src/pages/Dashboard.tsx:352-380 | a recording discards the redo branch: redo afterwards changes nothing and the history has index+2 entries |
| Dashboard.FindActivity | apps/web/src/pages/Dashboard.tsx:385 | the index of the first activity with the id; none exactly when no activity has it |
| Dashboard.Replace | apps/web/src/pages/Dashboard.tsx:389-393 | every entry with the id becomes the new activity; every other entry is kept in place |
| Dashboard.WithStatus | apps/web/src/pages/Dashboard.tsx:391 | sets the status; completedAt is set (to now) exactly when the status is completed; nothing else changes |
| Dashboard.SetStatus | apps/web/src/pages/Dashboard.tsx:389-393 | keeps length and ids; only the activities with the id get the status and matching completedAt |
| Dashboard.ChangeStatus | apps/web/src/pages/Dashboard.tsx:383-412 | an unknown id changes nothing; otherwise the changed list is recorded (index grows by one) and shown, except that a rejected store call shows the old list again |
| Dashboard.RejectedStatusKeepsSnapshot | apps/web/src/pages/Dashboard.tsx:394-411 | after a rejected status change the old list is shown while the history still holds the changed one, and redo does nothing |
| Dashboard.DropTargetRoundTrip | apps/web/src/pages/Dashboard.tsx:584 | a cell id `day-time` splits back into its day and time when neither contains `-` |
| Dashboard.Drop | apps/web/src/pages/Dashboard.tsx:575-625 | keeps length and ids; with no drop target or an unknown activity nothing changes |
| Dashboard.DropOnCell | apps/web/src/pages/Dashboard.tsx:575-625 | a drop is refused exactly when another activity of the same child holds that cell or the store rejects; otherwise only that activity's day and start time change |
| Dashboard.DropOnOwnCell | apps/web/src/pages/Dashboard.tsx:588-591 | dropping an activity on its own cell is always refused, because the conflict check does not exclude the dragged activity |
| Dashboard.FindDistinct | apps/web/src/pages/Dashboard.tsx:385 | with distinct ids the look-up finds exactly position k |
| Dashboard.Save | apps/web/src/pages/Dashboard.tsx:635-671 | a rejected call changes nothing; an edit keeps the length; a new activity is appended with a `temp-<now>` id when offline, or as the stored record when stored |
| Dashboard.SaveEdit | apps/web/src/pages/Dashboard.tsx:641 | saving an edit of item k replaces item k only |
| Dashboard.Delete | apps/web/src/pages/Dashboard.tsx:674-693 | a rejected call changes nothing; otherwise no activity with the id remains and every other activity is kept |
| Dashboard.DeleteOne | apps/web/src/pages/Dashboard.tsx:674-693 | with distinct ids, deleting item k removes exactly position k |
| Dashboard.Schedule.constructor | apps/web/src/pages/Dashboard.tsx:245-246 | empty list, a history holding only the fixtures, index 0, nothing dragged |
| Dashboard.Schedule.Load | apps/web/src/pages/Dashboard.tsx:255-283 | the new state is `Loaded` of the old one; the drag state is kept |
| Dashboard.Schedule.LoadSeeded | apps/web/src/pages/Dashboard.tsx:268-271 | the new state is `LoadedSeeded` of the old one |
| Dashboard.Schedule.SaveToHistory | apps/web/src/pages/Dashboard.tsx:352-357 | the new state is `Recorded` of the old one |
| Dashboard.Schedule.Undo | apps/web/src/pages/Dashboard.tsx:367-372 | the new state is `Undone` of the old one |
| Dashboard.Schedule.Redo | apps/web/src/pages/Dashboard.tsx:375-380 | the new state is `Redone` of the old one |
| Dashboard.Schedule.UpdateStatus | apps/web/src/pages/Dashboard.tsx:383-412 | the new state is `ChangeStatus` of the old one |
| Dashboard.Schedule.DragStart | apps/web/src/pages/Dashboard.tsx:570-572 | records the dragged id; the schedule and history are unchanged |
| Dashboard.Schedule.DragEnd | apps/web/src/pages/Dashboard.tsx:575-625 | the list becomes `Drop` of the old list, the drag is cleared, and the history is untouched (drags are not undoable) |
| Dashboard.Schedule.SaveActivity | apps/web/src/pages/Dashboard.tsx:635-671 | the list becomes `Save` of the old list; the history is untouched |
| Dashboard.Schedule.DeleteActivity | apps/web/src/pages/Dashboard.tsx:674-693 | the list becomes `Delete` of the old list; the history is untouched |
| Dashboard.FirstUndoShowsFixtures | apps/web/src/pages/Dashboard.tsx:245 | as written: after a load and one status change, undo shows the mock fixtures instead of the loaded list |
| Dashboard.FirstUndoRestoresLoaded | apps/web/src/pages/Dashboard.tsx:268-271 | corrected: with the history seeded on load, the first undo shows the loaded list |
| ScheduleView.Filtered | apps/web/src/pages/Dashboard.tsx:441-513 | an activity is shown exactly when it passes the view's date test, the child filter (or "family") and the title/subject search |
| ScheduleView.UndatedOnlyToday | apps/web/src/pages/Dashboard.tsx:445-476 | an undated activity is shown only in the today view, and only on its weekday |
| ScheduleView.WeekTest | apps/web/src/pages/Dashboard.tsx:445-459 | the week test on date strings equals the day-number range test |
| ScheduleView.WeekViewIsCalendarWeek | apps/web/src/pages/Dashboard.tsx:445-459 | a dated activity is in the week view exactly when its date has the same Monday as the current day |
| ScheduleView.TodayViewIsCurrentDay | apps/web/src/pages/Dashboard.tsx:460-476 | a dated activity is in the today view exactly when its date is the current day |
| ScheduleView.MonthTest | apps/web/src/pages/Dashboard.tsx:477-494 | the half-open month string range equals same year and month |
| ScheduleView.MonthViewIsCalendarMonth | apps/web/src/pages/Dashboard.tsx:477-494 | a dated activity is in the month view exactly when it falls in the current calendar month |
| ScheduleView.SearchIgnoresCase | apps/web/src/pages/Dashboard.tsx:503-508 | the search result does not depend on the query's letter case |
| ScheduleView.TitleMatches | apps/web/src/pages/Dashboard.tsx:506 | a title containing the query always matches |
| ScheduleView.StatsOf | apps/web/src/pages/Dashboard.tsx:515-523 | completed and skipped are the counts of the shown activities with that status, pending the rest, total the shown count; the rate is 0 for no activities, otherwise the nearest integer to 100·completed/total (halves up), within 0..100 |
| ScheduleView.StatusCounts | apps/web/src/pages/Dashboard.tsx:516-519 | the three status counts partition the shown activities |
| ScheduleView.RoundedPercent | apps/web/src/pages/Dashboard.tsx:520 | `Math.round((c/t)·100)` in exact arithmetic, as an integer bracket |
| ScheduleView.SlotActivities | apps/web/src/pages/Dashboard.tsx:529-534 | a cell holds exactly the shown activities with that day and start time |
| ScheduleView.TodaySlot | apps/web/src/pages/Dashboard.tsx:1396-1400 | a today-view slot is `SlotActivities(shown, todayName, time)`: exactly the shown activities named for the current date's weekday that start at that time |
| ScheduleView.OneCellPerItem | apps/web/src/pages/Dashboard.tsx:529-534 | every shown activity appears in exactly one week-grid cell |
| ScheduleView.DayActivities | apps/web/src/pages/Dashboard.tsx:1473-1476 | a month cell holds exactly the shown activities whose date is that cell's `YYYY-MM-DD` text |
| ScheduleView.DayActivitiesOnDate | apps/web/src/pages/Dashboard.tsx:1475 | a dated activity is in a month cell exactly when its date is that cell's day |
| ScheduleView.MonthGrid | apps/web/src/pages/Dashboard.tsx:1454-1547 | the grid is weekday-of-the-1st pads, then days 1..n, then fewer than 7 trailing pads, a multiple of 7 cells |
| ScheduleView.LayOut | apps/web/src/pages/Dashboard.tsx:1459-1542 | the padding and the two loops build that shape for any start padding and month length |
| ViewWindow.MonthEnd | apps/web/src/pages/Dashboard.tsx:482-485 | the month's exclusive end is the 1st of the next month, wrapping December to January of the next year |
| ViewWindow.WeekRangeFacts | apps/web/src/pages/Dashboard.tsx:421-438 | the week range runs from a Monday to the Sunday six days later and contains the current day |
| ViewWindow.WindowWeek | apps/web/src/pages/Dashboard.tsx:446-452 | the window's week bounds are the texts of that Monday and Sunday |
| ViewWindow.WeekSpan | apps/web/src/pages/Dashboard.tsx:446-454 | a day lies between Monday m and m+6 exactly when its Monday is m |
| ViewWindow.WeekOfDay | apps/web/src/pages/Dashboard.tsx:446-454 | the same, stated on day numbers |
| ViewWindow.MonthWindow | apps/web/src/pages/Dashboard.tsx:478-485 | the month window is the texts of the 1st of this month and of the next |
| ViewWindow.TodayWindow | apps/web/src/pages/Dashboard.tsx:460-466 | the today text is the current day's `YYYY-MM-DD` |
| Calendar.MondayOf | apps/web/src/pages/Dashboard.tsx:424-430 | a Monday at most six days before (or on) the day |
| Calendar.SameWeekSameMonday | apps/web/src/pages/Dashboard.tsx:424-430 | every day of a week has that week's Monday |
| Calendar.WeekdayInWeek | apps/web/src/pages/Dashboard.tsx:424-430 | the k-th day after Monday has weekday k+1 (mod 7) |
| Calendar.AddDaysNumber | apps/web/src/components/ActivityModal.tsx:113-116 | adding n days adds n to the day number |
| Calendar.DayNumberOrder | apps/web/src/pages/Dashboard.tsx:454 | calendar order equals day-number order |
| Calendar.DayNumberInjective | apps/web/src/pages/Dashboard.tsx:454 | distinct dates have distinct day numbers |
| Calendar.IsoDate | apps/web/src/pages/Dashboard.tsx:451-452 | the text is ten characters with dashes at positions 4 and 7 |
| Calendar.DateString | apps/web/src/components/ActivityModal.tsx:125 | `toISOString().split('T')[0]` equals the `YYYY-MM-DD` text for years 0..9999 |
| Calendar.LocalIsIso | apps/web/src/pages/Dashboard.tsx:462-465 | the page's hand-built local date text equals the ISO text for four-digit years |
| Calendar.IsoDateOrder | apps/web/src/pages/Dashboard.tsx:454 | string order of two date texts is calendar order |
| Calendar.IsoDateLeIff | apps/web/src/pages/Dashboard.tsx:454 | `<=` and `<` on date texts are `<=` and `<` on day numbers |
| Calendar.IsoDateInjective | apps/web/src/pages/Dashboard.tsx:451-452 | two dates have the same text exactly when they are equal |
| Calendar.WeekNumber | apps/web/src/pages/Dashboard.tsx:537-543 | the week number is between 1 and 53 |
| Calendar.WeekNumberConstant | apps/web/src/pages/Dashboard.tsx:537-543 | all seven days of a Monday-based week get the same number |
| Calendar.FourthOfJanuaryInWeekOne | apps/web/src/pages/Dashboard.tsx:537-543 | 4 January is always in week 1, as section 4.1.4 of ISO 8601:2004 requires |
| Clock.HmRoundTrip | apps/web/src/components/ActivityModal.tsx:81-84 | `split(':').map(Number)` reads back the hour and minute that `padStart` wrote |
| Clock.HmOrder | apps/web/src/components/ActivityModal.tsx:293-294 | string order of `HH:MM` texts is time order |
| Clock.HmInjective | apps/web/src/components/ActivityModal.tsx:84 | two times have the same text exactly when they are equal |
| Text.ParseDecimalString | apps/web/src/components/ActivityModal.tsx:81 | `Number` reads back what `String` wrote for a natural number |
| Text.Pad2 | apps/web/src/components/ActivityModal.tsx:84 | `padStart(2,'0')` adds a leading zero only below 10 |
| Text.Lower | apps/web/src/pages/Dashboard.tsx:506 | `toLowerCase` maps every character and keeps the length |
| Text.Trim | apps/web/src/components/ActivityModal.tsx:138 | the result has no leading or trailing space; it is empty exactly when the input is all spaces |
| Text.JoinSplit | apps/web/src/pages/Dashboard.tsx:584 | joining the pieces of `split` gives back the text |
| Text.SplitPair | apps/web/src/pages/Dashboard.tsx:584 | splitting `a-b` gives `[a, b]` when neither piece contains `-` |
| Text.Or | apps/web/src/lib/openai-multistep.ts:541 | `a || b` is a unless a is empty |
| Text.DigitsLt | apps/web/src/pages/Dashboard.tsx:454 | zero-padded numbers of equal width compare as strings as they do as numbers |
| Lists.Filter | apps/web/src/pages/Dashboard.tsx:441-513 | keeps exactly the items passing the test |
| Lists.Toggle | apps/web/src/pages/Onboarding.tsx:103-113 | the item is removed when present and appended when absent; other items are untouched |
| Lists.ToggleTwice | apps/web/src/components/GeneratePlanModal.tsx:187-199 | toggling an absent item twice gives back the list |
| Lists.ToggleCapped | apps/web/src/pages/Onboarding.tsx:115-134 | the curriculum handler's two-item cap: the item flips, a third item would drop the oldest, and the list never grows past two |
| Lists.EnabledToggleKeepsOthers | apps/web/src/pages/Onboarding.tsx:556 | while the button is enabled the toggle flips only its own item: no other choice is dropped or added |
| Lists.RemoveAt | apps/web/src/components/ActivityModal.tsx:167-186 | removes exactly position i; an index out of range changes nothing |
| Lists.IndexOf | apps/web/src/lib/openai-multistep.ts:348-352 | the first position of the item, or -1 exactly when absent |
| ChildIds.FindByName | apps/web/src/lib/openai-multistep.ts:540-542 | the first child whose lower-cased name matches, or none when no child matches |
| ChildIds.FindById | apps/web/src/lib/openai-multistep.ts:117 | the first child with the id, or none |
| ChildIds.ResolveChildId | apps/web/src/lib/openai-multistep.ts:529-545 | a UUID-shaped id is kept; otherwise the first child matching the name (or the id as a name), else the first roster child, else the id unchanged |
| MockData.TimeSlotsAreHalfHours | apps/web/src/lib/mockData.ts:105-110 | 23 slots, slot i is 09:00 plus i half hours |
| MockData.TimeSlotsAscending | apps/web/src/lib/mockData.ts:105-110 | the slots are in strictly increasing order |
| MockData.WeekDaysLayout | apps/web/src/lib/mockData.ts:112 | seven days from Monday, with the weekend at positions 5 and 6 |
| MockData.FixtureFacts | apps/web/src/lib/mockData.ts:62-103 | fixture ids are distinct; all fixtures are undated Monday activities; one refers to a child id not among the fixture children |
| MultiStep.BraceSpan | apps/web/src/lib/openai-multistep.ts:248 | the greedy span from the first `{` to the last `}`, or none when no `{` precedes a `}` |
| MultiStep.BraceSpanWhole | apps/web/src/lib/openai-multistep.ts:248 | a reply that is one object is its own span |
| MultiStep.BraceSpanIgnoresProse | apps/web/src/lib/openai-multistep.ts:248 | brace-free prose around an object is cut away |
| MultiStep.DecodeOutline | apps/web/src/lib/openai-multistep.ts:243-258 | a whole-text parse wins; otherwise the brace span is parsed; no span gives NoJsonObject and a bad span InvalidJson |
| MultiStep.OutlineItems | apps/web/src/lib/openai-multistep.ts:260-264 | the items are `activities`, else `outline`, else the array itself; anything else is NotAList |
| MultiStep.RepairOutline | apps/web/src/lib/openai-multistep.ts:260-264 | every outline item keeps its fields with the child id resolved |
| MultiStep.GenerateOutline | apps/web/src/lib/openai-multistep.ts:174-264 | HTTP failure, missing content and decode errors become errors; otherwise the repaired items |
| MultiStep.FallbackDetails | apps/web/src/lib/openai-multistep.ts:329-346 | the fallback description is the concept summary or the default text, with four template instructions and three objectives |
| MultiStep.DetailOutcome | apps/web/src/lib/openai-multistep.ts:272-369 | a child missing from the roster or a failed request is an error; every other reply gives an activity |
| MultiStep.DetailFields | apps/web/src/lib/openai-multistep.ts:354-368 | the activity copies id, child, title, subject, day and times, has empty materials, is enhanced, and carries the date |
| MultiStep.DetailDateFacts | apps/web/src/lib/openai-multistep.ts:348-352 | a school day lands in Monday's week at its offset; an unknown day name lands on the Sunday before |
| MultiStep.Enrich | apps/web/src/lib/openai-multistep.ts:375-433 | failures are errors; a parsed table sets each activity's materials from the table or the default list and changes nothing else |
| MultiStep.EnrichFields | apps/web/src/lib/openai-multistep.ts:428-433 | per activity: the table's materials when titled in it, else the defaults; id, title, description and date are kept |
| MultiStep.Cohesion | apps/web/src/lib/openai-multistep.ts:440-519 | keeps the length; any reply that is not parsed leaves the activities unchanged |
| MultiStep.CohesionFields | apps/web/src/lib/openai-multistep.ts:500-514 | only title and description change: a non-empty new title replaces the title and the theme is appended in parentheses |
| MultiStep.CohesionWithoutTable | apps/web/src/lib/openai-multistep.ts:500-514 | a reply without a table changes nothing |
| MultiStep.DetailsInOrder | apps/web/src/lib/openai-multistep.ts:102-128 | on success the k details are the per-item results in outline order |
| MultiStep.FailureSticks | apps/web/src/lib/openai-multistep.ts:102-128 | the first failure stops the loop; later items are not attempted |
| MultiStep.DetailsFail | apps/web/src/lib/openai-multistep.ts:102-128 | the loop fails exactly when some item's child is missing or its request fails |
| MultiStep.DetailProgress | apps/web/src/lib/openai-multistep.ts:108-113 | progress while detailing stays in [25, 75) |
| MultiStep.DetailProgressGrows | apps/web/src/lib/openai-multistep.ts:108-113 | progress never decreases from item to item |
| MultiStep.DetailEventsRise | apps/web/src/lib/openai-multistep.ts:108-113 | the detail events are non-decreasing and inside [25, 75) |
| MultiStep.FinishShape | apps/web/src/lib/openai-multistep.ts:102-161 | on success there is one activity per outline item, copying its child, day, times and date |
| MultiStep.PipelineStart | apps/web/src/lib/openai-multistep.ts:39-99 | no key is MissingApiKey; given concepts, no outline is requested; a failed outline request is an HTTP error |
| MultiStep.DetailLoop | apps/web/src/lib/openai-multistep.ts:102-128 | the loop computes the specified detail list and emits one progress event per attempted item |
| MultiStep.RunFinish | apps/web/src/lib/openai-multistep.ts:130-161 | events stay in [25, 100] and never decrease; the result is Ok exactly when the last event is the final 100 |
| MultiStep.Run | apps/web/src/lib/openai-multistep.ts:30-168 | equals the specified pipeline; no key emits nothing; the first event is 25 with concepts, else 0; events never decrease within 0..100; Ok exactly when the last event is 100 |
| Concepts.ConceptEndTimeRule | apps/web/src/lib/openai-concepts.ts:219-224 | the end time is an hour and a half later on the hour, and half an hour later on the half hour |
| Concepts.EndTimeRulesDiffer | apps/web/src/lib/openai-concepts.ts:219-224 | this rule and the one-hour rule of the one-shot generator give different end times for 09:00 and 09:30 |
| Concepts.RepairFields | apps/web/src/lib/openai-concepts.ts:137-141 | each concept keeps its fields except a fresh id and a resolved child id |
| Concepts.GenerateConceptsOnly | apps/web/src/lib/openai-concepts.ts:22-146 | no key gives the mock concepts; a failed request is HttpStatus; empty or unparseable content is InvalidJson; a falsy list is empty; a non-list is NotAList; a list is repaired |
| Concepts.ConceptCount | apps/web/src/lib/openai-concepts.ts:177-180 | per day at most the maximum and at most 3, and at least 2 when the maximum allows |
| Concepts.ConceptDayCount | apps/web/src/lib/openai-concepts.ts:177-180 | the same bound per child and day; a negative maximum gives none |
| Concepts.MockConceptDay | apps/web/src/lib/openai-concepts.ts:177-197 | the inner loop builds the specified day's concepts |
| Concepts.MockConceptWeek | apps/web/src/lib/openai-concepts.ts:172-200 | the day loop builds the specified week |
| Concepts.MockConceptChild | apps/web/src/lib/openai-concepts.ts:172-200 | the child's block is the specified week for that child |
| Concepts.GenerateMockConcepts | apps/web/src/lib/openai-concepts.ts:151-203 | the loops build the specified mock plan |
| Concepts.MockConceptFacts | apps/web/src/lib/openai-concepts.ts:186-197 | each mock concept belongs to the child, sits on a school day and slot with the concept end time, and takes title, subject and summary from one idea |
| Concepts.ConceptDayShape | apps/web/src/lib/openai-concepts.ts:156-197 | a day's concepts respect the count bounds, occupy the first slots, and never share a start time |
| Concepts.ConceptPlanGood | apps/web/src/lib/openai-concepts.ts:151-203 | every mock concept in the plan is well formed for the preferences |
| Concepts.NoKeyGivesMocks | apps/web/src/lib/openai-concepts.ts:29-32 | without a key the result is Ok and every concept is well formed |
| OpenAI.AssembleConstraints | apps/web/src/lib/openai.ts:75-90 | the two fixed lines, then the field-trip, group and avoid lines each exactly when enabled |
| OpenAI.EnhancePrompt | apps/web/src/lib/openai.ts:121-150 | the base prompt followed by each non-empty custom section; with no custom settings it is the base |
| OpenAI.DayOffset | apps/web/src/lib/openai.ts:233-241 | the offset of a week-day name from Monday; unknown names give 0 |
| OpenAI.ScheduledDateFacts | apps/web/src/lib/openai.ts:228-241 | a scheduled date is in the chosen week on the named weekday; an unknown name gives the Monday |
| OpenAI.LastByName | apps/web/src/lib/openai.ts:243-247 | the name map keeps the last child with a given lower-cased name |
| OpenAI.MapChildId | apps/web/src/lib/openai.ts:256-274 | an empty or UUID-shaped id is kept; a name maps to the last child with it; otherwise the first selected child id |
| OpenAI.GenerateActivities | apps/web/src/lib/openai.ts:152-291 | no key, a failed request, missing content, unparseable content and a truthy non-list `activities` are their errors; Ok exactly when the reply parses to a falsy or list `activities`, giving [] or the transformed list |
| OpenAI.TransformFields | apps/web/src/lib/openai.ts:276-290 | each activity copies the reply's fields, turns missing lists into empty ones, is enhanced, and has no status |
| OpenAI.TransformDate | apps/web/src/lib/openai.ts:276-283 | each activity's date is its day within the chosen week |
| OpenAI.TransformIdsDistinct | apps/web/src/lib/openai.ts:277 | the generated ids are pairwise distinct |
| OpenAI.FallbacksDiffer | apps/web/src/lib/openai.ts:271-273 | for an unknown name this generator falls back to the first selected child while the multistep resolver falls back to the first roster child |
| OpenAI.DuplicateNamesDiffer | apps/web/src/lib/openai.ts:243-247 | with two children of one name this generator picks the last and the resolver the first |
| OpenAI.GetEndTimeOneHour | apps/web/src/lib/openai.ts:362-366 | the end time is one hour after the start, minutes kept |
| OpenAI.MockSubjects | apps/web/src/lib/openai.ts:307 | the focus subjects when any are chosen, else the full list; never empty |
| OpenAI.MockCount | apps/web/src/lib/openai.ts:319-322 | per day at most the maximum and at most 3, and at least 1 when the maximum allows |
| OpenAI.DayCount | apps/web/src/lib/openai.ts:319-322 | the same bound per child and day; a negative maximum gives none |
| OpenAI.MockDateFacts | apps/web/src/lib/openai.ts:309-312 | the d-th mock day is weekday d+1 in the chosen week |
| OpenAI.MockDay | apps/web/src/lib/openai.ts:319-356 | the inner loop builds the specified day |
| OpenAI.MockWeek | apps/web/src/lib/openai.ts:314-357 | the day loop builds the specified week |
| OpenAI.MockChild | apps/web/src/lib/openai.ts:314-357 | the child's block is the specified week for that child |
| OpenAI.MockForChildren | apps/web/src/lib/openai.ts:314-357 | the child loop builds the specified plan |
| OpenAI.GenerateMockActivities | apps/web/src/lib/openai.ts:299-360 | the mock plan for the week of the chosen start date |
| OpenAI.MockItemFacts | apps/web/src/lib/openai.ts:324-354 | each mock activity belongs to the child, sits on a school day and slot one hour long, uses a chosen subject, and is titled after subject and child |
| OpenAI.MockDayShape | apps/web/src/lib/openai.ts:305-356 | a day's activities respect the count bounds and occupy the first slots in order |
| OpenAI.MockPlanGood | apps/web/src/lib/openai.ts:299-360 | every mock activity in the plan is well formed for the preferences |
| ActivityForm.HalfHourLater | apps/web/src/components/ActivityModal.tsx:80-85 | the default end time is thirty minutes after a start on the hour or half hour |
| ActivityForm.EndAfterStart | apps/web/src/components/ActivityModal.tsx:80-85 | the default end is later than the start exactly when the minutes are at most 30 |
| ActivityForm.DraftOf | apps/web/src/components/ActivityModal.tsx:50-52 | editing starts from the activity's own title, day and times |
| ActivityForm.Blank | apps/web/src/components/ActivityModal.tsx:53-66 | a new form takes the first selected child, the first subject, the clicked day and time (or defaults), and a half-hour end |
| ActivityForm.Added | apps/web/src/components/ActivityModal.tsx:137-165 | the trimmed text is appended to the chosen list; blank text changes nothing; other lists and fields are kept |
| ActivityForm.Removed | apps/web/src/components/ActivityModal.tsx:167-186 | only the chosen list changes |
| ActivityForm.RemovedItem | apps/web/src/components/ActivityModal.tsx:167-186 | removes exactly the indexed item; an index out of range changes nothing |
| ActivityForm.RemoveAddedItem | apps/web/src/components/ActivityModal.tsx:137-186 | removing the item just added restores the list |
| ActivityForm.StartChanged | apps/web/src/components/ActivityModal.tsx:71-78 | a new start recomputes the end for a new activity only; nothing else changes |
| ActivityForm.EndOptions | apps/web/src/components/ActivityModal.tsx:293-294 | exactly the end choices later than the start (09:00 when none) |
| ActivityForm.ChoiceIsSlot | apps/web/src/components/ActivityModal.tsx:293-294 | the i-th choice is 09:00 plus i half hours, shared with the start choices |
| ActivityForm.NextChoice | apps/web/src/components/ActivityModal.tsx:80-85 | the default end for start choice i is end choice i+1 and later |
| ActivityForm.DefaultEndOffered | apps/web/src/components/ActivityModal.tsx:293-294 | the default end is always among the offered choices |
| ActivityForm.Saved | apps/web/src/components/ActivityModal.tsx:87-135 | an edit keeps its id, a new activity gets `now`; empty subject, day and times fall back to defaults; the date is the day in the current week |
| ActivityForm.ResaveClearsProgress | apps/web/src/components/ActivityModal.tsx:118-132 | as written: saving an unchanged activity clears status, completedAt, recurring and recurrenceRule |
| ActivityForm.CompletedEditForgetsCompletion | apps/web/src/components/ActivityModal.tsx:118-132 | as written: a completed activity saved unchanged is no longer completed |
| ActivityForm.SavedKeepingProgress | apps/web/src/components/ActivityModal.tsx:118-132 | corrected: an edit keeps status, completedAt and recurrence; a new activity is saved as before |
| ActivityForm.ResaveKeepsProgress | apps/web/src/components/ActivityModal.tsx:118-132 | corrected: saving an unchanged activity changes only its date and fills missing lists |
| ActivityForm.ActivityModal.constructor | apps/web/src/components/ActivityModal.tsx:50-68 | the form is the draft of the edited activity or a blank form; pending texts are empty |
| ActivityForm.ActivityModal.Type | apps/web/src/components/ActivityModal.tsx:323-386 | only the chosen pending text changes |
| ActivityForm.ActivityModal.ChangeStartTime | apps/web/src/components/ActivityModal.tsx:71-78 | the form becomes `StartChanged` of the old form |
| ActivityForm.ActivityModal.Add | apps/web/src/components/ActivityModal.tsx:137-165 | the form becomes `Added`; the pending text clears unless it was blank |
| ActivityForm.ActivityModal.Remove | apps/web/src/components/ActivityModal.tsx:167-186 | the form becomes `Removed` |
| ActivityForm.ActivityModal.Save | apps/web/src/components/ActivityModal.tsx:87-135 | returns `Saved` of the form with the date of the chosen day in the current week |
| PlanWizard.FailureText | apps/web/src/components/GeneratePlanModal.tsx:69 | the error's message, or the fallback text |
| PlanWizard.ForDetailing | apps/web/src/components/GeneratePlanModal.tsx:82-93 | a concept passes id, title, day and time; its summary falls back to its description, then to empty |
| PlanWizard.DetailInput | apps/web/src/components/GeneratePlanModal.tsx:78-93 | only selected concepts are detailed |
| PlanWizard.DetailInputAll | apps/web/src/components/GeneratePlanModal.tsx:78-93 | with everything selected, every concept is detailed in order |
| PlanWizard.SelectedIdeaReachesDetails | apps/web/src/components/GeneratePlanModal.tsx:78-93 | every selected concept reaches the details request |
| PlanWizard.DetailInputNotEmpty | apps/web/src/components/GeneratePlanModal.tsx:460 | when the details button is enabled the request is not empty |
| PlanWizard.Accepted | apps/web/src/components/GeneratePlanModal.tsx:116-122 | exactly the selected generated activities are accepted |
| PlanWizard.AcceptAll | apps/web/src/components/GeneratePlanModal.tsx:532 | with all selected, every generated activity is accepted |
| PlanWizard.AcceptNotEmpty | apps/web/src/components/GeneratePlanModal.tsx:610 | when the accept button is enabled something is accepted |
| PlanWizard.CheckedChildren | apps/web/src/components/GeneratePlanModal.tsx:153-165 | checking appends the child; unchecking removes every copy and keeps the rest |
| PlanWizard.Retitled | apps/web/src/components/GeneratePlanModal.tsx:383-388 | only the concept with the id gets the new title; the id set is unchanged |
| PlanWizard.Resummarized | apps/web/src/components/GeneratePlanModal.tsx:394-398 | only the concept with the id gets the new summary; the id set is unchanged |
| PlanWizard.PlanDialog.constructor | apps/web/src/components/GeneratePlanModal.tsx:32-47 | open on the preferences step with all children selected and the default preferences |
| PlanWizard.PlanDialog.CheckChild | apps/web/src/components/GeneratePlanModal.tsx:153-165 | the selected children become `CheckedChildren` of the old ones and nothing else changes; checking enables generation, which is disabled again only when the last chosen child is unchecked (line 301) |
| PlanWizard.PlanDialog.ToggleSubject | apps/web/src/components/GeneratePlanModal.tsx:187-199 | the focus subjects become `Toggle` of the old ones and nothing else changes |
| PlanWizard.PlanDialog.SetMaxPerDay | apps/web/src/components/GeneratePlanModal.tsx:213-220 | the slider's value 1..6 becomes the per-day maximum and nothing else changes |
| PlanWizard.PlanDialog.SetDifficulty | apps/web/src/components/GeneratePlanModal.tsx:228-236 | the clicked level becomes the difficulty and nothing else changes |
| PlanWizard.PlanDialog.SetFieldTrips | apps/web/src/components/GeneratePlanModal.tsx:258-263 | the checkbox sets the field-trip flag and nothing else changes |
| PlanWizard.PlanDialog.SetGroupActivities | apps/web/src/components/GeneratePlanModal.tsx:271-276 | the checkbox sets the group-activity flag and nothing else changes |
| PlanWizard.PlanDialog.GenerateIdeas | apps/web/src/components/GeneratePlanModal.tsx:52-72 | on success, the ideas step with the concepts all selected; on failure, the error step with the failure text, concepts and selection kept; preferences, activities and open state untouched |
| PlanWizard.PlanDialog.CheckConcept | apps/web/src/components/GeneratePlanModal.tsx:366-374 | adds or removes that concept's id from the selection and nothing else changes |
| PlanWizard.PlanDialog.SelectAllConcepts | apps/web/src/components/GeneratePlanModal.tsx:335-342 | the selection becomes all concept ids or none and nothing else changes |
| PlanWizard.PlanDialog.EditConcept | apps/web/src/components/GeneratePlanModal.tsx:422-424 | the idea's editor opens and nothing else changes |
| PlanWizard.PlanDialog.CloseEditor | apps/web/src/components/GeneratePlanModal.tsx:404-409 | Save and Cancel both close the editor; the edits already made stay |
| PlanWizard.PlanDialog.EditConceptTitle | apps/web/src/components/GeneratePlanModal.tsx:383-388 | the concepts become `Retitled` and nothing else changes |
| PlanWizard.PlanDialog.EditConceptSummary | apps/web/src/components/GeneratePlanModal.tsx:394-398 | the concepts become `Resummarized` and nothing else changes |
| PlanWizard.PlanDialog.GenerateDetails | apps/web/src/components/GeneratePlanModal.tsx:74-114 | details the selected concepts; on success, the review step with all activities selected; on failure, the error |
| PlanWizard.PlanDialog.ToggleActivity | apps/web/src/components/GeneratePlanModal.tsx:557-565 | flips one activity's selection and no other; nothing else changes |
| PlanWizard.PlanDialog.SelectAllActivities | apps/web/src/components/GeneratePlanModal.tsx:532-539 | the selection becomes all activity ids or none and nothing else changes |
| PlanWizard.PlanDialog.Back | apps/web/src/components/GeneratePlanModal.tsx:511 | returns to the preferences step and keeps everything else |
| PlanWizard.PlanDialog.Accept | apps/web/src/components/GeneratePlanModal.tsx:116-122 | returns exactly the selected activities in list order (non-empty when enabled) and closes; nothing else changes |
| PlanWizard.PlanDialog.Close | apps/web/src/components/GeneratePlanModal.tsx:135 | the close and Cancel buttons close the dialog and add nothing |
| Onboarding.Find | apps/web/src/pages/Onboarding.tsx:67 | the first child with the selected id, or none |
| Onboarding.NextSectionOrder | apps/web/src/pages/Onboarding.tsx:235-246 | sections go info, goals, curriculum, notes, one step at a time |
| Onboarding.UnlockedInOrder | apps/web/src/pages/Onboarding.tsx:195-212 | a section is unlocked only when the one before it is done |
| Onboarding.AllDoneIffComplete | apps/web/src/pages/Onboarding.tsx:188-212 | all four sections are done exactly when the child is complete |
| Onboarding.CanProceed | apps/web/src/pages/Onboarding.tsx:222-233 | continuing is allowed only from goals or curriculum of a selected child, and only when the section is done and the next is unlocked |
| Onboarding.FirstUnfinished | apps/web/src/pages/Onboarding.tsx:444-453 | the section to resume is active; there is none exactly when the child is complete |
| Onboarding.NextIncomplete | apps/web/src/pages/Onboarding.tsx:697-704 | the first child that is neither the selected one nor complete, or none when all others are complete |
| Onboarding.GoalToggled | apps/web/src/pages/Onboarding.tsx:103-113 | only the child's goals change, and only in the toggled goal |
| Onboarding.CurriculumToggled | apps/web/src/pages/Onboarding.tsx:115-134 | only the child's curricula change: the toggled one flips and at most two remain |
| Onboarding.FindAfterCurriculumToggle | apps/web/src/pages/Onboarding.tsx:115-134 | after the toggle the selected child is still the first one found, with its curricula toggled |
| Onboarding.CurriculumStaysCapped | apps/web/src/pages/Onboarding.tsx:115-134 | no child ever has more than two curricula |
| Onboarding.NotesCompleted | apps/web/src/pages/Onboarding.tsx:142-146 | only the named child's notes-done flag is set; its notes and every other child are unchanged |
| Onboarding.Without | apps/web/src/pages/Onboarding.tsx:95-101 | exactly the other children remain |
| Onboarding.Created | apps/web/src/pages/Onboarding.tsx:158-168 | the insert carries the child's name, goals and curricula and a non-empty color and emoji |
| Onboarding.ToCreate | apps/web/src/pages/Onboarding.tsx:156-169 | when all children are complete every one is sent |
| Onboarding.OnlyCompleteCreated | apps/web/src/pages/Onboarding.tsx:156-169 | only complete children are sent |
| Onboarding.EveryCompleteCreated | apps/web/src/pages/Onboarding.tsx:156-169 | every complete child is sent |
| Onboarding.CompletedChildRefused | apps/web/src/pages/Onboarding.tsx:158-168 | as written: the store refuses a completed child's insert |
| Onboarding.CompletedChildStored | apps/web/src/pages/Onboarding.tsx:158-168 | corrected: with the snake-case key the insert succeeds and the curricula read back |
| Onboarding.CreateComplete | apps/web/src/pages/Onboarding.tsx:156-169 | the loop sends a prefix of the complete children in order; without failure all were stored; a failure means one insert failed |
| Onboarding.OnboardingPage.constructor | apps/web/src/pages/Onboarding.tsx:58-65 | no children, nothing selected, the info section, empty inputs |
| Onboarding.OnboardingPage.TypeInfo | apps/web/src/pages/Onboarding.tsx:285 | only the three inputs change |
| Onboarding.OnboardingPage.AddChild | apps/web/src/pages/Onboarding.tsx:69-93 | a missing name or age changes nothing; otherwise the child is appended and selected, the goals section opens, and the inputs clear |
| Onboarding.OnboardingPage.RemoveChild | apps/web/src/pages/Onboarding.tsx:95-101 | the child is removed; removing the selected child selects the first remaining one or none |
| Onboarding.OnboardingPage.Select | apps/web/src/pages/Onboarding.tsx:285 | only the selection changes |
| Onboarding.OnboardingPage.StartAnother | apps/web/src/pages/Onboarding.tsx:310-312 | clears the selection and opens the info section |
| Onboarding.OnboardingPage.ToggleGoal | apps/web/src/pages/Onboarding.tsx:103-113 | the children become `GoalToggled` |
| Onboarding.OnboardingPage.ToggleCurriculum | apps/web/src/pages/Onboarding.tsx:115-134 | the children become `CurriculumToggled` |
| Onboarding.OnboardingPage.ClickCurriculum | apps/web/src/pages/Onboarding.tsx:553-556 | a disabled button (two other types chosen) changes nothing; an enabled one toggles the selected child's type and keeps every other choice |
| Onboarding.OnboardingPage.UpdateNotes | apps/web/src/pages/Onboarding.tsx:136-140 | only the child's notes change |
| Onboarding.OnboardingPage.FinishNotes | apps/web/src/pages/Onboarding.tsx:711-716 | marks the selected child's notes done (`NotesCompleted`, its notes as typed) and opens the completion view |
| Onboarding.OnboardingPage.SectionClick | apps/web/src/pages/Onboarding.tsx:214-219 | a locked section is ignored; any other becomes active |
| Onboarding.OnboardingPage.Proceed | apps/web/src/pages/Onboarding.tsx:248-253 | moves to the next section when there is one |
| Onboarding.OnboardingPage.ContinueSetup | apps/web/src/pages/Onboarding.tsx:444-453 | opens the first unfinished section of the selected child |
| Onboarding.OnboardingPage.NextChild | apps/web/src/pages/Onboarding.tsx:697-704 | selects another incomplete child on its goals section, when there is one |
| Onboarding.OnboardingPage.Finish | apps/web/src/pages/Onboarding.tsx:148-186 | without a user nothing is sent; otherwise the complete children are sent in order and a failure is reported |
| Settings.Find | apps/web/src/pages/Settings.tsx:124-125 | the first child with the id, or none when no child has it |
| Settings.Replaced | apps/web/src/pages/Settings.tsx:132-149 | every child with the id becomes the given one; the rest are kept |
| Settings.GoalFlipped | apps/web/src/pages/Settings.tsx:401-409 | only the goals change, and only in the toggled goal |
| Settings.CurriculumFlipped | apps/web/src/pages/Settings.tsx:433-449 | only the curricula change: the toggled one flips and at most two remain |
| Settings.UpdatesOf | apps/web/src/pages/Settings.tsx:488-491 | the update sends the name, curricula and goals |
| Settings.RestoreUndoesEdits | apps/web/src/pages/Settings.tsx:503-512 | cancelling an edit of one child restores the list as it was |
| Settings.SavedCurriculumReadBack | apps/web/src/pages/Settings.tsx:132-149 | a saved child's curricula read back unchanged |
| Settings.SettingsPage.constructor | apps/web/src/pages/Settings.tsx:48-90 | the loaded children and profile; nothing being edited |
| Settings.SettingsPage.EditChild | apps/web/src/pages/Settings.tsx:124-130 | snapshots the child and marks it as edited |
| Settings.SettingsPage.ToggleGoal | apps/web/src/pages/Settings.tsx:401-409 | the child becomes `GoalFlipped` |
| Settings.SettingsPage.ToggleCurriculum | apps/web/src/pages/Settings.tsx:433-451 | a disabled button (two other types chosen) changes nothing; otherwise the child becomes `CurriculumFlipped`, which keeps every other choice |
| Settings.SettingsPage.SaveChild | apps/web/src/pages/Settings.tsx:488-495 | a child missing required fields is refused with a message; otherwise the updates are sent and, when stored, the edit ends |
| Settings.SettingsPage.CancelChild | apps/web/src/pages/Settings.tsx:503-512 | restores the snapshot and ends the edit |
| Settings.SettingsPage.AskDelete | apps/web/src/pages/Settings.tsx:600 | marks the child for the delete confirmation |
| Settings.SettingsPage.DeleteChild | apps/web/src/pages/Settings.tsx:151-165 | on success exactly the other children remain, in their order (`Filter`), with a removed message; on failure nothing changes and a failure message shows |
| Settings.SettingsPage.EditProfile | apps/web/src/pages/Settings.tsx:301 | enters profile editing |
| Settings.SettingsPage.TypeProfile | apps/web/src/pages/Settings.tsx:259-271 | only the profile draft changes |
| Settings.SettingsPage.SaveProfile | apps/web/src/pages/Settings.tsx:92-117 | signed out, nothing changes; stored, the draft becomes the profile with a saved message; a failure keeps editing |
| Settings.SettingsPage.CancelProfile | apps/web/src/pages/Settings.tsx:119-122 | the draft returns to the profile and editing ends |
| Records.Rows | apps/web/src/lib/database.ts:5-19 | a store error propagates; no data gives []; otherwise every row is mapped in order |
| Records.OneRow | apps/web/src/lib/database.ts:21-30 | a store error propagates; otherwise the row is mapped |
| Records.PayloadAt | apps/web/src/lib/database.ts:133-148 | a property appears in the payload exactly when it is defined, with its value |
| Records.PayloadOmits | apps/web/src/lib/database.ts:133-148 | a key not listed is never sent |
| Records.Renamed | apps/web/src/lib/database.ts:54-57 | renaming moves one column to its camel-case key and keeps every other column |
| Records.ChildFromRow | apps/web/src/lib/database.ts:15-18 | curriculumTypes is the row's curriculum_types, or [] when that is falsy |
| Records.GetChildren | apps/web/src/lib/database.ts:5-19 | errors propagate; every child read has curricula |
| Records.NewChildRow | apps/web/src/lib/database.ts:21-30 | as written: the insert carries the camel-case key and no curriculum_types column |
| Records.NewChildRowRenamed | apps/web/src/lib/database.ts:21-30 | corrected: the insert uses only table columns and carries curriculum_types |
| Records.Insert | apps/web/src/lib/database.ts:21-30 | the store accepts a row exactly when all its keys are columns, and returns it with the new id |
| Records.NewChildRefused | apps/web/src/lib/database.ts:21-30 | as written: every child insert is refused |
| Records.NewChildRoundTrip | apps/web/src/lib/database.ts:21-30 | corrected: the insert succeeds and reads back name, curricula and id |
| Records.ChildUpdateColumns | apps/web/src/lib/database.ts:34-42 | the update's keys are distinct table columns |
| Records.ChildUpdatePayload | apps/web/src/lib/database.ts:34-42 | the update sends exactly the defined fields under column names, never the camel-case key |
| Records.ChildUpdateReadBack | apps/web/src/lib/database.ts:32-58 | updated curricula read back unchanged |
| Records.NewActivityColumns | apps/web/src/lib/database.ts:93-110 | the insert's keys are distinct table columns |
| Records.NewActivityRow | apps/web/src/lib/database.ts:93-110 | the insert carries user, child and times under column names; completed_at exactly when defined; no date column |
| Records.ActivityFromRow | apps/web/src/lib/database.ts:81-88 | the five snake-case columns are renamed; all others are kept |
| Records.GetActivities | apps/web/src/lib/database.ts:70-89 | errors propagate; one activity per row |
| Records.StoredActivity | apps/web/src/lib/database.ts:121-128 | errors propagate; otherwise the stored row is mapped |
| Records.ActivityRoundTrip | apps/web/src/lib/database.ts:91-129 | an inserted activity reads back its child, times and completion |
| Records.ActivityUpdateColumns | apps/web/src/lib/database.ts:133-148 | the update's keys are distinct table columns |
| Records.ActivityUpdatePayload | apps/web/src/lib/database.ts:133-148 | the update sends exactly the defined fields under column names |
| Records.StatusChangeUpdates | apps/web/src/pages/Dashboard.tsx:398-404 | the object sent on a status change carries the new status, and a completion time exactly when completing |
| Records.StatusChangePayload | apps/web/src/lib/database.ts:131-146 | that object writes the status column, and `completed_at` only when completing, so resetting a completed activity keeps its stored completion time |

## Left out

- The store and the AI service are not called. Their answers are inputs: `Persist`, `Reply`, `Completion`, the `insert` and `stored` results, and the parsed documents. Request bodies, headers and model names are not modelled.
- `Date.now()` and `Math.random()` are inputs (`now`, `Draws`, `noise`). Dates are local calendar dates with no time zone. `toISOString` shifting a local midnight across a day boundary is not modelled, and the date text is defined for years 0..9999.
- Progress percentages are reals, not IEEE doubles.
- ScheduleView.StatsOf: the completion rate is rounded in exact arithmetic. The page computes `(completed / total) * 100` in IEEE doubles before `Math.round`, so a quotient just below a half rounds down: 23 of 40 and 46 of 80 show 57 where the model gives 58.
- `setTimeout` delays, clearing of status messages, loading spinners, keyboard shortcuts, printing, copying, and JSX rendering.
- The dashboard's "Complete All", save/load/delete-plan and clear-schedule actions (Dashboard.tsx:1237-1239 and the plan buttons). They only call the modelled status and store operations or local storage.
- Saving an accepted generated plan (Dashboard.tsx:1605-1632): one `createActivity` per accepted activity, then the created ones appended to the list with no history entry. The store calls are outside the model; `PlanDialog.Accept` gives the activities handed over.
- Settings: typing a child's name, age, grade or notes (Settings.tsx:474-478), the add-child navigation (167-169), and fetching the profile.
- Onboarding: the completed-profile click (Onboarding.tsx:607-609) and the per-child continue button (632-639) are not separate methods. Each is `Select` followed by `SectionClick` or `ContinueSetup`. The redirect and the user-metadata update after finishing are also left out.
- The custom AI settings read from local storage are an input to `OpenAI.EnhancePrompt`.
- `JSON.stringify` dropping `undefined` is modelled as absent map keys. Other JSON encoding details are not modelled.
- `toLowerCase` is ASCII only, and `trim` strips ASCII white space only.
- Map.tsx, Login.tsx, App.tsx and lib/supabase.ts are not part of this model.
- MultiStep.Detail: a roster child that is missing makes the source throw a TypeError. The model returns `Err(MissingChild)` instead.
- OpenAI.MapChildId: with no selected children the source's fallback is `undefined`; the model uses `""`.
- The identity resolver falls back to the first roster child, not to an error. Stage-two dates are anchored on the current week's Monday. In both cases the model follows the code.

## Findings

| source | as written | input that shows it | evidently intended | confidence | as-written member | corrected member |
|---|---|---|---|---|---|---|
| apps/web/src/pages/Dashboard.tsx:245 | the undo history is seeded with the mock fixtures and is not reset when the real activities load | load any list, change one status, press undo: the fixtures appear | the first undo returns to the loaded list | not executed | Dashboard.FirstUndoShowsFixtures | Dashboard.FirstUndoRestoresLoaded |
| apps/web/src/components/ActivityModal.tsx:118-132 | the saved object is rebuilt from the form only, so status, completedAt, recurring and recurrenceRule are dropped on every edit | open a completed activity and save it unchanged: it is no longer completed | an edit keeps the activity's progress and recurrence | not executed | ActivityForm.CompletedEditForgetsCompletion | ActivityForm.ResaveKeepsProgress |
| apps/web/src/lib/database.ts:21-30 | the child insert sends the camel-case key `curriculumTypes`, while the table's column is `curriculum_types` (as the update at line 39 and the read at line 17 use) | finish onboarding with any complete child: the insert is refused | the insert renames the key to `curriculum_types` | not executed | Records.NewChildRefused | Records.NewChildRoundTrip |

=== FILE: activityform.dfy ===
/**
 * The activity editor: the form behind the "Add Activity" / "Edit
 * Activity" dialog, its half-hour end-time rule, the three item lists it
 * edits, the end-time choices it offers, and the activity it hands back on
 * save with the date worked out from the week on show.
 */
module ActivityForm {
  import opened Wrappers
  import opened Text
  import opened Clock
  import opened Calendar
  import opened Lists
  import opened MockData
  import OpenAI

  // ------------------------------------------------------------ end time

  /**
   * This dialog's `getEndTime`: half past the same hour, except that a
   * start at `:30` ends on the next full hour.
   */
  function ModalEndTime(t: string): string
  {
    var h, m := Hours(t), Minutes(t);
    var endHour := if m == Some(30) then (if h.Some? then Some(h.value + 1) else None) else h;
    PadNumber(endHour) + ":" + Pad2(if m == Some(30) then 0 else 30)
  }

  /**
   * From `HH:30` the end is the next full hour, from any other minute half
   * past the same hour; on the half-hour grid that is thirty minutes later.
   */
  lemma HalfHourLater(h: nat, m: nat)
    ensures var h2, m2 := if m == 30 then h + 1 else h, if m == 30 then 0 else 30;
      ModalEndTime(Hm(h, m)) == Hm(h2, m2) && (m == 0 || m == 30 ==> 60 * h2 + m2 == 60 * h + m + 30)
  {
    HmRoundTrip(h, m);
  }

  /** The end time sorts after the start time whenever both have two-digit hours. */
  lemma EndAfterStart(h: nat, m: nat)
    requires h < 99 && m < 100
    ensures StrLt(Hm(h, m), ModalEndTime(Hm(h, m))) <==> m <= 30
  {
    HalfHourLater(h, m);
    if m == 30 {
      HmOrder(h, m, h + 1, 0);
    } else {
      HmOrder(h, m, h, 30);
    }
  }

  // ------------------------------------------------------------ form state

  /** The three item lists the dialog edits. */
  datatype Section = Materials | Instructions | Objectives

  /**
   * `formData`: the fields `handleSave` reads. Text fields the form leaves
   * empty are `""` (falsy, like `undefined`); a list may be absent.
   */
  datatype Draft = Draft(
    childId: string,
    title: string,
    subject: string,
    description: string,
    day: string,
    startTime: string,
    endTime: string,
    materials: Option<seq<string>>,
    instructions: Option<seq<string>>,
    objectives: Option<seq<string>>,
    enhanced: bool)

  /** `setFormData(activity)`: editing starts from the activity's own fields. */
  function DraftOf(a: Activity): (f: Draft)
    ensures f.title == a.title && f.day == a.day && f.startTime == a.startTime && f.endTime == a.endTime
  {
    Draft(a.childId, a.title, a.subject, a.description, a.day, a.startTime, a.endTime,
          a.materials, a.instructions, a.objectives, a.enhanced)
  }

  /**
   * The empty form for a new activity in slot (`day`, `time`): the first
   * child, the first subject, Monday and 09:00 when the slot gives none,
   * and the end time that follows the start time.
   */
  function Blank(childIds: seq<string>, day: string, time: string): (f: Draft)
    ensures f.childId == (if childIds == [] then "" else childIds[0])
    ensures f.subject == Subjects[0] && f.title == "" && f.description == ""
    ensures f.day != "" && f.startTime != ""
    ensures day != "" ==> f.day == day
    ensures time != "" ==> f.startTime == time
    ensures f.endTime == ModalEndTime(f.startTime)
    ensures f.materials == f.instructions == f.objectives == Some([]) && !f.enhanced
  {
    var start := Or(time, "09:00");
    Draft(if childIds == [] then "" else childIds[0], "", Subjects[0], "",
          Or(day, "Monday"), start, ModalEndTime(start), Some([]), Some([]), Some([]), false)
  }

  function Items(f: Draft, s: Section): Option<seq<string>>
  {
    match s
    case Materials => f.materials
    case Instructions => f.instructions
    case Objectives => f.objectives
  }

  function WithItems(f: Draft, s: Section, items: seq<string>): (r: Draft)
    ensures Items(r, s) == Some(items)
    ensures forall s' :: s' != s ==> Items(r, s') == Items(f, s')
  {
    match s
    case Materials => f.(materials := Some(items))
    case Instructions => f.(instructions := Some(items))
    case Objectives => f.(objectives := Some(items))
  }

  /** A form field other than the three lists. */
  predicate SameFields(f: Draft, g: Draft)
  {
    f.childId == g.childId && f.title == g.title && f.subject == g.subject &&
    f.description == g.description && f.day == g.day && f.startTime == g.startTime &&
    f.endTime == g.endTime && f.enhanced == g.enhanced
  }

  /** `addMaterial` and its two twins: the trimmed text goes at the end; blank text changes nothing. */
  function Added(f: Draft, s: Section, text: string): (r: Draft)
    ensures SameFields(r, f)
    ensures forall s' :: s' != s ==> Items(r, s') == Items(f, s')
    ensures Trim(text) == "" ==> r == f
    ensures Trim(text) != "" ==>
      Items(r, s) == Some(Items(f, s).GetOr([]) + [Trim(text)])
  {
    if Trim(text) == "" then f
    else WithItems(f, s, Items(f, s).GetOr([]) + [Trim(text)])
  }

  /** `removeMaterial(index)` and its twins: the list without the item at `index`. */
  function Removed(f: Draft, s: Section, index: int): (r: Draft)
    ensures SameFields(r, f)
    ensures forall s' :: s' != s ==> Items(r, s') == Items(f, s')
    ensures Items(r, s).Some?
  {
    WithItems(f, s, RemoveAt(Items(f, s).GetOr([]), index))
  }

  /**
   * Removing by index deletes exactly that item and keeps the others in
   * order; an index outside the list leaves it as it was.
   */
  lemma RemovedItem(f: Draft, s: Section, index: int)
    ensures var before, after := Items(f, s).GetOr([]), Items(Removed(f, s, index), s).value;
      (0 <= index < |before| ==>
        |after| == |before| - 1 && after[..index] == before[..index] && after[index..] == before[index + 1..]) &&
      (!(0 <= index < |before|) ==> after == before)
  {
    var before := Items(f, s).GetOr([]);
    var after := Items(Removed(f, s, index), s).value;
    if 0 <= index < |before| {
      assert after == before[..index] + before[index + 1..];
    }
  }

  /** Removing the item just added gives back the list as it was (an absent list becomes empty). */
  lemma RemoveAddedItem(f: Draft, s: Section, text: string)
    requires Trim(text) != ""
    ensures Items(Removed(Added(f, s, text), s, |Items(f, s).GetOr([])|), s) == Some(Items(f, s).GetOr([]))
  {
    var before := Items(f, s).GetOr([]);
    var grown := before + [Trim(text)];
    assert Items(Added(f, s, text), s) == Some(grown);
    assert grown[..|before|] == before && grown[|before| + 1..] == [];
    assert RemoveAt(grown, |before|) == before;
  }

  /**
   * The start-time select followed by the effect that watches it: for a
   * new activity a non-empty start time brings its end time with it; an
   * edited activity keeps the end time it has.
   */
  function StartChanged(f: Draft, t: string, editing: bool): (r: Draft)
    ensures r.startTime == t
    ensures r.endTime == (if t != "" && !editing then ModalEndTime(t) else f.endTime)
    ensures r.(startTime := f.startTime, endTime := f.endTime) == f
  {
    var g := f.(startTime := t);
    if t != "" && !editing then g.(endTime := ModalEndTime(t)) else g
  }

  // ------------------------------------------------------------ time choices

  /** The start-time choices of the select. */
  const StartTimes: seq<string> := [
    "09:00", "09:30", "10:00", "10:30", "11:00", "11:30", "12:00", "12:30",
    "13:00", "13:30", "14:00", "14:30", "15:00"]

  /** The end-time choices before filtering. */
  const EndTimes: seq<string> := [
    "09:00", "09:30", "10:00", "10:30", "11:00", "11:30", "12:00", "12:30",
    "13:00", "13:30", "14:00", "14:30", "15:00", "15:30", "16:00"]

  function After(start: string): string -> bool
  {
    (t: string) => StrLt(start, t)
  }

  /** The end times offered: those after the start time, 09:00 when none is set. */
  function EndOptions(start: string): (r: seq<string>)
    ensures forall t :: t in r <==> t in EndTimes && StrLt(Or(start, "09:00"), t)
  {
    Filter(EndTimes, After(Or(start, "09:00")))
  }

  /** The `i`-th choice of either list is `i` half hours after 09:00. */
  lemma ChoiceIsSlot(i: nat)
    requires i < |EndTimes|
    ensures EndTimes[i] == Hm(9 + i / 2, 30 * (i % 2))
    ensures i < |StartTimes| ==> StartTimes[i] == EndTimes[i]
  {
    assert EndTimes == TimeSlots[..15] && StartTimes == EndTimes[..13];
    TimeSlotsAreHalfHours();
    assert EndTimes[i] == SlotTime(i);
  }

  /** Half-hour slot `i` is followed by slot `i + 1`, which sorts after it. */
  lemma SlotStep(i: nat, h: nat, m: nat, h2: nat, m2: nat)
    requires i < 40 && h == 9 + i / 2 && m == 30 * (i % 2) && h2 == 9 + (i + 1) / 2 && m2 == 30 * ((i + 1) % 2)
    ensures ModalEndTime(Hm(h, m)) == Hm(h2, m2) && StrLt(Hm(h, m), Hm(h2, m2))
  {
    HalfHourLater(h, m);
    EndAfterStart(h, m);
    if i % 2 == 0 {
      assert h2 == h && m2 == 30;
    } else {
      assert h2 == h + 1 && m2 == 0;
    }
  }

  /** The end time filled in after the `i`-th start time is the next choice, and sorts after it. */
  lemma NextChoice(i: nat)
    requires i < |StartTimes|
    ensures StartTimes[i] != ""
    ensures ModalEndTime(StartTimes[i]) == EndTimes[i + 1] && StrLt(StartTimes[i], EndTimes[i + 1])
  {
    var h, m, h2, m2 := 9 + i / 2, 30 * (i % 2), 9 + (i + 1) / 2, 30 * ((i + 1) % 2);
    ChoiceIsSlot(i);
    ChoiceIsSlot(i + 1);
    var start, end := StartTimes[i], EndTimes[i + 1];
    assert start == Hm(h, m) && end == Hm(h2, m2);
    SlotStep(i, h, m, h2, m2);
  }

  /** For every start time offered, the end time the form fills in is among the end times offered. */
  lemma DefaultEndOffered(i: nat)
    requires i < |StartTimes|
    ensures ModalEndTime(StartTimes[i]) in EndOptions(StartTimes[i])
  {
    NextChoice(i);
    var start := StartTimes[i];
    assert Or(start, "09:00") == start;
    assert EndTimes[i + 1] in EndTimes;
  }

  // ------------------------------------------------------------ saving

  /**
   * The activity `handleSave` builds from the form: an edit keeps its id
   * and a new activity is named after the clock; empty fields fall back to
   * the first subject, the slot's day and time and the end time after it;
   * absent lists become empty. Status, completion time and recurrence are
   * not carried over.
   */
  function Saved(f: Draft, editing: Option<Activity>, slotDay: string, slotTime: string,
                 date: string, now: nat): (a: Activity)
    ensures editing.Some? && editing.value.id != "" ==> a.id == editing.value.id
    ensures editing.None? || editing.value.id == "" ==> a.id == DecimalString(now)
    ensures a.subject == (if f.subject == "" then Subjects[0] else f.subject)
    ensures a.day == (if f.day == "" then slotDay else f.day)
    ensures a.startTime == (if f.startTime == "" then slotTime else f.startTime)
    ensures a.endTime == (if f.endTime == "" then ModalEndTime(slotTime) else f.endTime)
    ensures a.date == Some(date)
    ensures forall s :: Items(DraftOf(a), s) == Some(Items(f, s).GetOr([]))
    ensures a.status.None? && a.completedAt.None?
  {
    Activity(
      Or(if editing.Some? then editing.value.id else "", DecimalString(now)),
      f.childId, f.title, Or(f.subject, Subjects[0]), f.description,
      Or(f.day, slotDay), Some(date),
      Or(f.startTime, slotTime), Or(f.endTime, ModalEndTime(slotTime)),
      Some(f.materials.GetOr([])), Some(f.instructions.GetOr([])), Some(f.objectives.GetOr([])),
      f.enhanced, None, None, None, None)
  }

  /**
   * Opening an activity and saving it unchanged gives it back with the new
   * date, its lists made present, and its status, completion time and
   * recurrence cleared.
   */
  lemma ResaveClearsProgress(a: Activity, slotDay: string, slotTime: string, date: string, now: nat)
    requires a.id != "" && a.subject != "" && a.day != "" && a.startTime != "" && a.endTime != ""
    ensures Saved(DraftOf(a), Some(a), slotDay, slotTime, date, now) ==
      a.(date := Some(date), materials := Some(a.materials.GetOr([])),
         instructions := Some(a.instructions.GetOr([])), objectives := Some(a.objectives.GetOr([])),
         status := None, completedAt := None, recurring := None, recurrenceRule := None)
  {
  }

  /** A completed activity opened and saved comes back without its status. */
  lemma CompletedEditForgetsCompletion(a: Activity, date: string, now: nat)
    requires a.id != "" && a.subject != "" && a.day != "" && a.startTime != "" && a.endTime != ""
    requires a.status == Some(Completed)
    ensures Saved(DraftOf(a), Some(a), a.day, a.startTime, date, now).status != a.status
  {
    ResaveClearsProgress(a, a.day, a.startTime, date, now);
  }

  /** The save with the edited activity's progress and recurrence carried over. */
  function SavedKeepingProgress(f: Draft, editing: Option<Activity>, slotDay: string, slotTime: string,
                                date: string, now: nat): (a: Activity)
    ensures editing.Some? ==>
      a.status == editing.value.status && a.completedAt == editing.value.completedAt &&
      a.recurring == editing.value.recurring && a.recurrenceRule == editing.value.recurrenceRule
    ensures editing.None? ==> a == Saved(f, editing, slotDay, slotTime, date, now)
  {
    var a := Saved(f, editing, slotDay, slotTime, date, now);
    match editing
    case None => a
    case Some(e) =>
      a.(status := e.status, completedAt := e.completedAt, recurring := e.recurring, recurrenceRule := e.recurrenceRule)
  }

  /** With progress carried over, saving an opened activity unchanged changes only its date and absent lists. */
  lemma ResaveKeepsProgress(a: Activity, slotDay: string, slotTime: string, date: string, now: nat)
    requires a.id != "" && a.subject != "" && a.day != "" && a.startTime != "" && a.endTime != ""
    ensures SavedKeepingProgress(DraftOf(a), Some(a), slotDay, slotTime, date, now) ==
      a.(date := Some(date), materials := Some(a.materials.GetOr([])),
         instructions := Some(a.instructions.GetOr([])), objectives := Some(a.objectives.GetOr([])))
  {
    ResaveClearsProgress(a, slotDay, slotTime, date, now);
  }

  // ------------------------------------------------------------ the dialog

  /** The open dialog: its props and its form state. */
  class ActivityModal {
    const editing: Option<Activity>
    const slotDay: string
    const slotTime: string
    var form: Draft
    var newMaterial: string
    var newInstruction: string
    var newObjective: string

    function Pending(s: Section): string
      reads this
    {
      match s
      case Materials => newMaterial
      case Instructions => newInstruction
      case Objectives => newObjective
    }

    /**
     * Opening the dialog: an activity to edit fills the form, otherwise the
     * blank form for the slot; the three item inputs are empty.
     */
    constructor(editing: Option<Activity>, childIds: seq<string>, day: string, time: string)
      ensures this.editing == editing && slotDay == day && slotTime == time
      ensures form == (if editing.Some? then DraftOf(editing.value) else Blank(childIds, day, time))
      ensures newMaterial == newInstruction == newObjective == ""
    {
      this.editing := editing;
      slotDay := day;
      slotTime := time;
      form := if editing.Some? then DraftOf(editing.value) else Blank(childIds, day, time);
      newMaterial, newInstruction, newObjective := "", "", "";
    }

    /** Typing into one of the item inputs. */
    method Type(s: Section, text: string)
      modifies this
      ensures form == old(form)
      ensures Pending(s) == text
      ensures forall s' :: s' != s ==> Pending(s') == old(Pending(s'))
    {
      match s
      case Materials => newMaterial := text;
      case Instructions => newInstruction := text;
      case Objectives => newObjective := text;
    }

    method ChangeStartTime(t: string)
      modifies this
      ensures form == StartChanged(old(form), t, editing.Some?)
      ensures forall s :: Pending(s) == old(Pending(s))
    {
      var f := form.(startTime := t);
      if f.startTime != "" && editing.None? {
        f := f.(endTime := ModalEndTime(Or(f.startTime, "09:00")));
      }
      form := f;
    }

    /** The Add button of a list: the trimmed input goes on the list and the input is cleared. */
    method Add(s: Section)
      modifies this
      ensures form == Added(old(form), s, old(Pending(s)))
      ensures Pending(s) == (if Trim(old(Pending(s))) == "" then old(Pending(s)) else "")
      ensures forall s' :: s' != s ==> Pending(s') == old(Pending(s'))
    {
      var text := Pending(s);
      if Trim(text) != "" {
        form := WithItems(form, s, Items(form, s).GetOr([]) + [Trim(text)]);
        Type(s, "");
      }
    }

    /** The remove button of the item at `index`. */
    method Remove(s: Section, index: int)
      modifies this
      ensures form == Removed(old(form), s, index)
      ensures forall s' :: Pending(s') == old(Pending(s'))
    {
      var items := match Items(form, s) case Some(l) => RemoveAt(l, index) case None => [];
      form := WithItems(form, s, items);
    }

    /**
     * `handleSave`: the week on show (today when none is given) is moved
     * back to its Monday, then on by the offset of the form's day (the
     * slot's day when the form has none), and the activity is built from
     * the form with that date.
     */
    method Save(currentWeek: Option<Date>, today: Date, now: nat) returns (a: Activity)
      requires ValidDate(currentWeek.GetOr(today))
      ensures a == Saved(form, editing, slotDay, slotTime,
                         DateString(OpenAI.ScheduledDate(currentWeek.GetOr(today), Or(form.day, slotDay))), now)
    {
      var base := currentWeek.GetOr(today);
      var dayOfWeek := Weekday(base);
      var monday := AddDays(base, if dayOfWeek == 0 then -6 else 1 - dayOfWeek);
      assert monday == MondayOf(base);
      var target := AddDays(monday, OpenAI.DayOffset(Or(form.day, slotDay)));
      a := Saved(form, editing, slotDay, slotTime, DateString(target), now);
    }
  }
}

=== FILE: board.dfy ===
/**
 * The schedule store of the dashboard page: the activity list, the linear
 * undo history of full snapshots with its index, and the edits that change
 * the list (status change, drag to a slot, save from the modal, delete).
 *
 * The store's persistence calls are an oracle: `Persist` says whether no
 * call was made (nobody is logged in), the call succeeded, or it threw.
 */
module Dashboard {
  import opened Wrappers
  import opened Text
  import opened Lists
  import opened MockData

  /** The outcome of the persistence call that follows an optimistic edit. */
  datatype Persist = Offline | Stored | Rejected

  /** The undo state: the list on screen, the snapshots, and the current snapshot. */
  datatype Board = Board(activities: seq<Activity>, history: seq<seq<Activity>>, index: int)

  predicate Consistent(b: Board)
  {
    0 <= b.index < |b.history|
  }

  /** The state on mount: no activities yet, and a history holding only the fixtures. */
  function Initial(): Board
  {
    Board([], [MockActivities], 0)
  }

  /** Loading the user's list (or the fixtures when loading throws) replaces the list only. */
  function Loaded(b: Board, loaded: Option<seq<Activity>>): (r: Board)
    ensures r.history == b.history && r.index == b.index
    ensures loaded.None? ==> r.activities == MockActivities
    ensures loaded.Some? ==> r.activities == loaded.value
  {
    b.(activities := loaded.GetOr(MockActivities))
  }

  /** Loading that also restarts the history from the loaded list. */
  function LoadedSeeded(b: Board, loaded: Option<seq<Activity>>): (r: Board)
    ensures Consistent(r) && r.index == 0 && |r.history| == 1
    ensures r.history[0] == r.activities
    ensures loaded.Some? ==> r.activities == loaded.value
  {
    var acts := loaded.GetOr(MockActivities);
    Board(acts, [acts], 0)
  }

  // ------------------------------------------------------------ history

  /**
   * `saveToHistory`: the snapshots after the current one are dropped, the
   * new list is appended, becomes current and is shown.
   */
  function Recorded(b: Board, acts: seq<Activity>): (r: Board)
    requires Consistent(b)
    ensures Consistent(r) && r.index == |r.history| - 1
    ensures r.history[..r.index] == b.history[..b.index + 1]
    ensures r.history[r.index] == acts && r.activities == acts
  {
    Board(acts, b.history[..b.index + 1] + [acts], b.index + 1)
  }

  /** `undo`: step back one snapshot when there is one, else nothing. */
  function Undone(b: Board): (r: Board)
    requires Consistent(b)
    ensures Consistent(r) && r.history == b.history
    ensures b.index > 0 ==> r.index == b.index - 1 && r.activities == b.history[b.index - 1]
    ensures b.index == 0 ==> r == b
  {
    if b.index > 0 then Board(b.history[b.index - 1], b.history, b.index - 1) else b
  }

  /** `redo`: step forward one snapshot when there is one, else nothing. */
  function Redone(b: Board): (r: Board)
    requires Consistent(b)
    ensures Consistent(r) && r.history == b.history
    ensures b.index < |b.history| - 1 ==> r.index == b.index + 1 && r.activities == b.history[b.index + 1]
    ensures b.index == |b.history| - 1 ==> r == b
  {
    if b.index < |b.history| - 1 then Board(b.history[b.index + 1], b.history, b.index + 1) else b
  }

  /** `n` presses of undo. */
  function Undos(b: Board, n: nat): (r: Board)
    requires Consistent(b)
    ensures Consistent(r)
    decreases n
  {
    if n == 0 then b else Undos(Undone(b), n - 1)
  }

  /** `n` presses of redo. */
  function Redos(b: Board, n: nat): (r: Board)
    requires Consistent(b)
    ensures Consistent(r)
    decreases n
  {
    if n == 0 then b else Redos(Redone(b), n - 1)
  }

  /** Pressing undo `n` times, for `n` up to the index, shows the snapshot `n` back. */
  lemma {:induction false} UndosReach(b: Board, n: nat)
    requires Consistent(b) && 1 <= n <= b.index
    ensures Undos(b, n) == Board(b.history[b.index - n], b.history, b.index - n)
    decreases n
  {
    if n > 1 {
      UndosReach(Undone(b), n - 1);
    }
  }

  /** Pressing redo `n` times, while snapshots remain ahead, shows the snapshot `n` ahead. */
  lemma {:induction false} RedosReach(b: Board, n: nat)
    requires Consistent(b) && 1 <= n && b.index + n < |b.history|
    ensures Redos(b, n) == Board(b.history[b.index + n], b.history, b.index + n)
    decreases n
  {
    if n > 1 {
      RedosReach(Redone(b), n - 1);
    }
  }

  /** Undoing `n` steps and redoing them returns to the current snapshot. */
  lemma UndosThenRedos(b: Board, n: nat)
    requires Consistent(b) && 1 <= n <= b.index
    ensures Redos(Undos(b, n), n) == Board(b.history[b.index], b.history, b.index)
  {
    UndosReach(b, n);
    RedosReach(Undos(b, n), n);
  }

  /** After a recording, undo shows the snapshot that was current before it. */
  lemma UndoAfterRecord(b: Board, acts: seq<Activity>)
    requires Consistent(b)
    ensures Undone(Recorded(b, acts)).activities == b.history[b.index]
    ensures Undone(Recorded(b, acts)).index == b.index
  {
  }

  /** A recording discards the redo branch: redo right after it does nothing. */
  lemma RecordDropsRedo(b: Board, acts: seq<Activity>)
    requires Consistent(b)
    ensures Redone(Recorded(b, acts)) == Recorded(b, acts)
    ensures |Recorded(b, acts).history| == b.index + 2
  {
  }

  // ------------------------------------------------------------ lookups and list updates

  predicate HasActivity(acts: seq<Activity>, id: string)
  {
    exists a :: a in acts && a.id == id
  }

  /** `activities.find(a => a.id === id)`, as the position of the first match. */
  function FindActivity(acts: seq<Activity>, id: string): (r: Option<nat>)
    ensures r.None? <==> !HasActivity(acts, id)
    ensures r.Some? ==> r.value < |acts| && acts[r.value].id == id
    ensures r.Some? ==> forall k :: 0 <= k < r.value ==> acts[k].id != id
  {
    FindFrom(acts, id, 0)
  }

  function FindFrom(acts: seq<Activity>, id: string, k: nat): (r: Option<nat>)
    requires k <= |acts|
    ensures r.None? <==> forall j :: k <= j < |acts| ==> acts[j].id != id
    ensures r.Some? ==> k <= r.value < |acts| && acts[r.value].id == id
    ensures r.Some? ==> forall j :: k <= j < r.value ==> acts[j].id != id
    decreases |acts| - k
  {
    if k == |acts| then None
    else if acts[k].id == id then Some(k)
    else FindFrom(acts, id, k + 1)
  }

  /** `acts.map(a => a.id === id ? x : a)`. */
  function Replace(acts: seq<Activity>, id: string, x: Activity): (r: seq<Activity>)
    ensures |r| == |acts|
    ensures forall i :: 0 <= i < |acts| && acts[i].id != id ==> r[i] == acts[i]
    ensures forall i :: 0 <= i < |acts| && acts[i].id == id ==> r[i] == x
  {
    seq(|acts|, i requires 0 <= i < |acts| => if acts[i].id == id then x else acts[i])
  }

  /** With distinct ids, putting back the item already stored under its id changes nothing. */
  lemma ReplaceWithSelf(acts: seq<Activity>, k: nat)
    requires DistinctIds(acts) && k < |acts|
    ensures Replace(acts, acts[k].id, acts[k]) == acts
  {
    var r := Replace(acts, acts[k].id, acts[k]);
    forall i | 0 <= i < |acts| ensures r[i] == acts[i] {
      if i != k {
        assert i < k ==> acts[i].id != acts[k].id;
        assert i > k ==> acts[k].id != acts[i].id;
      }
    }
  }

  // ------------------------------------------------------------ status change

  /** The item with its new status, stamped with the time only when it is completed. */
  function WithStatus(a: Activity, status: Status, now: string): (r: Activity)
    ensures r.status == Some(status)
    ensures r.completedAt.Some? <==> status == Completed
    ensures status == Completed ==> r.completedAt == Some(now)
    ensures r.(status := a.status, completedAt := a.completedAt) == a
  {
    a.(status := Some(status), completedAt := if status == Completed then Some(now) else None)
  }

  /** The list after the status change of every item with the given id. */
  function SetStatus(acts: seq<Activity>, id: string, status: Status, now: string): (r: seq<Activity>)
    ensures |r| == |acts|
    ensures forall i :: 0 <= i < |acts| ==> r[i].id == acts[i].id
    ensures forall i :: 0 <= i < |acts| && acts[i].id != id ==> r[i] == acts[i]
    ensures forall i :: 0 <= i < |acts| && acts[i].id == id ==>
              r[i].status == Some(status) && (r[i].completedAt.Some? <==> status == Completed)
  {
    seq(|acts|, i requires 0 <= i < |acts| =>
      if acts[i].id == id then WithStatus(acts[i], status, now) else acts[i])
  }

  /**
   * `updateActivityStatus`: an unknown id does nothing. Otherwise the new
   * list is shown and recorded; when the store then rejects the change the
   * old list is shown again, but the recorded snapshot stays.
   */
  function ChangeStatus(b: Board, id: string, status: Status, now: string, p: Persist): (r: Board)
    requires Consistent(b)
    ensures Consistent(r)
    ensures !HasActivity(b.activities, id) ==> r == b
    ensures HasActivity(b.activities, id) ==>
              r.history == Recorded(b, SetStatus(b.activities, id, status, now)).history &&
              r.index == b.index + 1
    ensures HasActivity(b.activities, id) && p != Rejected ==>
              r.activities == SetStatus(b.activities, id, status, now)
    ensures HasActivity(b.activities, id) && p == Rejected ==> r.activities == b.activities
  {
    if !HasActivity(b.activities, id) then b
    else
      var r := Recorded(b, SetStatus(b.activities, id, status, now));
      if p == Rejected then r.(activities := b.activities) else r
  }

  /**
   * A rejected status change still leaves its snapshot as the current one,
   * though the list shown is the one before it, and the redo branch is gone.
   */
  lemma RejectedStatusKeepsSnapshot(b: Board, id: string, status: Status, now: string)
    requires Consistent(b) && HasActivity(b.activities, id)
    ensures var r := ChangeStatus(b, id, status, now, Rejected);
      r.activities == b.activities && r.history[r.index] == SetStatus(b.activities, id, status, now) &&
      Redone(r) == r
  {
  }

  // ------------------------------------------------------------ drag and drop

  /** The droppable id of a grid cell, `${day}-${time}`. */
  function SlotId(day: string, time: string): string
  {
    day + "-" + time
  }

  /** `over.id.split('-')` read as `[newDay, newTime]`; a missing part is `""`. */
  function DropTarget(overId: string): (string, string)
  {
    var parts := Split(overId, '-');
    (parts[0], if |parts| >= 2 then parts[1] else "")
  }

  /** A cell id splits back into its day and time when neither holds a `-`. */
  lemma DropTargetRoundTrip(day: string, time: string)
    requires Free(day, '-') && Free(time, '-')
    ensures DropTarget(SlotId(day, time)) == (day, time)
  {
    assert SlotId(day, time) == day + ['-'] + time;
    SplitPair(day, time, '-');
  }

  /** Some item in the target cell belongs to the same child. */
  predicate Conflict(acts: seq<Activity>, day: string, time: string, childId: string)
  {
    exists a :: a in acts && a.day == day && a.startTime == time && a.childId == childId
  }

  /**
   * `handleDragEnd`: a drop outside any cell, an unknown dragged id, an id
   * that does not split into two non-empty parts, or a cell holding an item
   * of the same child changes nothing. Otherwise every item with the dragged
   * id becomes the first such item moved to the cell; when the store rejects
   * the move they all become that item unmoved.
   */
  function Drop(acts: seq<Activity>, activeId: string, over: Option<string>, p: Persist): (r: seq<Activity>)
    ensures |r| == |acts|
    ensures forall i :: 0 <= i < |acts| ==> r[i].id == acts[i].id
    ensures over.None? || !HasActivity(acts, activeId) ==> r == acts
  {
    if over.None? then acts
    else match FindActivity(acts, activeId)
      case None => acts
      case Some(k) =>
        var (day, time) := DropTarget(over.value);
        var dragged := acts[k];
        if day == "" || time == "" || Conflict(acts, day, time, dragged.childId) then acts
        else if p == Rejected then Replace(acts, dragged.id, dragged)
        else Replace(acts, dragged.id, dragged.(day := day, startTime := time))
  }

  /**
   * A drop on a grid cell is refused exactly when an item of the same child
   * already sits there; when it is accepted and kept, only the dragged
   * item's day and start time change.
   */
  lemma DropOnCell(acts: seq<Activity>, k: nat, day: string, time: string, p: Persist)
    requires DistinctIds(acts) && k < |acts|
    requires Free(day, '-') && Free(time, '-') && day != "" && time != ""
    ensures var r := Drop(acts, acts[k].id, Some(SlotId(day, time)), p);
      (Conflict(acts, day, time, acts[k].childId) || p == Rejected ==> r == acts) &&
      (!Conflict(acts, day, time, acts[k].childId) && p != Rejected ==>
        r[k] == acts[k].(day := day, startTime := time) &&
        forall i :: 0 <= i < |acts| && i != k ==> r[i] == acts[i])
  {
    DropTargetRoundTrip(day, time);
    FindDistinct(acts, k);
    ReplaceWithSelf(acts, k);
  }

  /** Dropping an item on the cell it already occupies is always refused: it conflicts with itself. */
  lemma DropOnOwnCell(acts: seq<Activity>, k: nat, p: Persist)
    requires DistinctIds(acts) && k < |acts|
    requires Free(acts[k].day, '-') && Free(acts[k].startTime, '-')
    ensures Drop(acts, acts[k].id, Some(SlotId(acts[k].day, acts[k].startTime)), p) == acts
  {
    DropTargetRoundTrip(acts[k].day, acts[k].startTime);
    FindDistinct(acts, k);
    assert acts[k] in acts;
  }

  /** With distinct ids the lookup by an item's id finds that item and no other. */
  lemma FindDistinct(acts: seq<Activity>, k: nat)
    requires DistinctIds(acts) && k < |acts|
    ensures FindActivity(acts, acts[k].id) == Some(k)
    ensures forall i :: 0 <= i < |acts| && i != k ==> acts[i].id != acts[k].id
  {
    forall i | 0 <= i < |acts| && i != k ensures acts[i].id != acts[k].id {
      assert i < k ==> acts[i].id != acts[k].id;
      assert i > k ==> acts[k].id != acts[i].id;
    }
    assert acts[k] in acts;
  }

  // ------------------------------------------------------------ save and delete

  /**
   * `saveActivity`: an item whose id is listed replaces every item with that
   * id, unless the store rejects it. A new item is appended: the stored
   * record when the store accepts it, a `temp-<now>` copy when nobody is
   * logged in, nothing when the store rejects it.
   */
  function Save(acts: seq<Activity>, a: Activity, p: Persist, created: Activity, now: nat): (r: seq<Activity>)
    ensures p == Rejected ==> r == acts
    ensures HasActivity(acts, a.id) ==> |r| == |acts|
    ensures !HasActivity(acts, a.id) && p != Rejected ==> |r| == |acts| + 1 && r[..|acts|] == acts
    ensures !HasActivity(acts, a.id) && p == Offline ==>
              r[|acts|] == a.(id := "temp-" + DecimalString(now))
    ensures !HasActivity(acts, a.id) && p == Stored ==> r[|acts|] == created
  {
    if HasActivity(acts, a.id) then
      (if p == Rejected then acts else Replace(acts, a.id, a))
    else match p
      case Offline => acts + [a.(id := "temp-" + DecimalString(now))]
      case Stored => acts + [created]
      case Rejected => acts
  }

  /** Saving an edited item changes only the item with its id, with distinct ids. */
  lemma SaveEdit(acts: seq<Activity>, k: nat, a: Activity, p: Persist, created: Activity, now: nat)
    requires DistinctIds(acts) && k < |acts| && a.id == acts[k].id && p != Rejected
    ensures var r := Save(acts, a, p, created, now);
      r[k] == a && forall i :: 0 <= i < |acts| && i != k ==> r[i] == acts[i]
  {
    FindDistinct(acts, k);
    assert acts[k] in acts;
  }

  /** The test `a => a.id !== id`. */
  function OtherId(id: string): Activity -> bool
  {
    (a: Activity) => a.id != id
  }

  /** `deleteActivity`: every item with the id goes, unless the store rejects the deletion. */
  function Delete(acts: seq<Activity>, id: string, p: Persist): (r: seq<Activity>)
    ensures p == Rejected && HasActivity(acts, id) ==> r == acts
    ensures !(p == Rejected && HasActivity(acts, id)) ==>
              !HasActivity(r, id) && forall a: Activity :: a.id != id ==> (a in r <==> a in acts)
  {
    if p == Rejected && HasActivity(acts, id) then acts else Filter(acts, OtherId(id))
  }

  /**
   * With distinct ids, an accepted deletion of a listed item removes exactly
   * that position and keeps the others in their order.
   */
  lemma DeleteOne(acts: seq<Activity>, k: nat, p: Persist)
    requires DistinctIds(acts) && k < |acts| && p != Rejected
    ensures Delete(acts, acts[k].id, p) == RemoveAt(acts, k)
  {
    FindDistinct(acts, k);
    FilterSplit(acts, k);
  }

  lemma {:induction false} FilterSplit(acts: seq<Activity>, k: nat)
    requires k < |acts| && forall i :: 0 <= i < |acts| && i != k ==> acts[i].id != acts[k].id
    ensures Filter(acts, OtherId(acts[k].id)) == acts[..k] + acts[k + 1..]
  {
    var id := acts[k].id;
    if k == 0 {
      KeepAll(acts[1..], id);
    } else {
      var tail := acts[1..];
      assert tail[k - 1] == acts[k];
      FilterSplit(tail, k - 1);
      assert acts[..k] == [acts[0]] + tail[..k - 1];
      assert acts[k + 1..] == tail[k..];
    }
  }

  lemma {:induction false} KeepAll(acts: seq<Activity>, id: string)
    requires forall i :: 0 <= i < |acts| ==> acts[i].id != id
    ensures Filter(acts, OtherId(id)) == acts
  {
    if acts != [] {
      KeepAll(acts[1..], id);
    }
  }

  // ------------------------------------------------------------ the store

  class Schedule {
    var activities: seq<Activity>
    var history: seq<seq<Activity>>
    var historyIndex: int
    var activeId: Option<string>

    function State(): Board
      reads this
    {
      Board(activities, history, historyIndex)
    }

    ghost predicate Valid()
      reads this
    {
      Consistent(State())
    }

    /** The component's initial state. */
    constructor ()
      ensures State() == Initial() && activeId == None && Valid()
    {
      activities := [];
      history := [MockActivities];
      historyIndex := 0;
      activeId := None;
    }

    /** The load effect after sign-in: the list is replaced, the history is not. */
    method Load(loaded: Option<seq<Activity>>)
      requires Valid()
      modifies this
      ensures Valid() && State() == Loaded(old(State()), loaded)
      ensures activeId == old(activeId)
    {
      if loaded.Some? {
        activities := loaded.value;
      } else {
        activities := MockActivities;
      }
    }

    /** Loading that restarts the history from the loaded list. */
    method LoadSeeded(loaded: Option<seq<Activity>>)
      requires Valid()
      modifies this
      ensures Valid() && State() == LoadedSeeded(old(State()), loaded)
      ensures activeId == old(activeId)
    {
      var acts := if loaded.Some? then loaded.value else MockActivities;
      activities := acts;
      history := [acts];
      historyIndex := 0;
    }

    method SaveToHistory(acts: seq<Activity>)
      requires Valid()
      modifies this
      ensures Valid() && State() == Recorded(old(State()), acts)
      ensures activeId == old(activeId)
    {
      var kept := history[..historyIndex + 1];
      kept := kept + [acts];
      history := kept;
      historyIndex := |kept| - 1;
      activities := acts;
    }

    method Undo()
      requires Valid()
      modifies this
      ensures Valid() && State() == Undone(old(State()))
      ensures activeId == old(activeId)
    {
      if historyIndex > 0 {
        historyIndex := historyIndex - 1;
        activities := history[historyIndex];
      }
    }

    method Redo()
      requires Valid()
      modifies this
      ensures Valid() && State() == Redone(old(State()))
      ensures activeId == old(activeId)
    {
      if historyIndex < |history| - 1 {
        historyIndex := historyIndex + 1;
        activities := history[historyIndex];
      }
    }

    method UpdateStatus(id: string, status: Status, now: string, p: Persist)
      requires Valid()
      modifies this
      ensures Valid() && State() == ChangeStatus(old(State()), id, status, now, p)
      ensures activeId == old(activeId)
    {
      var found := FindActivity(activities, id);
      if found.None? {
        return;
      }
      var before := activities;
      var updated := SetStatus(activities, id, status, now);
      activities := updated;
      SaveToHistory(updated);
      if p == Rejected {
        activities := before;
      }
    }

    method DragStart(id: string)
      modifies this
      ensures activeId == Some(id)
      ensures activities == old(activities) && history == old(history) && historyIndex == old(historyIndex)
    {
      activeId := Some(id);
    }

    method DragEnd(dragId: string, over: Option<string>, p: Persist)
      modifies this
      ensures activities == Drop(old(activities), dragId, over, p) && activeId == None
      ensures history == old(history) && historyIndex == old(historyIndex)
    {
      if over.None? {
        activeId := None;
        return;
      }
      var found := FindActivity(activities, dragId);
      var (newDay, newTime) := DropTarget(over.value);
      if found.Some? && newDay != "" && newTime != "" {
        var dragged := activities[found.value];
        if !Conflict(activities, newDay, newTime, dragged.childId) {
          var before := activities;
          activities := Replace(before, dragged.id, dragged.(day := newDay, startTime := newTime));
          if p == Rejected {
            activities := Replace(before, dragged.id, dragged);
          }
        }
      }
      activeId := None;
    }

    method SaveActivity(a: Activity, p: Persist, created: Activity, now: nat)
      modifies this
      ensures activities == Save(old(activities), a, p, created, now)
      ensures history == old(history) && historyIndex == old(historyIndex) && activeId == old(activeId)
    {
      var original := activities;
      if HasActivity(activities, a.id) {
        activities := Replace(activities, a.id, a);
      } else if p == Stored {
        activities := activities + [created];
      } else if p == Offline {
        activities := activities + [a.(id := "temp-" + DecimalString(now))];
      }
      if p == Rejected {
        activities := original;
      }
    }

    method DeleteActivity(id: string, p: Persist)
      modifies this
      ensures activities == Delete(old(activities), id, p)
      ensures history == old(history) && historyIndex == old(historyIndex) && activeId == old(activeId)
    {
      var original := activities;
      var found := FindActivity(activities, id);
      activities := Filter(activities, OtherId(id));
      if p == Rejected && found.Some? {
        activities := original;
      }
    }
  }

  // ------------------------------------------------------------ the seeded history

  /**
   * As written, the history starts with the fixtures and loading does not
   * reset it, so the first undo after a status change shows the fixtures
   * instead of the user's loaded list.
   */
  lemma FirstUndoShowsFixtures(loaded: seq<Activity>, id: string, status: Status, now: string, p: Persist)
    requires HasActivity(loaded, id)
    ensures Undone(ChangeStatus(Loaded(Initial(), Some(loaded)), id, status, now, p)).activities == MockActivities
  {
  }

  /** With the history restarted on load, that undo shows the loaded list again. */
  lemma FirstUndoRestoresLoaded(loaded: seq<Activity>, id: string, status: Status, now: string, p: Persist)
    requires HasActivity(loaded, id)
    ensures Undone(ChangeStatus(LoadedSeeded(Initial(), Some(loaded)), id, status, now, p)).activities == loaded
  {
  }
}

=== FILE: calendar.dfy ===
/**
 * Local calendar dates. A date is a proleptic Gregorian (year, month, day);
 * its day number counts days from 0001-01-01, and `Weekday` numbers the days
 * of the week as JavaScript's `getDay` does (0 is Sunday). The textual form
 * is the calendar date extended format of section 4.1.2.2 of ISO 8601:2004,
 * `YYYY-MM-DD`, which is what `toISOString().split('T')[0]` yields for years
 * 0 through 9999.
 */
module Calendar {
  import opened Text

  datatype Date = Date(year: int, month: int, day: int)

  predicate IsLeapYear(y: int)
  {
    y % 4 == 0 && (y % 100 != 0 || y % 400 == 0)
  }

  function YearLength(y: int): int
  {
    if IsLeapYear(y) then 366 else 365
  }

  function DaysInMonth(y: int, m: int): int
    requires 1 <= m <= 12
  {
    if m == 2 then (if IsLeapYear(y) then 29 else 28)
    else if m == 4 || m == 6 || m == 9 || m == 11 then 30
    else 31
  }

  predicate ValidDate(d: Date)
  {
    1 <= d.month <= 12 && 1 <= d.day <= DaysInMonth(d.year, d.month)
  }

  /** Days of the year before the first of month `m`. */
  function DaysBeforeMonth(y: int, m: int): (r: int)
    requires 1 <= m <= 12
    ensures 0 <= r
  {
    if m == 1 then 0 else DaysBeforeMonth(y, m - 1) + DaysInMonth(y, m - 1)
  }

  /** Days from 0001-01-01 to the first of January of year `y` (negative before year 1). */
  function DaysBeforeYear(y: int): int
    decreases if y >= 1 then y - 1 else 1 - y
  {
    if y == 1 then 0
    else if y > 1 then DaysBeforeYear(y - 1) + YearLength(y - 1)
    else DaysBeforeYear(y + 1) - YearLength(y)
  }

  function DayNumber(d: Date): int
    requires ValidDate(d)
  {
    DaysBeforeYear(d.year) + DaysBeforeMonth(d.year, d.month) + d.day - 1
  }

  /** Ordinal day within the year, 1 for the first of January. */
  function DayOfYear(d: Date): (r: int)
    requires ValidDate(d)
    ensures 1 <= r <= YearLength(d.year)
  {
    MonthFits(d.year, d.month);
    DaysBeforeMonth(d.year, d.month) + d.day
  }

  /** `getDay()`: 0 for Sunday through 6 for Saturday. */
  function Weekday(d: Date): (w: int)
    requires ValidDate(d)
    ensures 0 <= w < 7
  {
    (DayNumber(d) + 1) % 7
  }

  lemma YearStep(y: int)
    ensures DaysBeforeYear(y + 1) == DaysBeforeYear(y) + YearLength(y)
  {
  }

  lemma MonthStep(y: int, m: int)
    requires 1 <= m < 12
    ensures DaysBeforeMonth(y, m + 1) == DaysBeforeMonth(y, m) + DaysInMonth(y, m)
  {
  }

  /** The twelve months fill the year exactly. */
  lemma MonthsFillYear(y: int)
    ensures DaysBeforeMonth(y, 12) + DaysInMonth(y, 12) == YearLength(y)
  {
    var f := DaysInMonth(y, 2);
    assert DaysBeforeMonth(y, 2) == 31;
    assert DaysBeforeMonth(y, 3) == 31 + f;
    assert DaysBeforeMonth(y, 4) == 62 + f;
    assert DaysBeforeMonth(y, 5) == 92 + f;
    assert DaysBeforeMonth(y, 6) == 123 + f;
    assert DaysBeforeMonth(y, 7) == 153 + f;
    assert DaysBeforeMonth(y, 8) == 184 + f;
    assert DaysBeforeMonth(y, 9) == 215 + f;
    assert DaysBeforeMonth(y, 10) == 245 + f;
    assert DaysBeforeMonth(y, 11) == 276 + f;
    assert DaysBeforeMonth(y, 12) == 306 + f;
  }

  lemma MonthFits(y: int, m: int)
    requires 1 <= m <= 12
    ensures DaysBeforeMonth(y, m) + DaysInMonth(y, m) <= YearLength(y)
  {
    MonthsFillYear(y);
    if m < 12 {
      MonthsAscend(y, m, 12);
    }
  }

  lemma {:induction false} MonthsAscend(y: int, m1: int, m2: int)
    requires 1 <= m1 < m2 <= 12
    ensures DaysBeforeMonth(y, m1) + DaysInMonth(y, m1) <= DaysBeforeMonth(y, m2)
    decreases m2 - m1
  {
    MonthStep(y, m1);
    if m1 + 1 < m2 {
      MonthsAscend(y, m1 + 1, m2);
    }
  }

  lemma {:induction false} YearsAscend(y1: int, y2: int)
    requires y1 < y2
    ensures DaysBeforeYear(y1) + YearLength(y1) <= DaysBeforeYear(y2)
    decreases y2 - y1
  {
    YearStep(y1);
    if y1 + 1 < y2 {
      YearsAscend(y1 + 1, y2);
      YearStep(y1 + 1);
    }
  }

  /** Chronological order of dates as (year, month, day) triples. */
  predicate Before(a: Date, b: Date)
  {
    a.year < b.year ||
    (a.year == b.year && (a.month < b.month || (a.month == b.month && a.day < b.day)))
  }

  /** Day numbers increase strictly along the calendar. */
  lemma BeforeDayNumber(a: Date, b: Date)
    requires ValidDate(a) && ValidDate(b) && Before(a, b)
    ensures DayNumber(a) < DayNumber(b)
  {
    MonthFits(a.year, a.month);
    if a.year < b.year {
      YearsAscend(a.year, b.year);
    } else if a.month < b.month {
      MonthsAscend(a.year, a.month, b.month);
    }
  }

  /** Distinct dates have distinct day numbers. */
  lemma DayNumberInjective(a: Date, b: Date)
    requires ValidDate(a) && ValidDate(b) && DayNumber(a) == DayNumber(b)
    ensures a == b
  {
    if Before(a, b) { BeforeDayNumber(a, b); }
    else if Before(b, a) { BeforeDayNumber(b, a); }
  }

  lemma DayNumberOrder(a: Date, b: Date)
    requires ValidDate(a) && ValidDate(b)
    ensures Before(a, b) <==> DayNumber(a) < DayNumber(b)
  {
    if Before(a, b) { BeforeDayNumber(a, b); }
    else if Before(b, a) { BeforeDayNumber(b, a); }
  }

  // ------------------------------------------------------------ stepping

  function NextDay(d: Date): (r: Date)
    requires ValidDate(d)
    ensures ValidDate(r)
  {
    if d.day < DaysInMonth(d.year, d.month) then Date(d.year, d.month, d.day + 1)
    else if d.month < 12 then Date(d.year, d.month + 1, 1)
    else Date(d.year + 1, 1, 1)
  }

  lemma NextDayNumber(d: Date)
    requires ValidDate(d)
    ensures DayNumber(NextDay(d)) == DayNumber(d) + 1
  {
    if d.day == DaysInMonth(d.year, d.month) {
      if d.month < 12 { MonthStep(d.year, d.month); } else { YearStep(d.year); MonthsFillYear(d.year); }
    }
  }

  function PrevDay(d: Date): (r: Date)
    requires ValidDate(d)
    ensures ValidDate(r)
  {
    if d.day > 1 then Date(d.year, d.month, d.day - 1)
    else if d.month > 1 then Date(d.year, d.month - 1, DaysInMonth(d.year, d.month - 1))
    else Date(d.year - 1, 12, 31)
  }

  lemma PrevDayNumber(d: Date)
    requires ValidDate(d)
    ensures DayNumber(PrevDay(d)) == DayNumber(d) - 1
  {
    if d.day == 1 {
      if d.month > 1 { MonthStep(d.year, d.month - 1); } else { YearStep(d.year - 1); MonthsFillYear(d.year - 1); }
    }
  }

  /** `setDate(getDate() + n)`: the date `n` days later (earlier when n < 0). */
  function AddDays(d: Date, n: int): (r: Date)
    requires ValidDate(d)
    ensures ValidDate(r)
    decreases if n < 0 then -n else n
  {
    if n == 0 then d
    else if n > 0 then AddDays(NextDay(d), n - 1)
    else AddDays(PrevDay(d), n + 1)
  }

  lemma {:induction false} AddDaysNumber(d: Date, n: int)
    requires ValidDate(d)
    ensures DayNumber(AddDays(d, n)) == DayNumber(d) + n
    decreases if n < 0 then -n else n
  {
    if n > 0 {
      NextDayNumber(d);
      AddDaysNumber(NextDay(d), n - 1);
    } else if n < 0 {
      PrevDayNumber(d);
      AddDaysNumber(PrevDay(d), n + 1);
    }
  }

  /** The offset from a weekday to the Monday on or before it (Sunday goes back six). */
  function DaysToMonday(weekday: int): int
  {
    if weekday == 0 then -6 else 1 - weekday
  }

  /**
   * The Monday of the week holding `d`, weeks running Monday to Sunday:
   * the shared shape of `getWeekDateRange`, `getMondayOfWeek` and the
   * Monday computations of the generators and the activity form.
   */
  function MondayOf(d: Date): (r: Date)
    requires ValidDate(d)
    ensures ValidDate(r) && Weekday(r) == 1
    ensures DayNumber(d) - 6 <= DayNumber(r) <= DayNumber(d)
    ensures DayNumber(r) == DayNumber(d) - (Weekday(d) + 6) % 7
  {
    var n := DayNumber(d);
    var w := Weekday(d);
    assert w == (n + 1) % 7;
    var r := AddDays(d, DaysToMonday(w));
    AddDaysNumber(d, DaysToMonday(w));
    var m := DayNumber(r);
    MondayArith(n, m);
    assert Weekday(r) == (m + 1) % 7;
    r
  }

  lemma MondayArith(n: int, m: int)
    requires m == n + DaysToMonday((n + 1) % 7)
    ensures (m + 1) % 7 == 1 && m == n - ((n + 1) % 7 + 6) % 7
  {
  }

  /** Every day of one Monday-to-Sunday week has the same Monday. */
  lemma SameWeekSameMonday(d: Date, k: int)
    requires ValidDate(d) && 0 <= k < 7
    ensures MondayOf(AddDays(MondayOf(d), k)) == MondayOf(d)
  {
    var m := MondayOf(d);
    AddDaysNumber(m, k);
    ShiftedMonday(m, AddDays(m, k), k);
  }

  /** The day `k` days after a week's Monday has weekday `k + 1`, wrapping to Sunday. */
  lemma WeekdayInWeek(d: Date, k: int)
    requires ValidDate(d) && 0 <= k < 7
    ensures DayNumber(AddDays(MondayOf(d), k)) == DayNumber(MondayOf(d)) + k
    ensures Weekday(AddDays(MondayOf(d), k)) == (k + 1) % 7
  {
    var m := MondayOf(d);
    AddDaysNumber(m, k);
    ShiftedMonday(m, AddDays(m, k), k);
  }

  lemma ShiftedMonday(m: Date, e: Date, k: int)
    requires ValidDate(m) && ValidDate(e) && Weekday(m) == 1 && 0 <= k < 7
    requires DayNumber(e) == DayNumber(m) + k
    ensures Weekday(e) == (k + 1) % 7 && MondayOf(e) == m
  {
    var n := DayNumber(m);
    var ne := DayNumber(e);
    WeekShift(n, ne, k);
    var w := Weekday(e);
    assert w == (ne + 1) % 7;
    var me := MondayOf(e);
    assert DayNumber(me) == ne - (w + 6) % 7 == n;
    DayNumberInjective(me, m);
  }

  lemma WeekShift(n: int, e: int, k: int)
    requires (n + 1) % 7 == 1 && 0 <= k < 7 && e == n + k
    ensures (e + 1) % 7 == (k + 1) % 7 && ((e + 1) % 7 + 6) % 7 == k
  {
  }

  // ------------------------------------------------------------ text

  /** `toISOString().split('T')[0]` of a date in years 0 to 9999. */
  function IsoDate(d: Date): (s: string)
    requires 0 <= d.year <= 9999 && ValidDate(d)
    ensures |s| == 10 && s[4] == '-' && s[7] == '-'
  {
    YmdText(d.year, d.month, d.day)
  }

  /** `YYYY-MM-DD` from its three numbers. */
  function YmdText(y: nat, m: nat, d: nat): (s: string)
    ensures |s| == 10 && s[4] == '-' && s[7] == '-'
  {
    Digits(y, 4) + MonthDayText(m, d)
  }

  /**
   * `toISOString().split('T')[0]` for any year: outside 0 to 9999 the
   * expanded representation with a sign and six year digits is used.
   */
  function DateString(d: Date): (s: string)
    requires ValidDate(d)
    ensures 0 <= d.year <= 9999 ==> s == IsoDate(d)
  {
    if 0 <= d.year <= 9999 then IsoDate(d)
    else
      (if d.year < 0 then "-" else "+") + Digits(if d.year < 0 then -d.year else d.year, 6) +
      "-" + Digits(d.month, 2) + "-" + Digits(d.day, 2)
  }

  /** `${year}-${pad(month)}-${pad(day)}`, the local-date string the views build. */
  function LocalDateString(y: int, m: nat, d: nat): string
  {
    IntString(y) + "-" + Pad2(m) + "-" + Pad2(d)
  }

  /** For four-digit years the unpadded local string is the ISO string. */
  lemma LocalIsIso(d: Date)
    requires 1000 <= d.year <= 9999 && ValidDate(d)
    ensures LocalDateString(d.year, d.month, d.day) == IsoDate(d)
  {
    DigitsIsDecimal(d.year, 4);
    Pad2Digits(d.month);
    Pad2Digits(d.day);
  }

  /**
   * Section 4.1.2.2 of ISO 8601:2004: zero-padded `YYYY-MM-DD` strings sort
   * as the dates they denote.
   */
  lemma IsoDateOrder(a: Date, b: Date)
    requires 0 <= a.year <= 9999 && ValidDate(a)
    requires 0 <= b.year <= 9999 && ValidDate(b)
    ensures StrLt(IsoDate(a), IsoDate(b)) <==> Before(a, b)
  {
    YmdOrder(a.year, a.month, a.day, b.year, b.month, b.day);
  }

  lemma YmdOrder(ya: nat, ma: nat, da: nat, yb: nat, mb: nat, db: nat)
    requires ya < 10000 && ma < 100 && da < 100 && yb < 10000 && mb < 100 && db < 100
    ensures StrLt(YmdText(ya, ma, da), YmdText(yb, mb, db)) <==>
      ya < yb || (ya == yb && (ma < mb || (ma == mb && da < db)))
  {
    StrLtAppend(Digits(ya, 4), MonthDayText(ma, da), Digits(yb, 4), MonthDayText(mb, db));
    Pow10Small();
    DigitsLt(ya, yb, 4);
    DigitsEq(ya, yb, 4);
    MonthDayOrder(ma, da, mb, db);
  }

  /** The `-MM-DD` tail of an ISO date. */
  function MonthDayText(m: nat, d: nat): string
  {
    "-" + (Digits(m, 2) + ("-" + Digits(d, 2)))
  }

  lemma MonthDayOrder(ma: nat, da: nat, mb: nat, db: nat)
    requires ma < 100 && da < 100 && mb < 100 && db < 100
    ensures StrLt(MonthDayText(ma, da), MonthDayText(mb, db)) <==> ma < mb || (ma == mb && da < db)
  {
    var pa, pb := Digits(ma, 2), Digits(mb, 2);
    StrLtAppend("-", pa + ("-" + Digits(da, 2)), "-", pb + ("-" + Digits(db, 2)));
    StrLtIrreflexive("-");
    StrLtAppend(pa, "-" + Digits(da, 2), pb, "-" + Digits(db, 2));
    Pow10Small();
    DigitsLt(ma, mb, 2);
    DigitsEq(ma, mb, 2);
    StrLtAppend("-", Digits(da, 2), "-", Digits(db, 2));
    DigitsLt(da, db, 2);
  }

  lemma IsoDateInjective(a: Date, b: Date)
    requires 0 <= a.year <= 9999 && ValidDate(a)
    requires 0 <= b.year <= 9999 && ValidDate(b)
    ensures IsoDate(a) == IsoDate(b) <==> a == b
  {
    YmdInjective(a.year, a.month, a.day, b.year, b.month, b.day);
  }

  lemma YmdInjective(ya: nat, ma: nat, da: nat, yb: nat, mb: nat, db: nat)
    requires ya < 10000 && ma < 100 && da < 100 && yb < 10000 && mb < 100 && db < 100
    ensures YmdText(ya, ma, da) == YmdText(yb, mb, db) <==> ya == yb && ma == mb && da == db
  {
    var sa, sb := YmdText(ya, ma, da), YmdText(yb, mb, db);
    if sa == sb {
      assert sa[..4] == Digits(ya, 4) && sb[..4] == Digits(yb, 4);
      assert sa[5..7] == Digits(ma, 2) && sb[5..7] == Digits(mb, 2);
      assert sa[8..] == Digits(da, 2) && sb[8..] == Digits(db, 2);
      Pow10Small();
      DigitsEq(ya, yb, 4);
      DigitsEq(ma, mb, 2);
      DigitsEq(da, db, 2);
    }
  }

  /** String comparison of ISO dates is comparison of day numbers. */
  lemma IsoDateLeIff(a: Date, b: Date)
    requires 0 <= a.year <= 9999 && ValidDate(a)
    requires 0 <= b.year <= 9999 && ValidDate(b)
    ensures StrLe(IsoDate(a), IsoDate(b)) <==> DayNumber(a) <= DayNumber(b)
    ensures StrLt(IsoDate(a), IsoDate(b)) <==> DayNumber(a) < DayNumber(b)
  {
    IsoDateOrder(a, b);
    IsoDateInjective(a, b);
    DayNumberOrder(a, b);
    if DayNumber(a) == DayNumber(b) { DayNumberInjective(a, b); }
  }

  // ------------------------------------------------------------ ISO week

  /** The Thursday of the Monday-to-Sunday week holding `d`. */
  function ThursdayOf(d: Date): (t: Date)
    requires ValidDate(d)
    ensures ValidDate(t) && DayNumber(t) == DayNumber(MondayOf(d)) + 3
  {
    var isoDay := if Weekday(d) == 0 then 7 else Weekday(d);
    AddDaysNumber(d, 4 - isoDay);
    ThursdayArith(DayNumber(d), Weekday(d), DayNumber(MondayOf(d)));
    AddDays(d, 4 - isoDay)
  }

  lemma ThursdayArith(n: int, wd: int, m: int)
    requires 0 <= wd < 7 && m == n - (wd + 6) % 7
    ensures n + 4 - (if wd == 0 then 7 else wd) == m + 3
  {
  }

  /**
   * `getWeekNumber`: the week number of section 4.1.4 of ISO 8601:2004,
   * found through the Thursday of the date's Monday-to-Sunday week.
   */
  function WeekNumber(d: Date): (w: int)
    requires ValidDate(d)
    ensures 1 <= w <= 53
  {
    (DayOfYear(ThursdayOf(d)) + 6) / 7
  }

  /** All seven days of one week share its week number. */
  lemma WeekNumberConstant(d: Date, k: int)
    requires ValidDate(d) && 0 <= k < 7
    ensures WeekNumber(AddDays(MondayOf(d), k)) == WeekNumber(MondayOf(d))
  {
    var m := MondayOf(d);
    var e := AddDays(m, k);
    SameWeekSameMonday(d, k);
    SameWeekSameMonday(d, 0);
    DayNumberInjective(ThursdayOf(e), ThursdayOf(m));
  }

  /** The week holding 4 January is week 1. */
  lemma FourthOfJanuaryInWeekOne(y: int)
    ensures WeekNumber(Date(y, 1, 4)) == 1
  {
    JanuaryThursday(y);
    var t := ThursdayOf(Date(y, 1, 4));
    assert DayOfYear(t) == t.day;
  }

  /** The Thursday of the week holding 4 January falls on 1 to 7 January. */
  lemma JanuaryThursday(y: int)
    ensures var t := ThursdayOf(Date(y, 1, 4)); t.year == y && t.month == 1 && 1 <= t.day <= 7
  {
    var d := Date(y, 1, 4);
    var t := ThursdayOf(d);
    var base := DaysBeforeYear(y);
    var k :| 1 <= k <= 7 && DayNumber(t) == base + k - 1 && ValidDate(t) by {
      var n, wd := DayNumber(d), Weekday(d);
      assert n == base + 3;
      var k := JanuaryArith(base, n, wd, DayNumber(MondayOf(d)), DayNumber(t));
      assert 1 <= k <= 7 && DayNumber(t) == base + k - 1;
    }
    var e := Date(y, 1, k);
    assert DayNumber(e) == base + k - 1;
    DayNumberInjective(e, t);
  }

  lemma JanuaryArith(base: int, n: int, wd: int, m: int, tn: int) returns (k: int)
    requires n == base + 3 && 0 <= wd < 7 && m == n - (wd + 6) % 7 && tn == m + 3
    ensures 1 <= k <= 7 && tn == base + k - 1
  {
    k := 8 - (if wd == 0 then 7 else wd);
  }
}

=== FILE: childids.dfy ===
/**
 * Repair of the child id an AI response attaches to an item: the helper
 * `validateAndFixChildId` of `lib/openai-multistep.ts`, which
 * `validateChildId` of `lib/openai-concepts.ts` repeats word for word.
 */
module ChildIds {
  import opened Wrappers
  import opened Text
  import opened MockData

  /** Two names match when they agree after `toLowerCase`. */
  predicate NameMatches(c: Child, name: string)
  {
    Lower(c.name) == Lower(name)
  }

  /** `children.find(c => c.name.toLowerCase() === name.toLowerCase())`, as an index. */
  function FindByName(children: seq<Child>, name: string): (r: Option<nat>)
    ensures r.Some? ==> r.value < |children| && NameMatches(children[r.value], name)
    ensures r.Some? ==> forall k :: 0 <= k < r.value ==> !NameMatches(children[k], name)
    ensures r.None? ==> forall k :: 0 <= k < |children| ==> !NameMatches(children[k], name)
  {
    if children == [] then None
    else if NameMatches(children[0], name) then Some(0)
    else match FindByName(children[1..], name)
      case None => None
      case Some(k) => Some(k + 1)
  }

  /** Child `k` is the first whose name matches. */
  predicate FirstMatch(children: seq<Child>, name: string, k: int)
  {
    0 <= k < |children| && NameMatches(children[k], name) &&
    forall j :: 0 <= j < k ==> !NameMatches(children[j], name)
  }

  predicate NoMatch(children: seq<Child>, name: string)
  {
    forall k :: 0 <= k < |children| ==> !NameMatches(children[k], name)
  }

  /** Child `k` is the last whose name matches, the entry a name-keyed table keeps. */
  predicate LastMatch(children: seq<Child>, name: string, k: int)
  {
    0 <= k < |children| && NameMatches(children[k], name) &&
    forall j :: k < j < |children| ==> !NameMatches(children[j], name)
  }

  /** `children.find(c => c.id === id)`, as an index. */
  function FindById(children: seq<Child>, id: string): (r: Option<nat>)
    ensures r.Some? ==> r.value < |children| && children[r.value].id == id
    ensures r.Some? ==> forall k :: 0 <= k < r.value ==> children[k].id != id
    ensures r.None? ==> forall k :: 0 <= k < |children| ==> children[k].id != id
  {
    if children == [] then None
    else if children[0].id == id then Some(0)
    else match FindById(children[1..], id)
      case None => None
      case Some(k) => Some(k + 1)
  }

  /** `children[0]?.id`, with `undefined` written as the empty string. */
  function FirstId(children: seq<Child>): string
  {
    if children == [] then "" else children[0].id
  }

  /**
   * An id of UUID shape is kept; otherwise the first child whose name
   * matches `childName` (or, when that is empty, the id itself) supplies
   * the id; failing that the first roster child's id; failing that the id
   * as given. Each step falls through when its id is the empty string.
   */
  function ResolveChildId(childId: string, childName: string, children: seq<Child>): (r: string)
    ensures IsUuidShaped(childId) ==> r == childId
    ensures r == childId || exists c :: c in children && c.id == r
    ensures !IsUuidShaped(childId) ==> forall k :: (
      FirstMatch(children, Or(childName, childId), k) && children[k].id != "" ==> r == children[k].id)
    ensures !IsUuidShaped(childId) && children != [] && children[0].id != "" ==>
      exists c :: c in children && c.id == r && r != ""
    ensures !IsUuidShaped(childId) && NoMatch(children, Or(childName, childId)) ==>
      r == Or(FirstId(children), childId)
  {
    if childId != "" && IsUuidShaped(childId) then childId
    else
      var found := FindByName(children, Or(childName, Or(childId, "")));
      var foundId := if found.Some? then children[found.value].id else "";
      Or(foundId, Or(FirstId(children), childId))
  }
}

=== FILE: clock.dfy ===
/**
 * Wall-clock times written `HH:MM`, as the schedule grid, the form and the
 * generators use them, and the parse `time.split(':').map(Number)` they all
 * apply before computing an end time.
 */
module Clock {
  import opened Wrappers
  import opened Text

  /** `${pad(h)}:${pad(m)}`. */
  function Hm(h: nat, m: nat): string
  {
    Pad2(h) + ":" + Pad2(m)
  }

  /** The hours part: `Number(t.split(':')[0])`. */
  function Hours(t: string): Option<nat>
  {
    NumberOf(Split(t, ':')[0])
  }

  /** The minutes part: `Number(t.split(':')[1])`, NaN when there is no colon. */
  function Minutes(t: string): Option<nat>
  {
    var parts := Split(t, ':');
    if |parts| >= 2 then NumberOf(parts[1]) else None
  }

  lemma ParsePad2(n: nat)
    ensures AllDigits(Pad2(n)) && ParseDigits(Pad2(n)) == n
  {
    ParseDecimalString(n);
    if n < 10 {
      assert Pad2(n)[..1] == "0";
    }
  }

  /** Formatting a time and parsing it back gives the hours and minutes. */
  lemma HmRoundTrip(h: nat, m: nat)
    ensures Hours(Hm(h, m)) == Some(h) && Minutes(Hm(h, m)) == Some(m)
  {
    ParsePad2(h);
    ParsePad2(m);
    assert Free(Pad2(h), ':') && Free(Pad2(m), ':');
    SplitPair(Pad2(h), Pad2(m), ':');
  }

  /** Below 100 hours, `HH:MM` strings sort as the times they denote. */
  lemma HmOrder(h1: nat, m1: nat, h2: nat, m2: nat)
    requires h1 < 100 && m1 < 100 && h2 < 100 && m2 < 100
    ensures StrLt(Hm(h1, m1), Hm(h2, m2)) <==> h1 < h2 || (h1 == h2 && m1 < m2)
  {
    Pad2Digits(h1); Pad2Digits(m1); Pad2Digits(h2); Pad2Digits(m2);
    var a1, b1, a2, b2 := Digits(h1, 2), Digits(m1, 2), Digits(h2, 2), Digits(m2, 2);
    assert Hm(h1, m1) == a1 + (":" + b1);
    assert Hm(h2, m2) == a2 + (":" + b2);
    StrLtAppend(a1, ":" + b1, a2, ":" + b2);
    DigitsLt(h1, h2, 2);
    DigitsEq(h1, h2, 2);
    StrLtAppend(":", b1, ":", b2);
    StrLtIrreflexive(":");
    DigitsLt(m1, m2, 2);
  }

  lemma HmInjective(h1: nat, m1: nat, h2: nat, m2: nat)
    ensures Hm(h1, m1) == Hm(h2, m2) <==> h1 == h2 && m1 == m2
  {
    HmRoundTrip(h1, m1);
    HmRoundTrip(h2, m2);
  }
}

=== FILE: concepts.dfy ===
/**
 * The concept generator of `lib/openai-concepts.ts`: lightweight activity
 * ideas for the parent to review, the post-processing of the model's reply,
 * the mock concepts produced without an API key, and this file's own
 * end-time rule.
 */
module Concepts {
  import opened Wrappers
  import opened Text
  import opened Clock
  import opened MockData
  import opened ChildIds
  import opened Remote
  import opened OpenAI

  /** `ActivityConcept`; a missing `description` is `None`. */
  datatype Concept = Concept(
    id: string,
    childId: string,
    childName: string,
    title: string,
    subject: string,
    day: string,
    startTime: string,
    endTime: string,
    ageAppropriate: bool,
    conceptSummary: string,
    description: Option<string>)

  // ------------------------------------------------------------ end time

  /**
   * This file's `getEndTime`: one hour later, and the minutes become `00`
   * after `:30` and `30` after anything else, NaN included.
   */
  function ConceptEndTime(t: string): string
  {
    var h, m := Hours(t), Minutes(t);
    PadNumber(if h.Some? then Some(h.value + 1) else None) + ":" + Pad2(if m == Some(30) then 0 else 30)
  }

  /** From `HH:30` the end is on the next full hour; from any other minute, half past the next hour. */
  lemma ConceptEndTimeRule(h: nat, m: nat)
    ensures ConceptEndTime(Hm(h, m)) == Hm(h + 1, if m == 30 then 0 else 30)
  {
    HmRoundTrip(h, m);
  }

  /**
   * The two generators' rules disagree: from 09:00 this one ends at 10:30
   * where the one-shot generator ends at 10:00, and from 09:30 at 10:00
   * where the other ends at 10:30.
   */
  lemma EndTimeRulesDiffer()
    ensures ConceptEndTime(Hm(9, 0)) == Hm(10, 30) && GetEndTime(Hm(9, 0)) == Hm(10, 0)
    ensures ConceptEndTime(Hm(9, 30)) == Hm(10, 0) && GetEndTime(Hm(9, 30)) == Hm(10, 30)
    ensures Hm(10, 30) != Hm(10, 0)
  {
    ConceptEndTimeRule(9, 0);
    ConceptEndTimeRule(9, 30);
    GetEndTimeOneHour(9, 0);
    GetEndTimeOneHour(9, 30);
    HmInjective(10, 30, 10, 0);
  }

  // ------------------------------------------------------------ reply post-processing

  /** `concept-${Date.now()}-${Math.random()}`, with the random text passed in. */
  function ConceptId(now: nat, noise: string): string
  {
    "concept-" + DecimalString(now) + "-" + noise
  }

  /**
   * The `concepts.map` of the reply: every concept keeps its fields except
   * a fresh id and a repaired child id.
   */
  function Repair(children: seq<Child>, raws: seq<Concept>, now: nat, noise: nat -> string): (r: seq<Concept>)
    ensures |r| == |raws|
  {
    seq(|raws|, i requires 0 <= i < |raws| =>
      raws[i].(id := ConceptId(now, noise(i)),
               childId := ResolveChildId(raws[i].childId, raws[i].childName, children)))
  }

  /**
   * Each repaired concept is the reply's concept with only its id and child
   * id replaced; a UUID-shaped child id survives and any other becomes a
   * roster id whenever the roster's first id is non-empty.
   */
  lemma RepairFields(children: seq<Child>, raws: seq<Concept>, now: nat, noise: nat -> string, i: nat)
    requires i < |raws|
    ensures var c := Repair(children, raws, now, noise)[i];
      c == raws[i].(id := c.id, childId := c.childId) &&
      c.id == ConceptId(now, noise(i)) &&
      (IsUuidShaped(raws[i].childId) ==> c.childId == raws[i].childId) &&
      (!IsUuidShaped(raws[i].childId) && children != [] && children[0].id != "" ==> HasChild(children, c.childId))
  {
    var c := Repair(children, raws, now, noise)[i];
    assert c.childId == ResolveChildId(raws[i].childId, raws[i].childName, children);
  }

  /**
   * `generateActivityConceptsOnly`: without a key the mock concepts; a
   * failed request throws; a reply without content or with content that
   * does not parse throws in `JSON.parse`; otherwise `content.concepts || []`
   * is repaired, and a truthy `concepts` that is not a list throws in `map`.
   */
  function GenerateConceptsOnly(apiKey: string, p: Preferences, children: seq<Child>, dr: Draws,
                                reply: Reply<ListField<Concept>>, noise: nat -> string): (r: Result<seq<Concept>, GenError>)
    requires ValidDraws(dr)
    ensures apiKey == "" ==> r == Ok(ConceptPlan(p, children, dr, |p.childIds|))
    ensures apiKey != "" && reply.HttpFailure? ==> r == Err(HttpStatus(reply.status))
    ensures apiKey != "" && (reply.Empty? || reply.Unparseable?) ==> r == Err(InvalidJson)
    ensures apiKey != "" && reply.Parsed? && reply.doc.Falsy? ==> r == Ok([])
    ensures apiKey != "" && reply.Parsed? && reply.doc.NotList? ==> r == Err(NotAList)
    ensures apiKey != "" && reply.Parsed? && reply.doc.Items? ==>
      r == Ok(Repair(children, reply.doc.items, dr.now, noise))
  {
    if apiKey == "" then Ok(ConceptPlan(p, children, dr, |p.childIds|))
    else match reply
      case HttpFailure(status) => Err(HttpStatus(status))
      case Empty => Err(InvalidJson)
      case Unparseable => Err(InvalidJson)
      case Parsed(doc) =>
        match doc
        case Falsy => Ok([])
        case NotList => Err(NotAList)
        case Items(items) => Ok(Repair(children, items, dr.now, noise))
  }

  // ------------------------------------------------------------ mock concepts

  const ConceptDays: seq<string> := ["Monday", "Tuesday", "Wednesday", "Thursday", "Friday"]

  const ConceptSlots: seq<string> := ["09:00", "10:30", "13:00", "14:30", "16:00", "17:30", "19:00"]

  datatype Idea = Idea(title: string, subject: string, summary: string)

  const Ideas: seq<Idea> := [
    Idea("Nature Math Hunt", "Math", "Find and count patterns in nature while learning multiplication"),
    Idea("Kitchen Chemistry", "Science", "Safe experiments using household items to explore chemical reactions"),
    Idea("Story Building Workshop", "Reading", "Create original stories using picture prompts and vocabulary cards"),
    Idea("Rhythm & Fractions", "Music", "Learn fractions through musical beats and rhythm patterns"),
    Idea("Map Your World", "History", "Create maps of your neighborhood and learn about local history"),
    Idea("Artistic Symmetry", "Art", "Explore symmetry through painting and paper folding"),
    Idea("Obstacle Olympics", "PE", "Design and complete physical challenges while timing and measuring"),
    Idea("Coding Unplugged", "Science", "Learn programming concepts through physical games and puzzles"),
    Idea("Poetry Cafe", "Reading", "Write and perform original poems in a cozy cafe setting"),
    Idea("Math Bakery", "Math", "Practice measurements and fractions while baking treats")]

  /** `Math.min(maxActivitiesPerDay, Math.floor(r * 2) + 2)`, as a loop bound. */
  function ConceptCount(max: int, r: real): (n: int)
    requires 0.0 <= r < 1.0
    ensures n <= max && n <= 3
    ensures max >= 2 ==> n >= 2
    ensures n == max || n == ScaledIndex(r, 2) + 2
  {
    Min(max, ScaledIndex(r, 2) + 2)
  }

  /** How many concepts child `c` gets on day `d`: never negative. */
  function ConceptDayCount(p: Preferences, dr: Draws, c: nat, d: nat): (n: nat)
    requires ValidDraws(dr)
    ensures n <= 3 && n <= (if p.maxActivitiesPerDay < 0 then 0 else p.maxActivitiesPerDay)
    ensures p.maxActivitiesPerDay >= 2 ==> n >= 2
  {
    var k := ConceptCount(p.maxActivitiesPerDay, dr.count(c, d));
    if k < 0 then 0 else k
  }

  /** `timeSlots[i] || '15:30'`. */
  function ConceptSlot(i: nat): string
  {
    if i < |ConceptSlots| then ConceptSlots[i] else "15:30"
  }

  /** Concept `i` of child `c` (roster entry `child`) on day `d`, from the idea its draw picks. */
  function MockConcept(dr: Draws, c: nat, child: Child, d: nat, i: nat): Concept
    requires ValidDraws(dr) && d < 5
  {
    var idea := Ideas[ScaledIndex(dr.subject(c, d, i), |Ideas|)];
    var start := ConceptSlot(i);
    Concept(
      ConceptId(dr.now, dr.noise(c, d, i)), child.id, child.name,
      idea.title, idea.subject, ConceptDays[d], start, ConceptEndTime(start),
      true, idea.summary, None)
  }

  /** The first `n` concepts of child `c` on day `d`. */
  function ConceptDay(dr: Draws, c: nat, child: Child, d: nat, n: nat): (r: seq<Concept>)
    requires ValidDraws(dr) && d < 5
    ensures |r| == n
  {
    seq(n, i requires 0 <= i < n => MockConcept(dr, c, child, d, i))
  }

  /** Child `c`'s concepts on the first `d` days. */
  function ConceptWeek(p: Preferences, dr: Draws, c: nat, child: Child, d: nat): seq<Concept>
    requires ValidDraws(dr) && d <= 5
  {
    if d == 0 then []
    else ConceptWeek(p, dr, c, child, d - 1) + ConceptDay(dr, c, child, d - 1, ConceptDayCount(p, dr, c, d - 1))
  }

  /** Child `c`'s concepts: none when its id is not in the roster. */
  function ConceptChild(p: Preferences, children: seq<Child>, dr: Draws, c: nat): seq<Concept>
    requires ValidDraws(dr) && c < |p.childIds|
  {
    match FindById(children, p.childIds[c])
    case None => []
    case Some(k) => ConceptWeek(p, dr, c, children[k], 5)
  }

  /** The concepts of the first `n` preferred children. */
  function ConceptPlan(p: Preferences, children: seq<Child>, dr: Draws, n: nat): seq<Concept>
    requires ValidDraws(dr) && n <= |p.childIds|
  {
    if n == 0 then [] else ConceptPlan(p, children, dr, n - 1) + ConceptChild(p, children, dr, n - 1)
  }

  /** The inner `for` loop: child `c`'s concepts on day `d`. */
  method MockConceptDay(p: Preferences, dr: Draws, c: nat, child: Child, d: nat) returns (block: seq<Concept>)
    requires ValidDraws(dr) && d < 5
    ensures block == ConceptDay(dr, c, child, d, ConceptDayCount(p, dr, c, d))
  {
    var count := ConceptCount(p.maxActivitiesPerDay, dr.count(c, d));
    block := [];
    var i := 0;
    while i < count
      invariant 0 <= i <= ConceptDayCount(p, dr, c, d)
      invariant block == ConceptDay(dr, c, child, d, i)
    {
      ConceptDayStep(dr, c, child, d, i);
      block := block + [MockConcept(dr, c, child, d, i)];
      i := i + 1;
    }
  }

  lemma ConceptDayStep(dr: Draws, c: nat, child: Child, d: nat, i: nat)
    requires ValidDraws(dr) && d < 5
    ensures ConceptDay(dr, c, child, d, i + 1) == ConceptDay(dr, c, child, d, i) + [MockConcept(dr, c, child, d, i)]
  {
    var a := ConceptDay(dr, c, child, d, i + 1);
    var b := ConceptDay(dr, c, child, d, i) + [MockConcept(dr, c, child, d, i)];
    forall k | 0 <= k <= i ensures a[k] == b[k] {
      if k < i {
        assert b[k] == ConceptDay(dr, c, child, d, i)[k];
      }
    }
  }

  /** The `days.forEach` loop for one child. */
  method MockConceptWeek(p: Preferences, dr: Draws, c: nat, child: Child) returns (block: seq<Concept>)
    requires ValidDraws(dr)
    ensures block == ConceptWeek(p, dr, c, child, 5)
  {
    block := [];
    var d := 0;
    while d < 5
      invariant 0 <= d <= 5
      invariant block == ConceptWeek(p, dr, c, child, d)
    {
      var day := MockConceptDay(p, dr, c, child, d);
      block := block + day;
      d := d + 1;
    }
  }

  /** The `childIds.forEach` callback: nothing for an id missing from the roster. */
  method MockConceptChild(p: Preferences, children: seq<Child>, dr: Draws, c: nat) returns (week: seq<Concept>)
    requires ValidDraws(dr) && c < |p.childIds|
    ensures week == ConceptChild(p, children, dr, c)
  {
    var found := FindById(children, p.childIds[c]);
    if found.None? {
      return [];
    }
    week := MockConceptWeek(p, dr, c, children[found.value]);
  }

  /**
   * `generateMockConcepts`: for each preferred child found in the roster,
   * for each day Monday to Friday, a drawn number of ideas in the first
   * slots of the day.
   */
  method GenerateMockConcepts(p: Preferences, children: seq<Child>, dr: Draws) returns (concepts: seq<Concept>)
    requires ValidDraws(dr)
    ensures concepts == ConceptPlan(p, children, dr, |p.childIds|)
  {
    concepts := [];
    var c := 0;
    while c < |p.childIds|
      invariant 0 <= c <= |p.childIds|
      invariant concepts == ConceptPlan(p, children, dr, c)
    {
      var week := MockConceptChild(p, children, dr, c);
      concepts := concepts + week;
      c := c + 1;
    }
  }

  lemma MockConceptFacts(dr: Draws, c: nat, child: Child, d: nat, i: nat)
    requires ValidDraws(dr) && d < 5 && i < 3
    ensures var x := MockConcept(dr, c, child, d, i);
      x.childId == child.id && x.childName == child.name && x.day == ConceptDays[d] &&
      x.startTime == ConceptSlots[i] && x.endTime == ConceptEndTime(x.startTime) && x.ageAppropriate &&
      exists k :: 0 <= k < |Ideas| && x.title == Ideas[k].title && x.subject == Ideas[k].subject &&
        x.conceptSummary == Ideas[k].summary
  {
    var k := ScaledIndex(dr.subject(c, d, i), |Ideas|);
    var x := MockConcept(dr, c, child, d, i);
    assert x.title == Ideas[k].title && x.subject == Ideas[k].subject && x.conceptSummary == Ideas[k].summary;
  }

  /**
   * One child's concepts on one day: at most `maxActivitiesPerDay` and at
   * most three (at least two when the maximum allows), in the first slots
   * in order, so with pairwise distinct start times.
   */
  lemma ConceptDayShape(p: Preferences, dr: Draws, c: nat, child: Child, d: nat)
    requires ValidDraws(dr) && d < 5
    ensures var block := ConceptDay(dr, c, child, d, ConceptDayCount(p, dr, c, d));
      |block| <= 3 &&
      (p.maxActivitiesPerDay >= 0 ==> |block| <= p.maxActivitiesPerDay) &&
      (p.maxActivitiesPerDay < 0 ==> |block| == 0) &&
      (p.maxActivitiesPerDay >= 2 ==> |block| >= 2) &&
      (forall i :: 0 <= i < |block| ==> block[i].startTime == ConceptSlots[i] && block[i].day == ConceptDays[d]) &&
      (forall i, j :: 0 <= i < j < |block| ==> block[i].startTime != block[j].startTime)
  {
    var n := ConceptDayCount(p, dr, c, d);
    var block := ConceptDay(dr, c, child, d, n);
    forall i | 0 <= i < n
      ensures block[i].startTime == ConceptSlots[i] && block[i].day == ConceptDays[d]
    {
      MockConceptFacts(dr, c, child, d, i);
    }
    FirstSlotsDistinct();
  }

  lemma FirstSlotsDistinct()
    ensures forall i, j :: 0 <= i < j < 3 ==> ConceptSlots[i] != ConceptSlots[j]
  {
    assert ConceptSlots[0][1] != ConceptSlots[1][1] && ConceptSlots[0][1] != ConceptSlots[2][1];
    assert ConceptSlots[1][1] != ConceptSlots[2][1];
  }

  /**
   * A mock concept belongs to a preferred child found in the roster and
   * carries that child's name, falls on Monday to Friday in one of the first
   * three slots, is age-appropriate, and takes title, subject and summary
   * from one idea.
   */
  ghost predicate GoodConcept(p: Preferences, children: seq<Child>, x: Concept)
  {
    x.childId in p.childIds &&
    (exists ch :: ch in children && ch.id == x.childId && ch.name == x.childName) &&
    x.day in ConceptDays && x.startTime in ConceptSlots[..3] && x.ageAppropriate &&
    exists k :: 0 <= k < |Ideas| && x.title == Ideas[k].title && x.subject == Ideas[k].subject &&
      x.conceptSummary == Ideas[k].summary
  }

  lemma ConceptDayGood(p: Preferences, children: seq<Child>, dr: Draws, c: nat, k: nat, d: nat)
    requires ValidDraws(dr) && c < |p.childIds| && d < 5
    requires k < |children| && children[k].id == p.childIds[c]
    ensures forall x :: x in ConceptDay(dr, c, children[k], d, ConceptDayCount(p, dr, c, d)) ==> GoodConcept(p, children, x)
  {
    var n := ConceptDayCount(p, dr, c, d);
    var block := ConceptDay(dr, c, children[k], d, n);
    assert children[k] in children;
    forall i | 0 <= i < n ensures GoodConcept(p, children, block[i]) {
      MockConceptFacts(dr, c, children[k], d, i);
    }
  }

  lemma {:induction false} ConceptWeekGood(p: Preferences, children: seq<Child>, dr: Draws, c: nat, k: nat, d: nat)
    requires ValidDraws(dr) && c < |p.childIds| && d <= 5
    requires k < |children| && children[k].id == p.childIds[c]
    ensures forall x :: x in ConceptWeek(p, dr, c, children[k], d) ==> GoodConcept(p, children, x)
  {
    if d > 0 {
      ConceptWeekGood(p, children, dr, c, k, d - 1);
      ConceptDayGood(p, children, dr, c, k, d - 1);
    }
  }

  /** Every mock concept satisfies `GoodConcept`. */
  lemma {:induction false} ConceptPlanGood(p: Preferences, children: seq<Child>, dr: Draws, n: nat)
    requires ValidDraws(dr) && n <= |p.childIds|
    ensures forall x :: x in ConceptPlan(p, children, dr, n) ==> GoodConcept(p, children, x)
  {
    if n > 0 {
      ConceptPlanGood(p, children, dr, n - 1);
      var found := FindById(children, p.childIds[n - 1]);
      if found.Some? {
        ConceptWeekGood(p, children, dr, n - 1, found.value, 5);
      }
    }
  }

  /** Without a key, the result is the mock concepts and never an error. */
  lemma NoKeyGivesMocks(p: Preferences, children: seq<Child>, dr: Draws, reply: Reply<ListField<Concept>>, noise: nat -> string)
    requires ValidDraws(dr)
    ensures var r := GenerateConceptsOnly("", p, children, dr, reply, noise);
      r.Ok? && forall x :: x in r.value ==> GoodConcept(p, children, x)
  {
    ConceptPlanGood(p, children, dr, |p.childIds|);
  }
}

=== FILE: lists.dfy ===
/**
 * Array updates shared by several screens: `filter`, the membership toggle
 * used for goals, subjects and child selection, the curriculum toggle capped
 * at two entries, and removal by index.
 */
module Lists {

  /** `s.filter(f)`. */
  function Filter<T(!new)>(s: seq<T>, f: T -> bool): (r: seq<T>)
    ensures |r| <= |s|
    ensures forall x :: x in r <==> x in s && f(x)
  {
    if s == [] then [] else (if f(s[0]) then [s[0]] else []) + Filter(s[1..], f)
  }

  lemma {:induction false} FilterAppend<T(!new)>(a: seq<T>, b: seq<T>, f: T -> bool)
    ensures Filter(a + b, f) == Filter(a, f) + Filter(b, f)
  {
    if a == [] {
      assert a + b == b;
    } else {
      assert (a + b)[1..] == a[1..] + b;
      FilterAppend(a[1..], b, f);
    }
  }

  /** Filtering with a test every element passes changes nothing. */
  lemma {:induction false} FilterAll<T(!new)>(s: seq<T>, f: T -> bool)
    ensures (forall x :: x in s ==> f(x)) ==> Filter(s, f) == s
  {
    if s != [] {
      FilterAll(s[1..], f);
    }
  }

  /** `s.filter(y => y !== x)`. */
  function RemoveAll<T(==,!new)>(s: seq<T>, x: T): (r: seq<T>)
    ensures x !in r
    ensures forall y :: y != x ==> (y in r <==> y in s)
    ensures x !in s ==> r == s
  {
    FilterAll(s, y => y != x);
    Filter(s, y => y != x)
  }

  /** `s.includes(x) ? s.filter(y => y !== x) : [...s, x]`. */
  function Toggle<T(==,!new)>(s: seq<T>, x: T): (r: seq<T>)
    ensures x in r <==> x !in s
    ensures forall y :: y != x ==> (y in r <==> y in s)
    ensures x !in s ==> r == s + [x]
  {
    if x in s then RemoveAll(s, x) else s + [x]
  }

  /** Toggling the same element twice restores a list that did not hold it. */
  lemma ToggleTwice<T(!new)>(s: seq<T>, x: T)
    requires x !in s
    ensures Toggle(Toggle(s, x), x) == s
  {
    assert x in s + [x];
    FilterAll(s, y => y != x);
    FilterAppend(s, [x], y => y != x);
  }

  /**
   * The curriculum toggle: a present entry is removed; otherwise the entry
   * is appended, or, when two are already chosen, the list becomes
   * `[s[1], x]`, evicting the older choice.
   */
  function ToggleCapped<T(==,!new)>(s: seq<T>, x: T): (r: seq<T>)
    ensures x in r <==> x !in s
    ensures |s| <= 2 ==> |r| <= 2
    ensures x in s ==> forall y :: y != x ==> (y in r <==> y in s)
    ensures x !in s && |s| < 2 ==> r == s + [x]
    ensures x !in s && |s| >= 2 ==> r == [s[1], x] && (s[0] !in r || s[0] == s[1])
  {
    if x in s then RemoveAll(s, x)
    else if |s| >= 2 then [s[1], x]
    else s + [x]
  }

  /** The capped toggle's button is disabled: two are chosen and `x` is not one of them. */
  predicate CapBlocks<T(==)>(s: seq<T>, x: T)
  {
    |s| >= 2 && x !in s
  }

  /**
   * With the button enabled the eviction branch is never taken: `x`
   * flips and every other choice stays as it was.
   */
  lemma EnabledToggleKeepsOthers<T(!new)>(s: seq<T>, x: T)
    requires !CapBlocks(s, x)
    ensures x in ToggleCapped(s, x) <==> x !in s
    ensures forall y :: y != x ==> (y in ToggleCapped(s, x) <==> y in s)
  {
    if x !in s {
      assert ToggleCapped(s, x) == s + [x];
    }
  }

  /** `s.filter((_, k) => k !== i)`: an index outside the list removes nothing. */
  function RemoveAt<T>(s: seq<T>, i: int): (r: seq<T>)
    ensures 0 <= i < |s| ==> |r| == |s| - 1
    ensures 0 <= i < |s| ==> forall k :: 0 <= k < |r| ==> r[k] == (if k < i then s[k] else s[k + 1])
    ensures !(0 <= i < |s|) ==> r == s
  {
    if 0 <= i < |s| then s[..i] + s[i + 1..] else s
  }

  /** `s.indexOf(x)`: the first position of `x`, or -1. */
  function IndexOf<T(==)>(s: seq<T>, x: T): (r: int)
    ensures -1 <= r < |s|
    ensures r == -1 <==> x !in s
    ensures r >= 0 ==> s[r] == x && x !in s[..r]
  {
    if s == [] then -1
    else if s[0] == x then 0
    else
      var k := IndexOf(s[1..], x);
      if k == -1 then -1 else (assert s[..k + 1] == [s[0]] + s[1..][..k]; k + 1)
  }
}

=== FILE: mockdata.dfy ===
/**
 * The shared record types of the planner (`Child`, `Activity`) and the
 * constant tables and fixtures of `lib/mockData.ts`.
 */
module MockData {
  import opened Wrappers
  import opened Text
  import opened Clock
  import opened Calendar

  datatype Status = Pending | Completed | Skipped

  datatype Recurrence = Weekly | Biweekly | Monthly

  datatype Child = Child(
    id: string,
    name: string,
    age: string,
    grade: string,
    goals: seq<string>,
    curriculumTypes: seq<string>,
    notes: string,
    color: string,
    emoji: string,
    userId: Option<string>,
    interests: Option<seq<string>>)

  /**
   * One scheduled activity. Optional properties are `Option`s; `date`, when
   * present and non-empty, is a `YYYY-MM-DD` string.
   */
  datatype Activity = Activity(
    id: string,
    childId: string,
    title: string,
    subject: string,
    description: string,
    day: string,
    date: Option<string>,
    startTime: string,
    endTime: string,
    materials: Option<seq<string>>,
    instructions: Option<seq<string>>,
    objectives: Option<seq<string>>,
    enhanced: bool,
    status: Option<Status>,
    completedAt: Option<string>,
    recurring: Option<bool>,
    recurrenceRule: Option<Recurrence>)

  /** The date as JavaScript sees it in a test: absent and `''` are both falsy. */
  function DateText(a: Activity): string
  {
    a.date.GetOr("")
  }

  /** A `date` in the calendar date extended format of ISO 8601:2004. */
  ghost predicate IsIsoDateText(s: string)
  {
    exists d: Date :: 0 <= d.year <= 9999 && ValidDate(d) && IsoDate(d) == s
  }

  const TimeSlots: seq<string> := [
    "09:00", "09:30", "10:00", "10:30", "11:00", "11:30",
    "12:00", "12:30", "13:00", "13:30", "14:00", "14:30",
    "15:00", "15:30", "16:00", "16:30", "17:00", "17:30",
    "18:00", "18:30", "19:00", "19:30", "20:00"]

  const WeekDays: seq<string> :=
    ["Monday", "Tuesday", "Wednesday", "Thursday", "Friday", "Saturday", "Sunday"]

  const Subjects: seq<string> := [
    "Mathematics", "Language Arts", "Science", "Social Studies", "Art",
    "Music", "Physical Education", "Life Skills", "Free Play"]

  datatype ColorSet = ColorSet(bg: string, border: string, text: string)

  const ChildColors: seq<ColorSet> := [
    ColorSet("bg-purple-200", "border-purple-400", "text-purple-900"),
    ColorSet("bg-blue-200", "border-blue-400", "text-blue-900"),
    ColorSet("bg-green-200", "border-green-400", "text-green-900"),
    ColorSet("bg-yellow-200", "border-yellow-400", "text-yellow-900"),
    ColorSet("bg-pink-200", "border-pink-400", "text-pink-900")]

  const MockChildren: seq<Child> := [
    Child("1", "Emma", "8", "3rd Grade",
      ["STEM Focus", "Arts & Creativity", "Language Learning"], ["Montessori", "Project-Based"],
      "Loves hands-on activities and science experiments", "bg-purple-200", "🦄", None, None),
    Child("2", "Luna", "3", "Pre-K",
      ["STEM Focus", "Arts & Creativity", "Language Learning"], ["Montessori", "Project-Based"],
      "Loves hands-on activities and science experiments", "bg-blue-200", "🦄", None, None)]

  const MockActivities: seq<Activity> := [
    Activity("1", "1", "Math Patterns", "Mathematics", "Exploring number patterns and sequences",
      "Monday", None, "09:00", "10:00",
      Some(["Pattern blocks", "Number cards", "Worksheet"]),
      Some(["Start with simple AB patterns", "Progress to ABC patterns", "Create own patterns"]),
      Some(["Recognize patterns", "Predict sequences", "Create patterns"]),
      true, None, None, None, None),
    Activity("2", "2", "Story Time", "Language Arts", "Reading comprehension and discussion",
      "Monday", None, "10:00", "11:00", None, None, None, false, None, None, None, None),
    Activity("3", "3", "Story Time", "Language Arts", "Reading comprehension and discussion",
      "Monday", None, "10:00", "11:00", None, None, None, false, None, None, None, None)]

  /** Slot `i` of the grid is 09:00 plus `i` half hours, spelled out digit by digit. */
  function SlotTime(i: nat): (t: string)
    requires i < 23
    ensures t == Hm(9 + i / 2, 30 * (i % 2))
  {
    var h, m := 9 + i / 2, 30 * (i % 2);
    Digits2(h);
    Digits2(m);
    [DigitChar(h / 10), DigitChar(h % 10), ':', DigitChar(m / 10), DigitChar(m % 10)]
  }

  lemma DigitCharTable()
    ensures DigitChar(0) == '0' && DigitChar(1) == '1' && DigitChar(2) == '2' && DigitChar(3) == '3'
    ensures DigitChar(9) == '9' && DigitChar(4) == '4' && DigitChar(5) == '5' && DigitChar(6) == '6'
    ensures DigitChar(7) == '7' && DigitChar(8) == '8'
  {
  }

  lemma SlotRow1()
    ensures SlotTime(0) == "09:00" && SlotTime(1) == "09:30" && SlotTime(2) == "10:00" && SlotTime(3) == "10:30" && SlotTime(4) == "11:00" && SlotTime(5) == "11:30"
  {
    DigitCharTable();
  }

  lemma SlotRow2()
    ensures SlotTime(6) == "12:00" && SlotTime(7) == "12:30" && SlotTime(8) == "13:00" && SlotTime(9) == "13:30" && SlotTime(10) == "14:00" && SlotTime(11) == "14:30"
  {
    DigitCharTable();
  }

  lemma SlotRow3()
    ensures SlotTime(12) == "15:00" && SlotTime(13) == "15:30" && SlotTime(14) == "16:00" && SlotTime(15) == "16:30" && SlotTime(16) == "17:00" && SlotTime(17) == "17:30"
  {
    DigitCharTable();
  }

  lemma SlotRow4()
    ensures SlotTime(18) == "18:00" && SlotTime(19) == "18:30" && SlotTime(20) == "19:00" && SlotTime(21) == "19:30" && SlotTime(22) == "20:00"
  {
    DigitCharTable();
  }

  /** The 23 grid slots run in half-hour steps from 09:00 to 20:00. */
  lemma TimeSlotsAreHalfHours()
    ensures |TimeSlots| == 23
    ensures forall i :: 0 <= i < 23 ==> TimeSlots[i] == SlotTime(i)
  {
    SlotRow1(); SlotRow2(); SlotRow3(); SlotRow4();
    forall i | 0 <= i < 23 ensures TimeSlots[i] == SlotTime(i) {
      assert i in {0, 1, 2, 3, 4, 5, 6, 7, 8, 9, 10, 11, 12, 13, 14, 15, 16, 17, 18, 19, 20, 21, 22};
    }
  }

  /** Later slots compare greater as strings, so the grid order is string order. */
  lemma TimeSlotsAscending()
    ensures forall i, j :: 0 <= i < j < |TimeSlots| ==> StrLt(TimeSlots[i], TimeSlots[j])
  {
    TimeSlotsAreHalfHours();
    forall i, j | 0 <= i < j < 23 ensures StrLt(TimeSlots[i], TimeSlots[j]) {
      SlotOrder(i, j);
    }
  }

  lemma SlotOrder(i: nat, j: nat)
    requires i < j < 23
    ensures StrLt(SlotTime(i), SlotTime(j))
  {
    var hi, mi, hj, mj := 9 + i / 2, 30 * (i % 2), 9 + j / 2, 30 * (j % 2);
    assert hi < hj || (hi == hj && mi < mj);
    HmOrder(hi, mi, hj, mj);
  }

  /** The columns of the week grid, Monday first; the last two are the shaded weekend. */
  lemma WeekDaysLayout()
    ensures |WeekDays| == 7 && WeekDays[0] == "Monday"
    ensures forall i :: 0 <= i < 7 ==> (WeekDays[i] in {"Saturday", "Sunday"} <==> i >= 5)
  {
  }

  predicate DistinctIds(acts: seq<Activity>)
  {
    forall i, j :: 0 <= i < j < |acts| ==> acts[i].id != acts[j].id
  }

  predicate HasChild(children: seq<Child>, id: string)
  {
    exists c :: c in children && c.id == id
  }

  /** The fixtures: distinct activity ids, and activity 3 belongs to no listed child. */
  lemma FixtureFacts()
    ensures DistinctIds(MockActivities)
    ensures MockActivities[2].childId == "3" && !HasChild(MockChildren, "3")
    ensures forall a :: a in MockActivities ==> a.date.None? && a.day == "Monday"
  {
  }
}

=== FILE: multistep.dfy ===
/**
 * The four-stage generator of `lib/openai-multistep.ts`: a week outline
 * (or the concepts the parent selected), one detail request per outline
 * item, one materials request for the whole batch, and one cohesion
 * request, with the progress events the run reports along the way.
 */
module MultiStep {
  import opened Wrappers
  import opened Text
  import opened Calendar
  import opened MockData
  import opened ChildIds
  import opened Lists
  import opened Remote
  import opened Concepts

  // ------------------------------------------------------------ outline decoding

  /**
   * The match of `/\{[\s\S]*\}/`: from the first `{` to the last `}`, when
   * that `}` comes after the `{`.
   */
  function BraceSpan(text: string): (r: Option<(nat, nat)>)
    ensures r.Some? ==> r.value.0 < r.value.1 <= |text|
    ensures r.Some? ==> text[r.value.0] == '{' && text[r.value.1 - 1] == '}'
    ensures r.Some? ==> forall k :: 0 <= k < r.value.0 ==> text[k] != '{'
    ensures r.Some? ==> forall k :: r.value.1 <= k < |text| ==> text[k] != '}'
    ensures r.None? ==> forall i, j :: 0 <= i < j < |text| && text[i] == '{' ==> text[j] != '}'
  {
    var i := IndexOf(text, '{');
    var j := LastIndexOf(text, '}');
    if i >= 0 && j > i then Some((i, j + 1)) else None
  }

  /** The last position of `x` in `s`, or -1. */
  function LastIndexOf<T(==)>(s: seq<T>, x: T): (r: int)
    ensures -1 <= r < |s|
    ensures r == -1 <==> x !in s
    ensures r >= 0 ==> s[r] == x
    ensures forall k :: r < k < |s| ==> s[k] != x
  {
    LastBefore(s, x, |s|)
  }

  /** The last position of `x` below `j`, or -1. */
  function LastBefore<T(==)>(s: seq<T>, x: T, j: nat): (r: int)
    requires j <= |s|
    ensures -1 <= r < j
    ensures r >= 0 ==> s[r] == x
    ensures forall k :: r < k < j ==> s[k] != x
  {
    if j == 0 then -1
    else if s[j - 1] == x then j - 1
    else LastBefore(s, x, j - 1)
  }

  /** The matched text itself. */
  function BraceText(text: string): Option<string>
  {
    match BraceSpan(text)
    case None => None
    case Some((i, j)) => Some(text[i..j])
  }

  /** A text that is itself one braced span is its own match. */
  lemma BraceSpanWhole(text: string)
    requires |text| >= 2 && text[0] == '{' && text[|text| - 1] == '}'
    ensures BraceText(text) == Some(text)
  {
    assert text[..0] == [];
    assert text[0..|text|] == text;
  }

  /** Wrapping text in prose without braces leaves the match unchanged. */
  lemma BraceSpanIgnoresProse(pre: string, body: string, post: string)
    requires |body| >= 2 && body[0] == '{' && body[|body| - 1] == '}'
    requires '{' !in pre && '}' !in pre && '{' !in post && '}' !in post
    ensures BraceText(pre + body + post) == Some(body)
  {
    var t := pre + body + post;
    var r := BraceSpan(t);
    assert t[|pre|] == '{' && t[|pre| + |body| - 1] == '}';
    assert r.Some?;
    var (i, j) := r.value;
    assert forall k :: 0 <= k < |pre| ==> t[k] == pre[k];
    assert forall k :: |pre| + |body| <= k < |t| ==> t[k] == post[k - |pre| - |body|];
    assert t[i..j] == body;
  }

  /**
   * The decoded outline reply: a JSON object with `activities` and
   * `outline` properties, or a bare JSON array.
   */
  datatype OutlineDoc =
    | ObjectDoc(activities: ListField<Concept>, outline: ListField<Concept>)
    | ArrayDoc(items: seq<Concept>)

  /**
   * `content.activities || content.outline || content || []` followed by
   * `map`: an object holding neither list has no `map`.
   */
  function OutlineItems(doc: OutlineDoc): (r: Result<seq<Concept>, GenError>)
    ensures doc.ArrayDoc? ==> r == Ok(doc.items)
    ensures doc.ObjectDoc? && doc.activities.Items? ==> r == Ok(doc.activities.items)
    ensures doc.ObjectDoc? && doc.activities.Falsy? && doc.outline.Items? ==> r == Ok(doc.outline.items)
    ensures r.Err? ==> r.error == NotAList
  {
    match doc
    case ArrayDoc(items) => Ok(items)
    case ObjectDoc(activities, outline) =>
      match activities
      case Items(a) => Ok(a)
      case NotList => Err(NotAList)
      case Falsy =>
        match outline
        case Items(o) => Ok(o)
        case _ => Err(NotAList)
  }

  /**
   * The content of the outline reply: the whole text when it parses, else
   * the braced span when there is one and it parses.
   */
  function DecodeOutline(text: string, parse: string -> Option<OutlineDoc>): (r: Result<OutlineDoc, GenError>)
    ensures parse(text).Some? ==> r == Ok(parse(text).value)
    ensures parse(text).None? && BraceText(text).None? ==> r == Err(NoJsonObject)
    ensures parse(text).None? && BraceText(text).Some? ==>
      r == (match parse(BraceText(text).value) case Some(doc) => Ok(doc) case None => Err(InvalidJson))
  {
    match parse(text)
    case Some(doc) => Ok(doc)
    case None =>
      match BraceText(text)
      case None => Err(NoJsonObject)
      case Some(span) =>
        match parse(span)
        case Some(doc) => Ok(doc)
        case None => Err(InvalidJson)
  }

  /** The outline items with their child ids repaired; all else is kept. */
  function RepairOutline(children: seq<Child>, items: seq<Concept>): (r: seq<Concept>)
    ensures |r| == |items|
    ensures forall i :: 0 <= i < |r| ==>
      r[i] == items[i].(childId := ResolveChildId(items[i].childId, items[i].childName, children))
  {
    seq(|items|, i requires 0 <= i < |items| =>
      items[i].(childId := ResolveChildId(items[i].childId, items[i].childName, children)))
  }

  /**
   * `generateWeekOutline` after its request: a failed request throws, a
   * reply without content throws when its text is searched for braces,
   * and decoded content yields its repaired items.
   */
  function GenerateOutline(children: seq<Child>, reply: Completion, parse: string -> Option<OutlineDoc>): (r: Result<seq<Concept>, GenError>)
    ensures reply.Failed? ==> r == Err(HttpStatus(reply.status))
    ensures reply.Missing? ==> r == Err(NoContent)
    ensures reply.Content? && DecodeOutline(reply.text, parse).Err? ==> r == Err(DecodeOutline(reply.text, parse).error)
    ensures reply.Content? && DecodeOutline(reply.text, parse).Ok? ==>
      r == (match OutlineItems(DecodeOutline(reply.text, parse).value)
            case Ok(items) => Ok(RepairOutline(children, items))
            case Err(e) => Err(e))
  {
    match reply
    case Failed(status) => Err(HttpStatus(status))
    case Missing => Err(NoContent)
    case Content(text) =>
      match DecodeOutline(text, parse)
      case Err(e) => Err(e)
      case Ok(doc) =>
        match OutlineItems(doc)
        case Err(e) => Err(e)
        case Ok(items) => Ok(RepairOutline(children, items))
  }

  // ------------------------------------------------------------ details

  /** The decoded detail reply; a property the reply leaves out is `""` or `None`. */
  datatype DetailDoc = DetailDoc(description: string, instructions: Option<seq<string>>, objectives: Option<seq<string>>)

  const DefaultDescription: string := "Engaging educational activity"

  const TemplateInstructions: seq<string> :=
    ["Prepare materials", "Introduce the concept", "Guide through the activity", "Review and discuss"]

  const TemplateObjectives: seq<string> := ["Learn key concepts", "Develop skills", "Apply knowledge"]

  /** The details used when the reply's content does not parse. */
  function FallbackDetails(item: Concept): (d: DetailDoc)
    ensures d.description == Or(item.conceptSummary, DefaultDescription)
    ensures d.instructions == Some(TemplateInstructions) && d.objectives == Some(TemplateObjectives)
  {
    DetailDoc(Or(item.conceptSummary, DefaultDescription), Some(TemplateInstructions), Some(TemplateObjectives))
  }

  const SchoolDays: seq<string> := ["Monday", "Tuesday", "Wednesday", "Thursday", "Friday"]

  /**
   * The detail stage's date: `monday` (the Monday of the week of the day
   * the run happens) moved by the day's index in Monday to Friday, which
   * is -1 for any other day.
   */
  function DetailDate(monday: Date, day: string): string
    requires ValidDate(monday)
  {
    DateString(AddDays(monday, IndexOf(SchoolDays, day)))
  }

  /** The date text of every outline item. */
  function DetailDates(monday: Date, outline: seq<Concept>): (r: seq<string>)
    requires ValidDate(monday)
    ensures |r| == |outline|
  {
    seq(|outline|, i requires 0 <= i < |outline| => DetailDate(monday, outline[i].day))
  }

  /** The activity built from an outline item, its details and its date text. */
  function Detailed(item: Concept, details: DetailDoc, date: string, id: string): (a: Activity)
  {
    Activity(
      id, item.childId, item.title, item.subject, details.description, item.day,
      Some(date), item.startTime, item.endTime,
      Some([]), details.instructions, details.objectives,
      true, None, None, None, None)
  }

  /**
   * `generateActivityDetails` for one item: a child id missing from the
   * roster fails when the prompt reads the child's name; a failed request
   * throws; content that is absent or does not parse gives the fallback
   * details.
   */
  function Detail(item: Concept, children: seq<Child>, reply: Reply<DetailDoc>, date: string, id: string): (r: Result<Activity, GenError>)
  {
    if FindById(children, item.childId).None? then Err(MissingChild)
    else match reply
      case HttpFailure(status) => Err(HttpStatus(status))
      case Parsed(doc) => Ok(Detailed(item, doc, date, id))
      case _ => Ok(Detailed(item, FallbackDetails(item), date, id))
  }

  /** Whether the detail of one item fails, and how. */
  lemma DetailOutcome(item: Concept, children: seq<Child>, reply: Reply<DetailDoc>, date: string, id: string)
    ensures var r := Detail(item, children, reply, date, id);
      (!HasChild(children, item.childId) ==> r == Err(MissingChild)) &&
      (HasChild(children, item.childId) && reply.HttpFailure? ==> r == Err(HttpStatus(reply.status))) &&
      (r.Ok? <==> HasChild(children, item.childId) && !reply.HttpFailure?)
  {
    var f := FindById(children, item.childId);
    if f.Some? {
      assert children[f.value] in children;
    }
  }

  /**
   * A detailed activity copies the item's child id, title, subject, day and
   * times, has no materials yet and is marked enhanced; when the reply's
   * content is absent or does not parse it gets the item's summary (or a
   * default) and the template steps and objectives.
   */
  lemma DetailFields(item: Concept, children: seq<Child>, reply: Reply<DetailDoc>, date: string, id: string)
    requires Detail(item, children, reply, date, id).Ok?
    ensures var a := Detail(item, children, reply, date, id).value;
      a.id == id && a.childId == item.childId && a.title == item.title && a.subject == item.subject &&
      a.day == item.day && a.startTime == item.startTime && a.endTime == item.endTime &&
      a.materials == Some([]) && a.enhanced && a.date == Some(date) &&
      (reply.Parsed? ==>
         a.description == reply.doc.description &&
         a.instructions == reply.doc.instructions && a.objectives == reply.doc.objectives) &&
      (!reply.Parsed? ==>
         a.description == Or(item.conceptSummary, DefaultDescription) &&
         a.instructions == Some(TemplateInstructions) && a.objectives == Some(TemplateObjectives))
  {
  }

  /**
   * The detail dates ignore the requested week: Monday to Friday fall in
   * the week of `monday`, and any other day name gives the Sunday before it.
   */
  lemma DetailDateFacts(monday: Date, day: string)
    requires ValidDate(monday) && Weekday(monday) == 1
    ensures var k := IndexOf(SchoolDays, day);
      var d := AddDays(monday, k);
      DetailDate(monday, day) == DateString(d) &&
      (day in SchoolDays ==> MondayOf(d) == monday && DayNumber(d) == DayNumber(monday) + k && SchoolDays[k] == day) &&
      (day !in SchoolDays ==> k == -1 && Weekday(d) == 0 && DayNumber(d) == DayNumber(monday) - 1)
  {
    var k := IndexOf(SchoolDays, day);
    if k >= 0 {
      SchoolDayDate(monday, k);
    } else {
      SundayBefore(monday, k);
    }
  }

  lemma SchoolDayDate(monday: Date, k: int)
    requires ValidDate(monday) && Weekday(monday) == 1 && 0 <= k < 5
    ensures MondayOf(AddDays(monday, k)) == monday && DayNumber(AddDays(monday, k)) == DayNumber(monday) + k
  {
    AddDaysNumber(monday, k);
    ShiftedMonday(monday, AddDays(monday, k), k);
  }

  lemma SundayBefore(monday: Date, k: int)
    requires ValidDate(monday) && Weekday(monday) == 1 && k == -1
    ensures Weekday(AddDays(monday, k)) == 0 && DayNumber(AddDays(monday, k)) == DayNumber(monday) - 1
  {
    AddDaysNumber(monday, k);
    DayBeforeMonday(monday, AddDays(monday, k));
  }

  lemma DayBeforeMonday(monday: Date, d: Date)
    requires ValidDate(monday) && ValidDate(d) && Weekday(monday) == 1
    requires DayNumber(d) == DayNumber(monday) - 1
    ensures Weekday(d) == 0
  {
    var n := DayNumber(monday);
    assert (n + 1) % 7 == 1;
    assert Weekday(d) == (n - 1 + 1) % 7;
  }

  // ------------------------------------------------------------ materials

  const DefaultMaterials: seq<string> := ["Paper", "Pencils", "Learning materials"]

  /** `materials[activity.title] || [...]`. */
  function MaterialsFor(table: map<string, seq<string>>, title: string): seq<string>
  {
    if title in table then table[title] else DefaultMaterials
  }

  /**
   * `enrichActivities` after its request: a failed request throws, content
   * that is absent or does not parse throws, a reply without a `materials`
   * table throws as soon as one activity looks it up; otherwise each
   * activity gets its title's list or the default list.
   */
  function Enrich(acts: seq<Activity>, reply: Reply<Option<map<string, seq<string>>>>): (r: Result<seq<Activity>, GenError>)
    ensures reply.HttpFailure? ==> r == Err(HttpStatus(reply.status))
    ensures reply.Empty? || reply.Unparseable? ==> r == Err(InvalidJson)
    ensures reply.Parsed? && reply.doc.None? ==> (r.Ok? <==> acts == [])
    ensures r.Ok? ==> |r.value| == |acts|
    ensures r.Ok? && acts != [] ==> reply.Parsed? && reply.doc.Some?
    ensures r.Ok? ==> forall i :: 0 <= i < |acts| ==>
      r.value[i] == acts[i].(materials := Some(MaterialsFor(reply.doc.value, acts[i].title)))
  {
    match reply
    case HttpFailure(status) => Err(HttpStatus(status))
    case Parsed(doc) =>
      if doc.None? then (if acts == [] then Ok([]) else Err(MissingMaterials))
      else Ok(seq(|acts|, i requires 0 <= i < |acts| => acts[i].(materials := Some(MaterialsFor(doc.value, acts[i].title)))))
    case _ => Err(InvalidJson)
  }

  /** With a table, enrichment changes only `materials`, to the listed entry or the default list. */
  lemma EnrichFields(acts: seq<Activity>, table: map<string, seq<string>>, i: nat)
    requires i < |acts|
    ensures var r := Enrich(acts, Parsed(Some(table)));
      r.Ok? && r.value[i].id == acts[i].id && r.value[i].title == acts[i].title &&
      r.value[i].description == acts[i].description && r.value[i].date == acts[i].date &&
      (acts[i].title in table ==> r.value[i].materials == Some(table[acts[i].title])) &&
      (acts[i].title !in table ==> r.value[i].materials == Some(DefaultMaterials))
  {
  }

  // ------------------------------------------------------------ cohesion

  /** One entry of `improvements`; an absent or null property is `""`. */
  datatype Improvement = Improvement(newTitle: string, themeConnection: string)

  /**
   * The activity after its title's improvement, if the improvement names a
   * new title; the description gains a space and, when there is a theme,
   * the theme in parentheses.
   */
  function Improve(a: Activity, table: map<string, Improvement>): Activity
  {
    if a.title in table && table[a.title].newTitle != "" then
      var imp := table[a.title];
      a.(title := imp.newTitle,
         description := a.description + " " + (if imp.themeConnection != "" then "(" + imp.themeConnection + ")" else ""))
    else a
  }

  /**
   * `optimizeWeekCohesion` after its request: a failed request or content
   * that is absent or does not parse leaves the activities as they are; a
   * missing `improvements` table counts as empty.
   */
  function Cohesion(acts: seq<Activity>, reply: Reply<Option<map<string, Improvement>>>): (r: seq<Activity>)
    ensures |r| == |acts|
    ensures !reply.Parsed? ==> r == acts
  {
    match reply
    case Parsed(doc) =>
      var table := doc.GetOr(map[]);
      seq(|acts|, i requires 0 <= i < |acts| => Improve(acts[i], table))
    case _ => acts
  }

  /**
   * With a table, an activity whose title has an improvement with a new
   * title is renamed and its description extended; every other activity,
   * and every other field, is unchanged.
   */
  lemma CohesionFields(acts: seq<Activity>, doc: Option<map<string, Improvement>>, i: nat)
    requires i < |acts|
    ensures var a, b := acts[i], Cohesion(acts, Parsed(doc))[i];
      var table := doc.GetOr(map[]);
      b == a.(title := b.title, description := b.description) &&
      (a.title in table && table[a.title].newTitle != "" ==>
        b.title == table[a.title].newTitle &&
        b.description == a.description + " " +
          (if table[a.title].themeConnection != "" then "(" + table[a.title].themeConnection + ")" else "")) &&
      (!(a.title in table && table[a.title].newTitle != "") ==> b == a)
  {
  }

  /** A missing table changes nothing. */
  lemma CohesionWithoutTable(acts: seq<Activity>)
    ensures Cohesion(acts, Parsed(None)) == acts
  {
    var r := Cohesion(acts, Parsed(None));
    forall i | 0 <= i < |acts| ensures r[i] == acts[i] {
    }
  }

  // ------------------------------------------------------------ the run

  /**
   * Everything the run learns from outside: the outline reply and the JSON
   * parser for its text, the reply to the detail request of item `i`, the
   * materials and cohesion replies, the Monday of the week of the day the
   * run happens, and the id of item `i`.
   */
  datatype Oracles = Oracles(
    outline: Completion,
    parse: string -> Option<OutlineDoc>,
    detail: nat -> Reply<DetailDoc>,
    materials: Reply<Option<map<string, seq<string>>>>,
    cohesion: Reply<Option<map<string, Improvement>>>,
    monday: Date,
    ids: nat -> string)

  predicate ValidOracles(o: Oracles)
  {
    ValidDate(o.monday)
  }

  /** The first `k` items' activities, or the first error among them. */
  function DetailsUpTo(outline: seq<Concept>, children: seq<Child>, o: Oracles, dates: seq<string>, k: nat): (r: Result<seq<Activity>, GenError>)
    requires |dates| == |outline| && k <= |outline|
  {
    if k == 0 then Ok([])
    else match DetailsUpTo(outline, children, o, dates, k - 1)
      case Err(e) => Err(e)
      case Ok(acts) =>
        match Detail(outline[k - 1], children, o.detail(k - 1), dates[k - 1], o.ids(k - 1))
        case Err(e) => Err(e)
        case Ok(a) => Ok(acts + [a])
  }

  /** How many of the first `k` items had their detail requested. */
  function Attempts(outline: seq<Concept>, children: seq<Child>, o: Oracles, dates: seq<string>, k: nat): (n: nat)
    requires |dates| == |outline| && k <= |outline|
    ensures n <= k
    ensures DetailsUpTo(outline, children, o, dates, k).Ok? ==> n == k
  {
    if k == 0 then 0
    else if DetailsUpTo(outline, children, o, dates, k - 1).Err? then Attempts(outline, children, o, dates, k - 1)
    else k
  }

  /**
   * Stage 2 yields one activity per outline item, in outline order, each
   * the detail of its item.
   */
  lemma {:induction false} DetailsInOrder(outline: seq<Concept>, children: seq<Child>, o: Oracles, dates: seq<string>, k: nat)
    requires |dates| == |outline| && k <= |outline| && DetailsUpTo(outline, children, o, dates, k).Ok?
    ensures var acts := DetailsUpTo(outline, children, o, dates, k).value;
      |acts| == k &&
      forall i :: 0 <= i < k ==> Detail(outline[i], children, o.detail(i), dates[i], o.ids(i)) == Ok(acts[i])
  {
    if k > 0 {
      DetailsInOrder(outline, children, o, dates, k - 1);
    }
  }

  /** Once an item fails, its error is the result of the whole stage and no later item is requested. */
  lemma {:induction false} FailureSticks(outline: seq<Concept>, children: seq<Child>, o: Oracles, dates: seq<string>, k0: nat, k: nat)
    requires |dates| == |outline| && k0 <= k <= |outline| && DetailsUpTo(outline, children, o, dates, k0).Err?
    ensures DetailsUpTo(outline, children, o, dates, k) == DetailsUpTo(outline, children, o, dates, k0)
    ensures Attempts(outline, children, o, dates, k) == Attempts(outline, children, o, dates, k0)
  {
    if k > k0 {
      FailureSticks(outline, children, o, dates, k0, k - 1);
    }
  }

  /** Stage 2 fails exactly when some item's child is missing or its request fails. */
  lemma {:induction false} DetailsFail(outline: seq<Concept>, children: seq<Child>, o: Oracles, dates: seq<string>, k: nat)
    requires |dates| == |outline| && k <= |outline|
    ensures DetailsUpTo(outline, children, o, dates, k).Err? <==>
      exists i :: 0 <= i < k && (!HasChild(children, outline[i].childId) || o.detail(i).HttpFailure?)
  {
    if k > 0 {
      DetailsFail(outline, children, o, dates, k - 1);
      DetailOutcome(outline[k - 1], children, o.detail(k - 1), dates[k - 1], o.ids(k - 1));
    }
  }

  datatype Stage = OutlineStage | DetailsStage | MaterialsStage | EnrichmentStage

  /** One `onProgress` report; the message text is left out. */
  datatype Event = Event(stage: Stage, progress: real, current: Option<string>)

  /** `25 + (50 * i / n)`. */
  function DetailProgress(i: nat, n: nat): (r: real)
    requires i < n
    ensures 25.0 <= r < 75.0
  {
    FractionBelowOne(i, n);
    25.0 + 50.0 * (i as real) / (n as real)
  }

  lemma FractionBelowOne(i: nat, n: nat)
    requires i < n
    ensures 0.0 <= 50.0 * (i as real) / (n as real) < 50.0
  {
    var q := 50.0 * (i as real) / (n as real);
    assert q * (n as real) == 50.0 * (i as real);
    assert q >= 50.0 ==> q * (n as real) >= 50.0 * (n as real);
  }

  lemma DetailProgressGrows(i: nat, j: nat, n: nat)
    requires i <= j < n
    ensures DetailProgress(i, n) <= DetailProgress(j, n)
  {
    var qi, qj := 50.0 * (i as real) / (n as real), 50.0 * (j as real) / (n as real);
    assert qi * (n as real) == 50.0 * (i as real);
    assert qj * (n as real) == 50.0 * (j as real);
    assert qi > qj ==> qi * (n as real) > qj * (n as real);
  }

  function DetailEvent(outline: seq<Concept>, i: nat): Event
    requires i < |outline|
  {
    Event(DetailsStage, DetailProgress(i, |outline|), Some(outline[i].title))
  }

  predicate NonDecreasing(events: seq<Event>)
  {
    forall i, j :: 0 <= i < j < |events| ==> events[i].progress <= events[j].progress
  }

  /** Every report lies between `lo` and `hi`. */
  predicate Within(events: seq<Event>, lo: real, hi: real)
  {
    forall i :: 0 <= i < |events| ==> lo <= events[i].progress <= hi
  }

  /** The detail reports of an outline rise from 25 and stay below 75. */
  lemma DetailEventsRise(outline: seq<Concept>, events: seq<Event>)
    requires |events| <= |outline|
    requires forall i :: 0 <= i < |events| ==> events[i] == DetailEvent(outline, i)
    ensures NonDecreasing(events) && Within(events, 25.0, 75.0)
    ensures forall i :: 0 <= i < |events| ==> events[i].progress < 75.0 && events[i].stage == DetailsStage
  {
    forall i, j | 0 <= i < j < |events| ensures events[i].progress <= events[j].progress {
      DetailProgressGrows(i, j, |outline|);
    }
  }

  /** Reports that rise in two runs, the first ending no higher than the second begins, rise together. */
  lemma RiseAppend(a: seq<Event>, b: seq<Event>, lo: real, mid: real, hi: real)
    requires lo <= mid <= hi
    requires NonDecreasing(a) && NonDecreasing(b) && Within(a, lo, mid) && Within(b, mid, hi)
    ensures NonDecreasing(a + b) && Within(a + b, lo, hi)
  {
    var c := a + b;
    forall i | 0 <= i < |c| ensures lo <= c[i].progress <= hi {
      if i < |a| {
        assert c[i] == a[i];
      } else {
        assert c[i] == b[i - |a|];
      }
    }
    forall i, j | 0 <= i < j < |c| ensures c[i].progress <= c[j].progress {
      if j < |a| {
        assert c[i] == a[i] && c[j] == a[j];
      } else if i >= |a| {
        assert c[i] == b[i - |a|] && c[j] == b[j - |a|];
      } else {
        assert c[i] == a[i] && c[j] == b[j - |a|];
      }
    }
  }

  /** The outline the details stage works on: the selected concepts, or a generated one. */
  function OutlineOf(children: seq<Child>, concepts: seq<Concept>, o: Oracles): Result<seq<Concept>, GenError>
  {
    if |concepts| > 0 then Ok(concepts) else GenerateOutline(children, o.outline, o.parse)
  }

  /** Stages 2 to 4 on a given outline. */
  function Finish(outline: seq<Concept>, children: seq<Child>, o: Oracles, dates: seq<string>): Result<seq<Activity>, GenError>
    requires |dates| == |outline|
  {
    match DetailsUpTo(outline, children, o, dates, |outline|)
    case Err(e) => Err(e)
    case Ok(acts) =>
      match Enrich(acts, o.materials)
      case Err(e) => Err(e)
      case Ok(enriched) => Ok(Cohesion(enriched, o.cohesion))
  }

  /** `generateActivitiesMultiStep`'s result. */
  function Pipeline(apiKey: string, children: seq<Child>, concepts: seq<Concept>, o: Oracles): Result<seq<Activity>, GenError>
    requires ValidOracles(o)
  {
    if apiKey == "" then Err(MissingApiKey)
    else match OutlineOf(children, concepts, o)
      case Err(e) => Err(e)
      case Ok(outline) => Finish(outline, children, o, DetailDates(o.monday, outline))
  }

  /**
   * Stages 2 to 4 return one activity per outline item, in outline order,
   * each with the item's child, day and times, its detail date and its id.
   */
  lemma FinishShape(outline: seq<Concept>, children: seq<Child>, o: Oracles, dates: seq<string>)
    requires |dates| == |outline|
    ensures var r := Finish(outline, children, o, dates);
      r.Ok? ==> (
        |r.value| == |outline| &&
        forall i :: 0 <= i < |outline| ==>
          r.value[i].childId == outline[i].childId && r.value[i].day == outline[i].day &&
          r.value[i].startTime == outline[i].startTime && r.value[i].endTime == outline[i].endTime &&
          r.value[i].date == Some(dates[i]) && r.value[i].enhanced && r.value[i].id == o.ids(i))
  {
    var r := Finish(outline, children, o, dates);
    if r.Ok? {
      var acts := DetailsUpTo(outline, children, o, dates, |outline|).value;
      DetailsInOrder(outline, children, o, dates, |outline|);
      var enriched := Enrich(acts, o.materials).value;
      forall i | 0 <= i < |outline|
        ensures r.value[i].childId == outline[i].childId && r.value[i].day == outline[i].day &&
          r.value[i].startTime == outline[i].startTime && r.value[i].endTime == outline[i].endTime &&
          r.value[i].date == Some(dates[i]) && r.value[i].enhanced && r.value[i].id == o.ids(i)
      {
        DetailFields(outline[i], children, o.detail(i), dates[i], o.ids(i));
        if o.cohesion.Parsed? {
          CohesionFields(enriched, o.cohesion.doc, i);
        }
      }
    }
  }

  /** Without a key the run fails before anything else; with supplied concepts no outline is requested. */
  lemma PipelineStart(apiKey: string, children: seq<Child>, concepts: seq<Concept>, o: Oracles)
    requires ValidOracles(o)
    ensures apiKey == "" ==> Pipeline(apiKey, children, concepts, o) == Err(MissingApiKey)
    ensures apiKey != "" && |concepts| > 0 ==>
      Pipeline(apiKey, children, concepts, o) == Finish(concepts, children, o, DetailDates(o.monday, concepts))
    ensures apiKey != "" && |concepts| == 0 && o.outline.Failed? ==>
      Pipeline(apiKey, children, concepts, o) == Err(HttpStatus(o.outline.status))
  {
  }

  /**
   * The per-item loop of stage 2: report the item, request its details,
   * stop at the first failure.
   */
  method DetailLoop(outline: seq<Concept>, children: seq<Child>, o: Oracles, dates: seq<string>)
    returns (r: Result<seq<Activity>, GenError>, events: seq<Event>)
    requires |dates| == |outline|
    ensures r == DetailsUpTo(outline, children, o, dates, |outline|)
    ensures |events| == Attempts(outline, children, o, dates, |outline|)
    ensures forall i :: 0 <= i < |events| ==> events[i] == DetailEvent(outline, i)
  {
    var acts := [];
    events := [];
    var i := 0;
    while i < |outline|
      invariant 0 <= i <= |outline|
      invariant DetailsUpTo(outline, children, o, dates, i) == Ok(acts)
      invariant |events| == i
      invariant forall k :: 0 <= k < i ==> events[k] == DetailEvent(outline, k)
    {
      events := events + [DetailEvent(outline, i)];
      var d := Detail(outline[i], children, o.detail(i), dates[i], o.ids(i));
      if d.Err? {
        assert DetailsUpTo(outline, children, o, dates, i + 1) == Err(d.error);
        FailureSticks(outline, children, o, dates, i + 1, |outline|);
        return Err(d.error), events;
      }
      acts := acts + [d.value];
      i := i + 1;
    }
    r := Ok(acts);
  }

  /**
   * Stages 2 to 4 with their reports: the details (25 + 50·i/n before item
   * i), the materials (75), the cohesion pass (90) and 100 at the end.
   */
  method RunFinish(outline: seq<Concept>, children: seq<Child>, o: Oracles, dates: seq<string>)
    returns (r: Result<seq<Activity>, GenError>, events: seq<Event>)
    requires |dates| == |outline|
    ensures r == Finish(outline, children, o, dates)
    ensures NonDecreasing(events) && Within(events, 25.0, 100.0)
    ensures r.Ok? <==> |events| > 0 && events[|events| - 1] == Event(EnrichmentStage, 100.0, None)
  {
    var details, detailEvents := DetailLoop(outline, children, o, dates);
    DetailEventsRise(outline, detailEvents);
    events := detailEvents;
    if details.Err? {
      return details, events;
    }
    var tail := [Event(MaterialsStage, 75.0, None)];
    RiseAppend(events, tail, 25.0, 75.0, 75.0);
    events := events + tail;
    var enriched := Enrich(details.value, o.materials);
    if enriched.Err? {
      return Err(enriched.error), events;
    }
    tail := [Event(EnrichmentStage, 90.0, None), Event(EnrichmentStage, 100.0, None)];
    RiseAppend(events, tail, 25.0, 75.0, 100.0);
    events := events + tail;
    r := Ok(Cohesion(enriched.value, o.cohesion));
  }

  /**
   * `generateActivitiesMultiStep`: no key fails before any report; then the
   * outline (reported at 0 and 25, or only at 25 when concepts are
   * supplied) and stages 2 to 4. A stage that fails ends the run with its
   * error, and only a run that succeeds reports 100.
   */
  method Run(apiKey: string, children: seq<Child>, concepts: seq<Concept>, o: Oracles)
    returns (r: Result<seq<Activity>, GenError>, events: seq<Event>)
    requires ValidOracles(o)
    ensures r == Pipeline(apiKey, children, concepts, o)
    ensures apiKey == "" ==> events == []
    ensures apiKey != "" ==> |events| > 0 && events[0].progress == (if |concepts| > 0 then 25.0 else 0.0)
    ensures NonDecreasing(events) && Within(events, 0.0, 100.0)
    ensures r.Ok? <==> |events| > 0 && events[|events| - 1] == Event(EnrichmentStage, 100.0, None)
  {
    if apiKey == "" {
      return Err(MissingApiKey), [];
    }
    var outline;
    if |concepts| > 0 {
      outline := concepts;
      events := [Event(OutlineStage, 25.0, None)];
    } else {
      events := [Event(OutlineStage, 0.0, None)];
      var generated := GenerateOutline(children, o.outline, o.parse);
      if generated.Err? {
        return Err(generated.error), events;
      }
      outline := generated.value;
      events := events + [Event(OutlineStage, 25.0, None)];
    }
    assert OutlineOf(children, concepts, o) == Ok(outline);
    var rest;
    r, rest := RunFinish(outline, children, o, DetailDates(o.monday, outline));
    RiseAppend(events, rest, 0.0, 25.0, 100.0);
    events := events + rest;
  }
}

=== FILE: onboarding.dfy ===
/**
 * The onboarding page: the roster of children being set up, the selected
 * child, the active section of the set-up card, and the final save that
 * creates the complete children in the store.
 *
 * The clock (`Date.now()`, the new child's id), the signed-in user, the
 * store's insert and the account-metadata update are parameters.
 */
module Onboarding {
  import opened Wrappers
  import opened Text
  import opened Lists
  import Records

  /** A child as the page holds it before it is saved. */
  datatype Profile = Profile(
    id: string,
    name: string,
    age: string,
    grade: string,
    goals: seq<string>,
    curriculumTypes: seq<string>,
    notes: string,
    notesCompleted: bool,
    color: Option<string>,
    emoji: Option<string>)

  datatype Section = Info | Goals | Curriculum | Notes | Complete

  datatype SectionStatus = Locked | Active | Done

  const Colors: seq<string> := ["bg-purple-200", "bg-blue-200", "bg-green-200", "bg-yellow-200", "bg-pink-200"]

  const Emojis: seq<string> :=
    ["\U{1F984}", "\U{1F680}", "\U{1F31F}", "\U{1F3A8}", "\U{1F308}", "\U{1F98B}", "\U{1F422}", "\U{1F98A}"]

  const SaveFailed: string := "Failed to save children. Please try again."

  /** At least three goals, a curriculum, and the notes step passed. */
  predicate IsComplete(c: Profile)
  {
    |c.goals| >= 3 && |c.curriculumTypes| > 0 && c.notesCompleted
  }

  /** The finish button's condition: a non-empty roster, every child complete. */
  predicate AllComplete(cs: seq<Profile>)
  {
    |cs| > 0 && forall i :: 0 <= i < |cs| ==> IsComplete(cs[i])
  }

  /** `children.find(c => c.id === selectedChildId)`: the first child with that id. */
  function Find(cs: seq<Profile>, id: Option<string>): (r: Option<Profile>)
    ensures r.Some? ==> r.value in cs && id == Some(r.value.id)
    ensures r.None? ==> forall i :: 0 <= i < |cs| ==> id != Some(cs[i].id)
    ensures r.Some? ==>
      exists i :: 0 <= i < |cs| && cs[i] == r.value && (forall j :: 0 <= j < i ==> id != Some(cs[j].id))
  {
    if cs == [] then None
    else if id == Some(cs[0].id) then Some(cs[0])
    else
      var r := Find(cs[1..], id);
      if r.Some? then
        var i :| 0 <= i < |cs[1..]| && cs[1..][i] == r.value && (forall j :: 0 <= j < i ==> id != Some(cs[1..][j].id));
        assert cs[i + 1] == r.value;
        r
      else r
  }

  /** `getSectionStatus` for the selected child. */
  function StatusOf(selected: Option<Profile>, s: Section): SectionStatus
  {
    if selected.None? then Locked
    else
      var c := selected.value;
      match s
      case Info => Done
      case Goals => if |c.goals| >= 3 then Done else Active
      case Curriculum =>
        if |c.goals| < 3 then Locked
        else if |c.curriculumTypes| > 0 then Done else Active
      case Notes =>
        if |c.goals| < 3 || |c.curriculumTypes| == 0 then Locked
        else if c.notesCompleted then Done else Active
      case Complete => Locked
  }

  /** `getNextSection`. */
  function NextSection(s: Section): Option<Section>
  {
    match s
    case Info => Some(Goals)
    case Goals => Some(Curriculum)
    case Curriculum => Some(Notes)
    case Notes => None
    case Complete => None
  }

  /** The position of a section in the set-up card. */
  function Rank(s: Section): nat
  {
    match s
    case Info => 0
    case Goals => 1
    case Curriculum => 2
    case Notes => 3
    case Complete => 4
  }

  /** The order is info, goals, curriculum, notes, and nothing follows notes or the summary. */
  lemma NextSectionOrder(s: Section)
    ensures NextSection(s).Some? <==> Rank(s) < 3
    ensures NextSection(s).Some? ==> Rank(NextSection(s).value) == Rank(s) + 1
  {
  }

  /** A section opens only once the one before it is done. */
  lemma UnlockedInOrder(selected: Option<Profile>, s: Section)
    requires NextSection(s).Some? && StatusOf(selected, NextSection(s).value) != Locked
    ensures StatusOf(selected, s) == Done
  {
  }

  /** The four sections of a selected child are all done exactly when the child is complete. */
  lemma AllDoneIffComplete(c: Profile)
    ensures (StatusOf(Some(c), Info) == Done && StatusOf(Some(c), Goals) == Done &&
             StatusOf(Some(c), Curriculum) == Done && StatusOf(Some(c), Notes) == Done)
      <==> IsComplete(c)
  {
  }

  /** `canProceedToNext`: only the goals and curriculum sections, once their minimum is met. */
  function CanProceed(selected: Option<Profile>, active: Section): (r: bool)
    ensures r ==> selected.Some? && (active == Goals || active == Curriculum)
    ensures r && StatusOf(selected, active) != Locked ==>
      StatusOf(selected, active) == Done &&
      NextSection(active).Some? && StatusOf(selected, NextSection(active).value) != Locked
  {
    selected.Some? &&
    match active
    case Goals => |selected.value.goals| >= 3
    case Curriculum => |selected.value.curriculumTypes| > 0
    case _ => false
  }

  /** The "Continue Setup" button: the first section of the child still to do. */
  function FirstUnfinished(c: Profile): (r: Option<Section>)
    ensures r.None? <==> IsComplete(c)
    ensures r.Some? ==> StatusOf(Some(c), r.value) == Active
  {
    if |c.goals| < 3 then Some(Goals)
    else if |c.curriculumTypes| == 0 then Some(Curriculum)
    else if !c.notesCompleted then Some(Notes)
    else None
  }

  /** The first child that is not the selected one and is not complete: the "Next Child" target. */
  function NextIncomplete(cs: seq<Profile>, current: string): (r: Option<Profile>)
    ensures r.Some? ==> r.value in cs && r.value.id != current && !IsComplete(r.value)
    ensures r.None? ==> forall i :: 0 <= i < |cs| ==> cs[i].id == current || IsComplete(cs[i])
    ensures r.Some? ==>
      exists k :: 0 <= k < |cs| && cs[k] == r.value && forall j :: 0 <= j < k ==> cs[j].id == current || IsComplete(cs[j])
  {
    if cs == [] then None
    else if cs[0].id != current && !IsComplete(cs[0]) then Some(cs[0])
    else
      var r := NextIncomplete(cs[1..], current);
      if r.Some? then
        var k :| 0 <= k < |cs[1..]| && cs[1..][k] == r.value &&
          forall j :: 0 <= j < k ==> cs[1..][j].id == current || IsComplete(cs[1..][j]);
        assert cs[k + 1] == r.value;
        r
      else r
  }

  /** The children after one child's goal is toggled; the others are untouched. */
  function GoalToggled(cs: seq<Profile>, childId: string, goal: string): (r: seq<Profile>)
    ensures |r| == |cs|
    ensures forall i :: 0 <= i < |cs| && cs[i].id != childId ==> r[i] == cs[i]
    ensures forall i :: 0 <= i < |cs| && cs[i].id == childId ==>
      r[i] == cs[i].(goals := r[i].goals) &&
      (goal in r[i].goals <==> goal !in cs[i].goals) &&
      forall g :: g != goal ==> (g in r[i].goals <==> g in cs[i].goals)
  {
    seq(|cs|, i requires 0 <= i < |cs| =>
      if cs[i].id == childId then cs[i].(goals := Toggle(cs[i].goals, goal)) else cs[i])
  }

  /**
   * `toggleCurriculum`: a chosen type is removed; otherwise it is added, the
   * older of two chosen types making way. The page's button guard
   * (`ClickCurriculum`) never reaches that last branch.
   */
  function CurriculumToggled(cs: seq<Profile>, childId: string, curriculum: string): (r: seq<Profile>)
    ensures |r| == |cs|
    ensures forall i :: 0 <= i < |cs| && cs[i].id != childId ==> r[i] == cs[i]
    ensures forall i :: 0 <= i < |cs| && cs[i].id == childId ==>
      r[i] == cs[i].(curriculumTypes := r[i].curriculumTypes) &&
      (curriculum in r[i].curriculumTypes <==> curriculum !in cs[i].curriculumTypes) &&
      (|cs[i].curriculumTypes| <= 2 ==> |r[i].curriculumTypes| <= 2)
  {
    seq(|cs|, i requires 0 <= i < |cs| =>
      if cs[i].id == childId then cs[i].(curriculumTypes := ToggleCapped(cs[i].curriculumTypes, curriculum))
      else cs[i])
  }

  /** The first child with the toggled id is still found first, with its curricula toggled. */
  lemma {:induction false} FindAfterCurriculumToggle(cs: seq<Profile>, childId: string, curriculum: string)
    ensures Find(cs, Some(childId)).None? ==> Find(CurriculumToggled(cs, childId, curriculum), Some(childId)).None?
    ensures Find(cs, Some(childId)).Some? ==>
      var c := Find(cs, Some(childId)).value;
      Find(CurriculumToggled(cs, childId, curriculum), Some(childId)) ==
        Some(c.(curriculumTypes := ToggleCapped(c.curriculumTypes, curriculum)))
  {
    if cs != [] {
      var r := CurriculumToggled(cs, childId, curriculum);
      assert r[1..] == CurriculumToggled(cs[1..], childId, curriculum);
      if cs[0].id != childId {
        FindAfterCurriculumToggle(cs[1..], childId, curriculum);
      }
    }
  }

  /** At most two curriculum types per child. */
  predicate Capped(cs: seq<Profile>)
  {
    forall i :: 0 <= i < |cs| ==> |cs[i].curriculumTypes| <= 2
  }

  /** Toggling a curriculum never lets a child hold more than two. */
  lemma CurriculumStaysCapped(cs: seq<Profile>, childId: string, curriculum: string)
    requires Capped(cs)
    ensures Capped(CurriculumToggled(cs, childId, curriculum))
  {
    var r := CurriculumToggled(cs, childId, curriculum);
    forall i | 0 <= i < |r| ensures |r[i].curriculumTypes| <= 2 {
      assert |cs[i].curriculumTypes| <= 2;
    }
  }

  /** `markNotesCompleted`: only that child's notes step is marked done; its notes are left as typed. */
  function NotesCompleted(cs: seq<Profile>, childId: string): (r: seq<Profile>)
    ensures |r| == |cs|
    ensures forall i :: 0 <= i < |cs| ==>
      r[i] == if cs[i].id == childId then cs[i].(notesCompleted := true) else cs[i]
  {
    seq(|cs|, i requires 0 <= i < |cs| =>
      if cs[i].id == childId then cs[i].(notesCompleted := true) else cs[i])
  }

  /** `removeChild`'s new roster: every child but the ones with that id, in order. */
  function Without(cs: seq<Profile>, childId: string): (r: seq<Profile>)
    ensures forall c :: c in r <==> c in cs && c.id != childId
    ensures |r| <= |cs|
    ensures Capped(cs) ==> Capped(r)
  {
    if cs == [] then []
    else
      var rest := Without(cs[1..], childId);
      if cs[0].id != childId then
        var r := [cs[0]] + rest;
        assert forall i :: 1 <= i < |r| ==> r[i] in rest;
        r
      else rest
  }

  /** `color || 'bg-purple-200'`, `emoji || '🦄'` and the like. */
  function OrDefault(x: Option<string>, fallback: string): (r: string)
    ensures fallback != "" ==> r != ""
    ensures x.Some? && x.value != "" ==> r == x.value
  {
    if x.Some? then Or(x.value, fallback) else fallback
  }

  /** The object the final save hands to `createChild` for one child. */
  function Created(userId: string, c: Profile): (r: Records.NewChild)
    ensures r.name == c.name && r.goals == c.goals && r.curriculumTypes == c.curriculumTypes
    ensures r.color != "" && r.emoji != ""
  {
    Records.NewChild(userId, c.name, c.age, Or(c.grade, ""), c.goals, c.curriculumTypes,
                     Or(c.notes, ""), OrDefault(c.color, Colors[0]), OrDefault(c.emoji, Emojis[0]))
  }

  /** The inserts the final save makes for a roster, in order: one per complete child. */
  function ToCreate(userId: string, cs: seq<Profile>): (r: seq<Records.NewChild>)
    ensures |r| <= |cs|
    ensures AllComplete(cs) ==> |r| == |cs|
  {
    if cs == [] then []
    else
      var last := cs[|cs| - 1];
      ToCreate(userId, cs[..|cs| - 1]) + (if IsComplete(last) then [Created(userId, last)] else [])
  }

  /** Only complete children are saved: each insert comes from a complete child of the roster. */
  lemma {:induction false} OnlyCompleteCreated(userId: string, cs: seq<Profile>)
    ensures forall n :: n in ToCreate(userId, cs) ==>
      exists i :: 0 <= i < |cs| && IsComplete(cs[i]) && n == Created(userId, cs[i])
  {
    if cs != [] {
      var init := cs[..|cs| - 1];
      OnlyCompleteCreated(userId, init);
      forall n | n in ToCreate(userId, cs)
        ensures exists i :: 0 <= i < |cs| && IsComplete(cs[i]) && n == Created(userId, cs[i])
      {
        if n in ToCreate(userId, init) {
          var i :| 0 <= i < |init| && IsComplete(init[i]) && n == Created(userId, init[i]);
          assert cs[i] == init[i];
        } else {
          assert IsComplete(cs[|cs| - 1]) && n == Created(userId, cs[|cs| - 1]);
        }
      }
    }
  }

  /** Every complete child of the roster is saved. */
  lemma {:induction false} EveryCompleteCreated(userId: string, cs: seq<Profile>, i: nat)
    requires i < |cs| && IsComplete(cs[i])
    ensures Created(userId, cs[i]) in ToCreate(userId, cs)
  {
    var init := cs[..|cs| - 1];
    if i < |cs| - 1 {
      assert init[i] == cs[i];
      EveryCompleteCreated(userId, init, i);
    }
  }

  /**
   * As written, every insert of the final save is refused: the payload
   * names `curriculumTypes`, which is not a column of the children table.
   */
  lemma CompletedChildRefused(userId: string, c: Profile, newId: string)
    ensures Records.Insert(Records.ChildColumns, Records.NewChildRow(Created(userId, c)), newId).Err?
  {
    Records.NewChildRefused(Created(userId, c), newId);
  }

  /** With the curriculum renamed to its column, a saved child reads back with its curriculum. */
  lemma CompletedChildStored(userId: string, c: Profile, newId: string)
    ensures var stored := Records.Insert(Records.ChildColumns, Records.NewChildRowRenamed(Created(userId, c)), newId);
      stored.Ok? &&
      Records.ChildFromRow(stored.value)[Records.curriculumTypes] == Records.Texts(c.curriculumTypes)
  {
    Records.NewChildRoundTrip(Created(userId, c), newId);
  }

  /**
   * The save loop of `handleComplete`: each complete child is inserted in
   * turn, and the first refused insert stops the loop.
   */
  method CreateComplete(userId: string, cs: seq<Profile>, insert: Records.NewChild -> bool)
    returns (created: seq<Records.NewChild>, failed: bool)
    ensures exists k :: 0 <= k <= |cs| && created == ToCreate(userId, cs[..k])
    ensures !failed ==> created == ToCreate(userId, cs) && forall n :: n in created ==> insert(n)
    ensures failed ==> exists n :: n in created && !insert(n)
  {
    created, failed := [], false;
    var i := 0;
    while i < |cs| && !failed
      invariant 0 <= i <= |cs|
      invariant created == ToCreate(userId, cs[..i])
      invariant !failed ==> forall n :: n in created ==> insert(n)
      invariant failed ==> exists n :: n in created && !insert(n)
    {
      assert cs[..i + 1][..i] == cs[..i];
      var child := cs[i];
      assert ToCreate(userId, cs[..i + 1]) ==
        ToCreate(userId, cs[..i]) + (if IsComplete(child) then [Created(userId, child)] else []);
      if IsComplete(child) {
        var payload := Created(userId, child);
        created := created + [payload];
        if !insert(payload) {
          failed := true;
        }
      }
      i := i + 1;
    }
    assert 0 <= i <= |cs| && created == ToCreate(userId, cs[..i]);
    if !failed {
      assert cs[..i] == cs;
    }
  }

  class OnboardingPage {
    var children: seq<Profile>
    var selectedId: Option<string>
    var active: Section
    var newName: string
    var newAge: string
    var newGrade: string
    var saving: bool
    var error: Option<string>

    /** No child ever holds more than two curriculum types. */
    ghost predicate Valid()
      reads this
    {
      Capped(children)
    }

    constructor()
      ensures Valid()
      ensures children == [] && selectedId == None && active == Info
      ensures newName == "" && newAge == "" && newGrade == "" && !saving && error == None
    {
      children := [];
      selectedId := None;
      active := Info;
      newName := "";
      newAge := "";
      newGrade := "";
      saving := false;
      error := None;
    }

    function Selected(): Option<Profile>
      reads this
    {
      Find(children, selectedId)
    }

    /** Typing into the three inputs of the child-info form. */
    method TypeInfo(name: string, age: string, grade: string)
      modifies this
      ensures newName == name && newAge == age && newGrade == grade
      ensures children == old(children) && selectedId == old(selectedId) && active == old(active)
      ensures saving == old(saving) && error == old(error)
    {
      newName, newAge, newGrade := name, age, grade;
    }

    /**
     * `addChild`: with a name and an age, a child with no goals, no
     * curriculum and empty notes is appended, taking the next colour and
     * emoji in turn; it is selected, its goals section opens and the form
     * is cleared. Without a name or an age nothing happens.
     */
    method AddChild(now: nat)
      requires Valid()
      modifies this
      ensures Valid()
      ensures saving == old(saving) && error == old(error)
      ensures old(newName) == "" || old(newAge) == "" ==>
        children == old(children) && selectedId == old(selectedId) && active == old(active) &&
        newName == old(newName) && newAge == old(newAge) && newGrade == old(newGrade)
      ensures old(newName) != "" && old(newAge) != "" ==>
        var child := Profile(DecimalString(now), old(newName), old(newAge), old(newGrade), [], [], "", false,
                             Some(Colors[|old(children)| % 5]), Some(Emojis[|old(children)| % 8]));
        children == old(children) + [child] && selectedId == Some(child.id) && active == Goals &&
        newName == "" && newAge == "" && newGrade == ""
    {
      if newName != "" && newAge != "" {
        var n := |children|;
        var child := Profile(DecimalString(now), newName, newAge, newGrade, [], [], "", false,
                             Some(Colors[n % 5]), Some(Emojis[n % 8]));
        children := children + [child];
        selectedId := Some(child.id);
        newName, newAge, newGrade := "", "", "";
        active := Goals;
      }
    }

    /**
     * `removeChild`: the children with that id leave the roster; when the
     * selected child leaves, the first remaining child is selected, or none.
     */
    method RemoveChild(childId: string)
      requires Valid()
      modifies this
      ensures Valid()
      ensures children == Without(old(children), childId)
      ensures old(selectedId) != Some(childId) ==> selectedId == old(selectedId)
      ensures old(selectedId) == Some(childId) ==>
        selectedId == (if children != [] && children[0].id != "" then Some(children[0].id) else None)
      ensures active == old(active) && newName == old(newName) && newAge == old(newAge) && newGrade == old(newGrade)
      ensures saving == old(saving) && error == old(error)
    {
      var remaining := Without(children, childId);
      children := remaining;
      if selectedId == Some(childId) {
        selectedId := if remaining != [] && remaining[0].id != "" then Some(remaining[0].id) else None;
      }
    }

    /** A child's card clicked: it becomes the selected child. */
    method Select(childId: string)
      modifies this
      ensures selectedId == Some(childId)
      ensures children == old(children) && active == old(active)
      ensures newName == old(newName) && newAge == old(newAge) && newGrade == old(newGrade)
      ensures saving == old(saving) && error == old(error)
    {
      selectedId := Some(childId);
    }

    /** The "add another child" button: nothing selected, the info section open. */
    method StartAnother()
      modifies this
      ensures selectedId == None && active == Info
      ensures children == old(children)
      ensures newName == old(newName) && newAge == old(newAge) && newGrade == old(newGrade)
      ensures saving == old(saving) && error == old(error)
    {
      selectedId := None;
      active := Info;
    }

    method ToggleGoal(childId: string, goal: string)
      requires Valid()
      modifies this
      ensures Valid()
      ensures children == GoalToggled(old(children), childId, goal)
      ensures selectedId == old(selectedId) && active == old(active)
      ensures newName == old(newName) && newAge == old(newAge) && newGrade == old(newGrade)
      ensures saving == old(saving) && error == old(error)
    {
      children := GoalToggled(children, childId, goal);
    }

    method ToggleCurriculum(childId: string, curriculum: string)
      requires Valid()
      modifies this
      ensures Valid()
      ensures children == CurriculumToggled(old(children), childId, curriculum)
      ensures selectedId == old(selectedId) && active == old(active)
      ensures newName == old(newName) && newAge == old(newAge) && newGrade == old(newGrade)
      ensures saving == old(saving) && error == old(error)
    {
      CurriculumStaysCapped(children, childId, curriculum);
      children := CurriculumToggled(children, childId, curriculum);
    }

    /**
     * A curriculum button of the selected child: disabled, and so without
     * effect, while two other types are chosen; when enabled it never
     * evicts a choice.
     */
    method ClickCurriculum(curriculum: string)
      requires Valid()
      modifies this
      ensures Valid()
      ensures old(Selected()).None? ==> children == old(children)
      ensures old(Selected()).Some? ==>
        var c := old(Selected()).value;
        children == if Lists.CapBlocks(c.curriculumTypes, curriculum) then old(children)
                    else CurriculumToggled(old(children), c.id, curriculum)
      ensures old(Selected()).Some? ==> Selected().Some?
      ensures old(Selected()).Some? ==>
        forall y :: y != curriculum && y in old(Selected()).value.curriculumTypes ==> y in Selected().value.curriculumTypes
      ensures selectedId == old(selectedId) && active == old(active)
      ensures newName == old(newName) && newAge == old(newAge) && newGrade == old(newGrade)
      ensures saving == old(saving) && error == old(error)
    {
      var selected := Selected();
      if selected.Some? && !Lists.CapBlocks(selected.value.curriculumTypes, curriculum) {
        var c := selected.value;
        FindAfterCurriculumToggle(children, c.id, curriculum);
        Lists.EnabledToggleKeepsOthers(c.curriculumTypes, curriculum);
        ToggleCurriculum(c.id, curriculum);
      }
    }

    /** Typing into the notes box of a child. */
    method UpdateNotes(childId: string, notes: string)
      requires Valid()
      modifies this
      ensures Valid()
      ensures |children| == |old(children)|
      ensures forall i :: 0 <= i < |children| ==>
        children[i] == if old(children)[i].id == childId then old(children)[i].(notes := notes) else old(children)[i]
      ensures selectedId == old(selectedId) && active == old(active)
      ensures newName == old(newName) && newAge == old(newAge) && newGrade == old(newGrade)
      ensures saving == old(saving) && error == old(error)
    {
      var cs := children;
      var r := seq(|cs|, i requires 0 <= i < |cs| => if cs[i].id == childId then cs[i].(notes := notes) else cs[i]);
      assert forall i :: 0 <= i < |r| ==> r[i].curriculumTypes == cs[i].curriculumTypes;
      children := r;
    }

    /**
     * The "Save & Continue" / "Skip Notes" button: the selected child's
     * notes step is done and the summary opens.
     */
    method FinishNotes()
      requires Valid()
      modifies this
      ensures Valid()
      ensures old(Selected()).Some? ==>
        var c := old(Selected()).value;
        children == NotesCompleted(old(children), c.id) && active == Complete
      ensures old(Selected()).None? ==> children == old(children) && active == old(active)
      ensures selectedId == old(selectedId)
      ensures newName == old(newName) && newAge == old(newAge) && newGrade == old(newGrade)
      ensures saving == old(saving) && error == old(error)
    {
      var selected := Find(children, selectedId);
      if selected.Some? {
        var c := selected.value;
        var r := NotesCompleted(children, c.id);
        assert forall i :: 0 <= i < |r| ==> r[i].curriculumTypes == children[i].curriculumTypes;
        children := r;
        active := Complete;
      }
    }

    /** `handleSectionClick`: a locked section does not open. */
    method SectionClick(s: Section)
      modifies this
      ensures StatusOf(old(Selected()), s) == Locked ==> active == old(active)
      ensures StatusOf(old(Selected()), s) != Locked ==> active == s
      ensures children == old(children) && selectedId == old(selectedId)
      ensures newName == old(newName) && newAge == old(newAge) && newGrade == old(newGrade)
      ensures saving == old(saving) && error == old(error)
    {
      if StatusOf(Find(children, selectedId), s) != Locked {
        active := s;
      }
    }

    /** `proceedToNextSection`: the next section in order, if there is one. */
    method Proceed()
      modifies this
      ensures NextSection(old(active)).Some? ==> active == NextSection(old(active)).value
      ensures NextSection(old(active)).None? ==> active == old(active)
      ensures children == old(children) && selectedId == old(selectedId)
      ensures newName == old(newName) && newAge == old(newAge) && newGrade == old(newGrade)
      ensures saving == old(saving) && error == old(error)
    {
      var next := NextSection(active);
      if next.Some? {
        active := next.value;
      }
    }

    /** The "Continue Setup" button on the summary: the first unfinished section opens. */
    method ContinueSetup()
      modifies this
      ensures old(Selected()).Some? && FirstUnfinished(old(Selected()).value).Some? ==>
        active == FirstUnfinished(old(Selected()).value).value &&
        StatusOf(old(Selected()), active) == Active
      ensures old(Selected()).None? || FirstUnfinished(old(Selected()).value).None? ==> active == old(active)
      ensures children == old(children) && selectedId == old(selectedId)
      ensures newName == old(newName) && newAge == old(newAge) && newGrade == old(newGrade)
      ensures saving == old(saving) && error == old(error)
    {
      var selected := Find(children, selectedId);
      if selected.Some? {
        var next := FirstUnfinished(selected.value);
        if next.Some? {
          active := next.value;
        }
      }
    }

    /** The "Next Child" button: another incomplete child is selected, at its goals. */
    method NextChild()
      modifies this
      ensures old(Selected()).Some? && NextIncomplete(old(children), old(Selected()).value.id).Some? ==>
        var c := NextIncomplete(old(children), old(Selected()).value.id).value;
        selectedId == Some(c.id) && active == Goals && !IsComplete(c)
      ensures old(Selected()).None? || NextIncomplete(old(children), old(Selected()).value.id).None? ==>
        selectedId == old(selectedId) && active == old(active)
      ensures children == old(children)
      ensures newName == old(newName) && newAge == old(newAge) && newGrade == old(newGrade)
      ensures saving == old(saving) && error == old(error)
    {
      var selected := Find(children, selectedId);
      if selected.Some? {
        var next := NextIncomplete(children, selected.value.id);
        if next.Some? {
          selectedId := Some(next.value.id);
          active := Goals;
        }
      }
    }

    /**
     * `handleComplete`: without a signed-in user nothing happens. Otherwise
     * the complete children are created one after another; the first
     * refused insert, or a refused metadata update, stops the save with
     * the error message. `created` lists the inserts attempted, in order;
     * `finished` is the navigation to the dashboard.
     */
    method Finish(userId: Option<string>, insert: Records.NewChild -> bool, metadataSaved: bool)
      returns (created: seq<Records.NewChild>, finished: bool)
      requires Valid()
      modifies this
      ensures Valid()
      ensures children == old(children) && selectedId == old(selectedId) && active == old(active)
      ensures newName == old(newName) && newAge == old(newAge) && newGrade == old(newGrade)
      ensures userId.None? ==> created == [] && !finished && saving == old(saving) && error == old(error)
      ensures userId.Some? ==> exists k :: 0 <= k <= |children| && created == ToCreate(userId.value, children[..k])
      ensures finished <==>
        userId.Some? && created == ToCreate(userId.value, children) &&
        (forall n :: n in created ==> insert(n)) && metadataSaved
      ensures userId.Some? && finished ==> saving && error == None
      ensures userId.Some? && !finished ==> !saving && error == Some(SaveFailed)
    {
      created, finished := [], false;
      if userId.None? {
        return;
      }
      saving := true;
      error := None;
      var failed;
      created, failed := CreateComplete(userId.value, children, insert);
      if !failed && metadataSaved {
        finished := true;
      } else {
        error := Some(SaveFailed);
        saving := false;
      }
    }
  }
}

=== FILE: openai.dfy ===
/**
 * The one-shot generator of `lib/openai.ts`: the constraint lines and
 * custom sections of the prompt, the transform of the model's reply into
 * dated activities, and the mock generator used without a model.
 */
module OpenAI {
  import opened Wrappers
  import opened Text
  import opened Clock
  import opened Calendar
  import opened MockData
  import opened ChildIds
  import opened Lists
  import opened Remote

  datatype Difficulty = Easy | Medium | Challenging

  function DifficultyName(d: Difficulty): string
  {
    match d
    case Easy => "easy"
    case Medium => "medium"
    case Challenging => "challenging"
  }

  datatype Preferences = Preferences(
    childIds: seq<string>,
    weekStart: Date,
    subjectFocus: seq<string>,
    maxActivitiesPerDay: int,
    difficulty: Difficulty,
    includeFieldTrips: bool,
    includeGroupActivities: bool,
    avoidTimeSlots: seq<string>)

  /** The per-user prompt settings; temperature and token limit only reach the request. */
  datatype CustomSettings = CustomSettings(
    customInstructions: string,
    focusAreas: seq<string>,
    avoidTopics: seq<string>)

  // ------------------------------------------------------------ prompt

  function MaxLine(n: int): string
  {
    "Maximum " + IntString(n) + " activities per child per day"
  }

  function DifficultyLine(d: Difficulty): string
  {
    "Difficulty level: " + DifficultyName(d)
  }

  function IncludeLine(what: string): string
  {
    "Include " + what
  }

  const FieldTripLine: string := IncludeLine("1-2 field trip suggestions that relate to the weekly themes")

  const GroupLine: string :=
    IncludeLine("activities where multiple children can work together when age-appropriate")

  function AvoidLine(slots: seq<string>): string
  {
    "Avoid these time slots: " + JoinWith(slots, ", ")
  }

  /**
   * The `constraints` list of `createUserPrompt`: the two fixed lines first,
   * then each optional line exactly when its preference asks for it.
   */
  method AssembleConstraints(p: Preferences) returns (cs: seq<string>)
    ensures |cs| == 2 + (if p.includeFieldTrips then 1 else 0) +
      (if p.includeGroupActivities then 1 else 0) + (if |p.avoidTimeSlots| > 0 then 1 else 0)
    ensures cs[0] == MaxLine(p.maxActivitiesPerDay) && cs[1] == DifficultyLine(p.difficulty)
    ensures FieldTripLine in cs <==> p.includeFieldTrips
    ensures GroupLine in cs <==> p.includeGroupActivities
    ensures AvoidLine(p.avoidTimeSlots) in cs <==> |p.avoidTimeSlots| > 0
    ensures forall k :: 2 <= k < |cs| ==> cs[k] in [FieldTripLine, GroupLine, AvoidLine(p.avoidTimeSlots)]
  {
    var maxLine, diffLine, avoid := MaxLine(p.maxActivitiesPerDay), DifficultyLine(p.difficulty), AvoidLine(p.avoidTimeSlots);
    assert maxLine[0] == 'M' && diffLine[0] == 'D' && avoid[0] == 'A';
    assert FieldTripLine[0] == 'I' && GroupLine[0] == 'I' && FieldTripLine != GroupLine;
    cs := [maxLine, diffLine];
    if p.includeFieldTrips {
      cs := cs + [FieldTripLine];
    }
    if p.includeGroupActivities {
      cs := cs + [GroupLine];
    }
    if |p.avoidTimeSlots| > 0 {
      cs := cs + [avoid];
    }
  }

  function InstructionsSection(ci: string): string
  {
    if ci != "" then "\n\nIMPORTANT CUSTOM INSTRUCTIONS:\n" + ci else ""
  }

  function FocusSection(areas: seq<string>): string
  {
    if |areas| > 0 then
      "\n\nPREFERRED FOCUS AREAS:\nPlease prioritize activities related to: " + JoinWith(areas, ", ")
    else ""
  }

  function AvoidSection(topics: seq<string>): string
  {
    if |topics| > 0 then
      "\n\nTOPICS TO AVOID:\nDo NOT include activities related to: " + JoinWith(topics, ", ")
    else ""
  }

  /**
   * `createEnhancedUserPrompt`: the base prompt, extended in order by each
   * custom section that is non-empty; with nothing set it is the base prompt.
   */
  method EnhancePrompt(base: string, s: CustomSettings) returns (prompt: string)
    ensures prompt == base + InstructionsSection(s.customInstructions) +
      FocusSection(s.focusAreas) + AvoidSection(s.avoidTopics)
    ensures base <= prompt
    ensures s.customInstructions == "" && s.focusAreas == [] && s.avoidTopics == [] ==> prompt == base
    ensures s.customInstructions != "" ==> |prompt| > |base| + |s.customInstructions|
  {
    var ins, focus, avoid := InstructionsSection(s.customInstructions), FocusSection(s.focusAreas), AvoidSection(s.avoidTopics);
    assert s.customInstructions != "" ==> |ins| > |s.customInstructions|;
    prompt := base;
    if s.customInstructions != "" {
      prompt := prompt + ins;
    }
    assert prompt == base + ins && base <= prompt;
    var mid := prompt;
    if |s.focusAreas| > 0 {
      prompt := prompt + focus;
    }
    assert prompt == mid + focus && mid <= prompt;
    var mid2 := prompt;
    if |s.avoidTopics| > 0 {
      prompt := prompt + avoid;
    }
    assert prompt == mid2 + avoid && mid2 <= prompt;
  }

  // ------------------------------------------------------------ reply transform

  /**
   * One element of the reply's `activities` array. A string property the
   * reply leaves out is the empty string; a list property is `None`.
   */
  datatype RawActivity = RawActivity(
    childId: string,
    title: string,
    subject: string,
    description: string,
    day: string,
    startTime: string,
    endTime: string,
    materials: Option<seq<string>>,
    instructions: Option<seq<string>>,
    objectives: Option<seq<string>>)

  /** `dayToOffset[day] ?? 0`. */
  function DayOffset(day: string): (k: nat)
    ensures k < 7
    ensures day in WeekDays ==> WeekDays[k] == day
    ensures day !in WeekDays ==> k == 0
  {
    var i := IndexOf(WeekDays, day);
    if i < 0 then 0 else i
  }

  /** The Monday of `weekStart`'s week moved on by the day's offset. */
  function ScheduledDate(weekStart: Date, day: string): (d: Date)
    requires ValidDate(weekStart)
    ensures ValidDate(d)
  {
    AddDays(MondayOf(weekStart), DayOffset(day))
  }

  /** `nameToIdMap`, filled child by child, keeps the last child of each lower-cased name. */
  function LastByName(children: seq<Child>, name: string): (r: Option<nat>)
    ensures r.Some? ==> LastMatch(children, name, r.value)
    ensures r.None? ==> NoMatch(children, name)
  {
    if children == [] then None
    else if NameMatches(children[|children| - 1], name) then Some(|children| - 1)
    else LastByName(children[..|children| - 1], name)
  }

  function FirstOrEmpty(ids: seq<string>): string
  {
    if ids == [] then "" else ids[0]
  }

  /**
   * The child-id mapping of `generateActivities`: an empty or UUID-shaped id
   * is kept; otherwise the name table's id, else the id of the first child
   * of that name, else the first preferred child id.
   */
  function MapChildId(childId: string, children: seq<Child>, preferred: seq<string>): (r: string)
    ensures childId == "" || IsUuidShaped(childId) ==> r == childId
    ensures childId != "" && !IsUuidShaped(childId) ==>
      forall k :: LastMatch(children, childId, k) && children[k].id != "" ==> r == children[k].id
    ensures childId != "" && !IsUuidShaped(childId) && NoMatch(children, childId) ==>
      r == FirstOrEmpty(preferred)
    ensures r == childId || r == FirstOrEmpty(preferred) || exists c :: c in children && c.id == r
  {
    if childId == "" || IsUuidShaped(childId) then childId
    else
      var mapped := match LastByName(children, childId)
        case Some(k) => children[k].id
        case None => "";
      if mapped != "" then mapped
      else match FindByName(children, childId)
        case Some(k) => children[k].id
        case None => FirstOrEmpty(preferred)
  }

  function ActivityId(now: nat, index: nat): string
  {
    "ai-generated-" + DecimalString(now) + "-" + DecimalString(index)
  }

  /** The activity built from the reply element at `index`. */
  function Convert(p: Preferences, children: seq<Child>, raw: RawActivity, now: nat, index: nat): Activity
    requires ValidDate(p.weekStart)
  {
    Activity(
      ActivityId(now, index), MapChildId(raw.childId, children, p.childIds),
      raw.title, raw.subject, raw.description, raw.day,
      Some(DateString(ScheduledDate(p.weekStart, raw.day))),
      raw.startTime, raw.endTime,
      Some(raw.materials.GetOr([])), Some(raw.instructions.GetOr([])), Some(raw.objectives.GetOr([])),
      true, None, None, None, None)
  }

  function Transform(p: Preferences, children: seq<Child>, raws: seq<RawActivity>, now: nat): (r: seq<Activity>)
    requires ValidDate(p.weekStart)
    ensures |r| == |raws|
  {
    seq(|raws|, i requires 0 <= i < |raws| => Convert(p, children, raws[i], now, i))
  }

  /**
   * `generateActivities` after the request: a missing key, a failed
   * request, a reply without content and unparseable content all fail;
   * otherwise `parsed.activities || []` is transformed, and a truthy
   * `activities` that is not a list throws in `map`.
   */
  function GenerateActivities(apiKey: string, p: Preferences, children: seq<Child>,
                              reply: Reply<ListField<RawActivity>>, now: nat): (r: Result<seq<Activity>, GenError>)
    requires ValidDate(p.weekStart)
    ensures apiKey == "" ==> r == Err(MissingApiKey)
    ensures apiKey != "" && reply.HttpFailure? ==> r == Err(HttpStatus(reply.status))
    ensures apiKey != "" && reply.Empty? ==> r == Err(NoContent)
    ensures apiKey != "" && reply.Unparseable? ==> r == Err(InvalidJson)
    ensures apiKey != "" && reply.Parsed? && reply.doc.NotList? ==> r == Err(NotAList)
    ensures r.Ok? <==> apiKey != "" && reply.Parsed? && !reply.doc.NotList?
    ensures r.Ok? && reply.doc.Falsy? ==> r.value == []
    ensures r.Ok? && reply.doc.Items? ==> r.value == Transform(p, children, reply.doc.items, now)
  {
    if apiKey == "" then Err(MissingApiKey)
    else match reply
      case HttpFailure(status) => Err(HttpStatus(status))
      case Empty => Err(NoContent)
      case Unparseable => Err(InvalidJson)
      case Parsed(doc) =>
        match doc
        case Falsy => Ok(Transform(p, children, [], now))
        case NotList => Err(NotAList)
        case Items(items) => Ok(Transform(p, children, items, now))
  }

  /**
   * Each transformed activity keeps the reply's text fields, gets `[]` for
   * an absent list, is marked enhanced, and has its child id mapped.
   */
  lemma TransformFields(p: Preferences, children: seq<Child>, raws: seq<RawActivity>, now: nat, i: nat)
    requires ValidDate(p.weekStart) && i < |raws|
    ensures var a := Transform(p, children, raws, now)[i];
      a.title == raws[i].title && a.subject == raws[i].subject &&
      a.description == raws[i].description && a.day == raws[i].day &&
      a.startTime == raws[i].startTime && a.endTime == raws[i].endTime &&
      a.materials == Some(raws[i].materials.GetOr([])) &&
      a.instructions == Some(raws[i].instructions.GetOr([])) &&
      a.objectives == Some(raws[i].objectives.GetOr([])) &&
      (raws[i].materials.None? ==> a.materials == Some([])) &&
      a.enhanced && a.status.None? &&
      a.childId == MapChildId(raws[i].childId, children, p.childIds)
  {
  }

  /** Each transformed activity is dated with the ISO text of its scheduled date. */
  lemma TransformDate(p: Preferences, children: seq<Child>, raws: seq<RawActivity>, now: nat, i: nat)
    requires ValidDate(p.weekStart) && i < |raws|
    ensures Transform(p, children, raws, now)[i].date == Some(DateString(ScheduledDate(p.weekStart, raws[i].day)))
  {
  }

  /**
   * A scheduled date lies in `weekStart`'s Monday-to-Sunday week, offset
   * from its Monday by the day's index; a listed day name is the date's
   * weekday and an unknown one falls on the Monday.
   */
  lemma ScheduledDateFacts(weekStart: Date, day: string)
    requires ValidDate(weekStart)
    ensures var d := ScheduledDate(weekStart, day);
      DayNumber(d) == DayNumber(MondayOf(weekStart)) + DayOffset(day) &&
      MondayOf(d) == MondayOf(weekStart) &&
      (day in WeekDays ==> WeekDays[(Weekday(d) + 6) % 7] == day) &&
      (day !in WeekDays ==> d == MondayOf(weekStart))
  {
    var m, k := MondayOf(weekStart), DayOffset(day);
    var d := AddDays(m, k);
    AddDaysNumber(m, k);
    ShiftedMonday(m, d, k);
    assert (Weekday(d) + 6) % 7 == k;
  }

  lemma ActivityIdInjective(now: nat, i: nat, j: nat)
    ensures ActivityId(now, i) == ActivityId(now, j) ==> i == j
  {
    if ActivityId(now, i) == ActivityId(now, j) {
      var prefix := "ai-generated-" + DecimalString(now) + "-";
      assert ActivityId(now, i) == prefix + DecimalString(i);
      assert ActivityId(now, j) == prefix + DecimalString(j);
      assert DecimalString(i) == ActivityId(now, i)[|prefix|..];
      ParseDecimalString(i);
      ParseDecimalString(j);
    }
  }

  /** Activities of one reply get pairwise distinct ids. */
  lemma TransformIdsDistinct(p: Preferences, children: seq<Child>, raws: seq<RawActivity>, now: nat)
    requires ValidDate(p.weekStart)
    ensures DistinctIds(Transform(p, children, raws, now))
  {
    forall i, j | 0 <= i < j < |raws|
      ensures Transform(p, children, raws, now)[i].id != Transform(p, children, raws, now)[j].id
    {
      ActivityIdInjective(now, i, j);
    }
  }

  /**
   * The two fallbacks differ: for an unknown name the multi-step and concept
   * repair picks the first roster child, this mapping the first preferred id.
   */
  lemma FallbacksDiffer()
    ensures ResolveChildId("Bob", "", MockChildren) == "1"
    ensures MapChildId("Bob", MockChildren, ["2"]) == "2"
  {
    var bob := Lower("Bob");
    assert bob[0] == 'b';
    assert Lower(MockChildren[0].name)[0] == 'e';
    assert Lower(MockChildren[1].name)[0] == 'l';
    assert NoMatch(MockChildren, "Bob");
    assert !IsUuidShaped("Bob");
  }

  /**
   * With two children of one name the name table keeps the later child,
   * whereas the repair of the other generators takes the earlier one.
   */
  lemma DuplicateNamesDiffer(a: Child, b: Child)
    requires a.name == b.name && a.id == "a" && b.id == "b"
    ensures MapChildId(a.name, [a, b], []) == "b" || a.name == "" || IsUuidShaped(a.name)
    ensures ResolveChildId("x", a.name, [a, b]) == "a" || a.name == ""
  {
    assert LastMatch([a, b], a.name, 1);
    assert FirstMatch([a, b], a.name, 0);
    assert !IsUuidShaped("x");
  }

  // ------------------------------------------------------------ end time

  /**
   * This file's `getEndTime`: one hour later, minutes unchanged, with NaN
   * for a part that does not parse.
   */
  function GetEndTime(t: string): string
  {
    var h, m := Hours(t), Minutes(t);
    PadNumber(if h.Some? then Some(h.value + 1) else None) + ":" + PadNumber(m)
  }

  lemma GetEndTimeOneHour(h: nat, m: nat)
    ensures GetEndTime(Hm(h, m)) == Hm(h + 1, m)
  {
    HmRoundTrip(h, m);
  }

  // ------------------------------------------------------------ mock generator

  const MockSlots: seq<string> := ["09:00", "10:00", "11:00", "13:00", "14:00"]

  const MockDays: seq<string> := ["Monday", "Tuesday", "Wednesday", "Thursday", "Friday"]

  const DefaultSubjects: seq<string> := ["Math", "Science", "Reading", "Art"]

  const MockMaterials: seq<string> := ["Paper", "Pencils", "Learning materials"]

  const MockInstructions: seq<string> :=
    ["Prepare the learning space", "Introduce the concept", "Complete the activity", "Review and discuss"]

  /** `subjectFocus` when it names any subject, else the four defaults. */
  function MockSubjects(p: Preferences): (s: seq<string>)
    ensures |s| > 0
    ensures |p.subjectFocus| > 0 ==> s == p.subjectFocus
  {
    if |p.subjectFocus| > 0 then p.subjectFocus else DefaultSubjects
  }

  function Min(a: int, b: int): int
  {
    if a <= b then a else b
  }

  /** `Math.floor(r * n)` for a draw `0 <= r < 1`: an index below `n`. */
  function ScaledIndex(r: real, n: nat): (k: nat)
    requires n > 0 && 0.0 <= r < 1.0
    ensures k < n
  {
    assert r * (n as real) < n as real;
    (r * (n as real)).Floor
  }

  /** `Math.min(maxActivitiesPerDay, Math.floor(r * 3) + 1)`, as a loop bound. */
  function MockCount(max: int, r: real): (n: int)
    requires 0.0 <= r < 1.0
    ensures n <= max && n <= 3
    ensures max >= 1 ==> n >= 1
    ensures n == max || n == ScaledIndex(r, 3) + 1
  {
    Min(max, ScaledIndex(r, 3) + 1)
  }

  /**
   * The values `Math.random()` and `Date.now()` supply to one mock run:
   * the count draw of child `c` on day `d`, the subject draw of its `i`-th
   * activity, and the random text in that activity's id.
   */
  datatype Draws = Draws(
    now: nat,
    count: (nat, nat) -> real,
    subject: (nat, nat, nat) -> real,
    noise: (nat, nat, nat) -> string)

  ghost predicate ValidDraws(dr: Draws)
  {
    (forall c, d :: 0.0 <= dr.count(c, d) < 1.0) &&
    (forall c, d, i :: 0.0 <= dr.subject(c, d, i) < 1.0)
  }

  /** How many activities child `c` gets on day `d`: never negative. */
  function DayCount(p: Preferences, dr: Draws, c: nat, d: nat): (n: nat)
    requires ValidDraws(dr)
    ensures n <= 3 && n <= (if p.maxActivitiesPerDay < 0 then 0 else p.maxActivitiesPerDay)
    ensures p.maxActivitiesPerDay >= 1 ==> n >= 1
  {
    var k := MockCount(p.maxActivitiesPerDay, dr.count(c, d));
    if k < 0 then 0 else k
  }

  /** The date of mock day `d`: `d` days after the Monday of `weekStart`'s week. */
  function MockDate(weekStart: Date, d: nat): (e: Date)
    requires ValidDate(weekStart)
    ensures ValidDate(e)
  {
    AddDays(MondayOf(weekStart), d)
  }

  /** Mock day `d` (Monday being 0) falls on weekday `d + 1` of `weekStart`'s week. */
  lemma MockDateFacts(weekStart: Date, d: nat)
    requires ValidDate(weekStart) && d < 5
    ensures Weekday(MockDate(weekStart, d)) == d + 1
    ensures MondayOf(MockDate(weekStart, d)) == MondayOf(weekStart)
    ensures DayNumber(MockDate(weekStart, d)) == DayNumber(MondayOf(weekStart)) + d
  {
    var m := MondayOf(weekStart);
    var e := AddDays(m, d);
    assert MockDate(weekStart, d) == e;
    AddDaysNumber(m, d);
    ShiftedMonday(m, e, d);
    SmallMod(d + 1);
  }

  lemma SmallMod(n: int)
    requires 0 <= n < 7
    ensures n % 7 == n
  {
  }

  /** `activityDate.toISOString().split('T')[0]` for the day `d` days after `monday`. */
  function MockDayDate(monday: Date, d: nat): (s: string)
    requires ValidDate(monday)
    ensures forall ws :: ValidDate(ws) && monday == MondayOf(ws) ==> s == DateString(MockDate(ws, d))
  {
    DateString(AddDays(monday, d))
  }

  /** Activity `i` of child `c` (roster entry `child`) on mock day `d`. */
  function MockItem(p: Preferences, dr: Draws, c: nat, child: Child, d: nat, date: string, i: nat): Activity
    requires ValidDraws(dr)
    requires c < |p.childIds| && d < 5 && i < 3
  {
    var subjects := MockSubjects(p);
    var subject := subjects[ScaledIndex(dr.subject(c, d, i), |subjects|)];
    var time := MockSlots[i];
    Activity(
      "mock-" + DecimalString(dr.now) + "-" + dr.noise(c, d, i),
      p.childIds[c],
      subject + " Activity for " + child.name,
      subject,
      "Age-appropriate " + Lower(subject) + " activity for Grade " + child.grade,
      MockDays[d],
      Some(date),
      time, GetEndTime(time),
      Some(MockMaterials), Some(MockInstructions),
      Some(["Understand " + Lower(subject) + " concepts", "Develop critical thinking", "Apply knowledge practically"]),
      true, None, None, None, None)
  }

  /** The first `n` activities of child `c` on day `d`. */
  function DayBlock(p: Preferences, dr: Draws, c: nat, child: Child, d: nat, date: string, n: nat): (r: seq<Activity>)
    requires ValidDraws(dr)
    requires c < |p.childIds| && d < 5 && n <= 3
    ensures |r| == n
  {
    seq(n, i requires 0 <= i < n => MockItem(p, dr, c, child, d, date, i))
  }

  /** Child `c`'s activities on the first `d` mock days. */
  function WeekBlock(p: Preferences, dr: Draws, c: nat, child: Child, monday: Date, d: nat): seq<Activity>
    requires ValidDate(monday) && ValidDraws(dr)
    requires c < |p.childIds| && d <= 5
  {
    if d == 0 then []
    else WeekBlock(p, dr, c, child, monday, d - 1) + DayBlock(p, dr, c, child, d - 1, MockDayDate(monday, d - 1), DayCount(p, dr, c, d - 1))
  }

  /** Child `c`'s activities: none when its id is not in the roster. */
  function ChildBlock(p: Preferences, children: seq<Child>, dr: Draws, monday: Date, c: nat): seq<Activity>
    requires ValidDate(monday) && ValidDraws(dr) && c < |p.childIds|
  {
    match FindById(children, p.childIds[c])
    case None => []
    case Some(k) => WeekBlock(p, dr, c, children[k], monday, 5)
  }

  /** The activities of the first `n` preferred children. */
  function MockPlan(p: Preferences, children: seq<Child>, dr: Draws, monday: Date, n: nat): seq<Activity>
    requires ValidDate(monday) && ValidDraws(dr) && n <= |p.childIds|
  {
    if n == 0 then [] else MockPlan(p, children, dr, monday, n - 1) + ChildBlock(p, children, dr, monday, n - 1)
  }

  /**
   * The inner `for` loop: child `c`'s activities on mock day `d`, whose
   * date text `date` is the same for every iteration.
   */
  method MockDay(p: Preferences, dr: Draws, c: nat, child: Child, d: nat, date: string) returns (block: seq<Activity>)
    requires ValidDraws(dr) && c < |p.childIds| && d < 5
    ensures block == DayBlock(p, dr, c, child, d, date, DayCount(p, dr, c, d))
  {
    var count := MockCount(p.maxActivitiesPerDay, dr.count(c, d));
    block := [];
    var i := 0;
    while i < count
      invariant 0 <= i <= DayCount(p, dr, c, d)
      invariant block == DayBlock(p, dr, c, child, d, date, i)
    {
      DayBlockStep(p, dr, c, child, d, date, i);
      block := block + [MockItem(p, dr, c, child, d, date, i)];
      i := i + 1;
    }
  }

  lemma DayBlockStep(p: Preferences, dr: Draws, c: nat, child: Child, d: nat, date: string, i: nat)
    requires ValidDraws(dr) && c < |p.childIds| && d < 5 && i < 3
    ensures DayBlock(p, dr, c, child, d, date, i + 1) ==
      DayBlock(p, dr, c, child, d, date, i) + [MockItem(p, dr, c, child, d, date, i)]
  {
    var a := DayBlock(p, dr, c, child, d, date, i + 1);
    var b := DayBlock(p, dr, c, child, d, date, i) + [MockItem(p, dr, c, child, d, date, i)];
    forall k | 0 <= k <= i ensures a[k] == b[k] {
      if k < i {
        assert b[k] == DayBlock(p, dr, c, child, d, date, i)[k];
      }
    }
  }

  /** The `days.forEach` callback: child `c`'s activities Monday to Friday. */
  method MockWeek(p: Preferences, dr: Draws, c: nat, child: Child, monday: Date) returns (block: seq<Activity>)
    requires ValidDate(monday) && ValidDraws(dr) && c < |p.childIds|
    ensures block == WeekBlock(p, dr, c, child, monday, 5)
  {
    block := [];
    var d := 0;
    while d < 5
      invariant 0 <= d <= 5
      invariant block == WeekBlock(p, dr, c, child, monday, d)
    {
      var day := MockDay(p, dr, c, child, d, DateString(AddDays(monday, d)));
      block := block + day;
      d := d + 1;
    }
  }

  /** The `preferences.childIds.forEach` loop, given the week's Monday. */
  method MockForChildren(p: Preferences, children: seq<Child>, dr: Draws, monday: Date) returns (acts: seq<Activity>)
    requires ValidDate(monday) && ValidDraws(dr)
    ensures acts == MockPlan(p, children, dr, monday, |p.childIds|)
  {
    acts := [];
    var c := 0;
    while c < |p.childIds|
      invariant 0 <= c <= |p.childIds|
      invariant acts == MockPlan(p, children, dr, monday, c)
    {
      var week := MockChild(p, children, dr, monday, c);
      acts := acts + week;
      c := c + 1;
    }
  }

  /** The `childIds.forEach` callback: nothing for an id missing from the roster. */
  method MockChild(p: Preferences, children: seq<Child>, dr: Draws, monday: Date, c: nat) returns (week: seq<Activity>)
    requires ValidDate(monday) && ValidDraws(dr) && c < |p.childIds|
    ensures week == ChildBlock(p, children, dr, monday, c)
  {
    var found := FindById(children, p.childIds[c]);
    if found.None? {
      return [];
    }
    week := MockWeek(p, dr, c, children[found.value], monday);
  }

  /**
   * `generateMockActivities`: the Monday of `weekStart`'s week, then for
   * each preferred child found in the roster, for each weekday Monday to
   * Friday, a drawn number of activities in the first slots of the day.
   */
  method GenerateMockActivities(p: Preferences, children: seq<Child>, dr: Draws) returns (acts: seq<Activity>)
    requires ValidDate(p.weekStart) && ValidDraws(dr)
    ensures acts == MockPlan(p, children, dr, MondayOf(p.weekStart), |p.childIds|)
  {
    var monday := MondayOf(p.weekStart);
    acts := MockForChildren(p, children, dr, monday);
  }

  lemma MockItemFacts(p: Preferences, dr: Draws, c: nat, child: Child, d: nat, date: string, i: nat)
    requires ValidDraws(dr)
    requires c < |p.childIds| && d < 5 && i < 3
    ensures var a := MockItem(p, dr, c, child, d, date, i);
      a.childId == p.childIds[c] && a.day == MockDays[d] && a.startTime == MockSlots[i] &&
      a.endTime == GetEndTime(a.startTime) && a.subject in MockSubjects(p) &&
      a.title == a.subject + " Activity for " + child.name &&
      a.date == Some(date) && a.enhanced
  {
  }

  /**
   * One child's mock activities on one day: at most `maxActivitiesPerDay`
   * and at most three (at least one when the maximum is positive), in the
   * first slots in order, so with pairwise distinct start times, all dated
   * on that day of `weekStart`'s week.
   */
  lemma MockDayShape(p: Preferences, dr: Draws, c: nat, child: Child, d: nat, date: string)
    requires ValidDraws(dr) && c < |p.childIds| && d < 5
    ensures var block := DayBlock(p, dr, c, child, d, date, DayCount(p, dr, c, d));
      |block| <= 3 &&
      (p.maxActivitiesPerDay >= 0 ==> |block| <= p.maxActivitiesPerDay) &&
      (p.maxActivitiesPerDay < 0 ==> |block| == 0) &&
      (p.maxActivitiesPerDay >= 1 ==> |block| >= 1) &&
      (forall i :: 0 <= i < |block| ==> block[i].startTime == MockSlots[i]) &&
      (forall i :: 0 <= i < |block| ==> block[i].childId == p.childIds[c] && block[i].day == MockDays[d]) &&
      (forall i :: 0 <= i < |block| ==> block[i].date == Some(date)) &&
      (forall i, j :: 0 <= i < j < |block| ==> block[i].startTime != block[j].startTime)
  {
    var n := DayCount(p, dr, c, d);
    var block := DayBlock(p, dr, c, child, d, date, n);
    forall i | 0 <= i < n
      ensures block[i].startTime == MockSlots[i] && block[i].childId == p.childIds[c] &&
        block[i].day == MockDays[d] && block[i].date == Some(date)
    {
      MockItemFacts(p, dr, c, child, d, date, i);
    }
    MockSlotsDistinct();
  }

  lemma MockSlotsDistinct()
    ensures forall i, j :: 0 <= i < j < 3 ==> MockSlots[i] != MockSlots[j]
  {
    assert MockSlots[0][1] != MockSlots[1][1] && MockSlots[0][1] != MockSlots[2][1];
    assert MockSlots[1][1] != MockSlots[2][1];
  }

  /** Every mock activity belongs to a preferred child that is in the roster, on a weekday, in an early slot. */
  ghost predicate GoodMock(p: Preferences, children: seq<Child>, a: Activity)
  {
    a.childId in p.childIds && HasChild(children, a.childId) &&
    a.day in MockDays && a.subject in MockSubjects(p) && a.startTime in MockSlots[..3] &&
    a.endTime == GetEndTime(a.startTime) && a.enhanced
  }

  lemma DayBlockGood(p: Preferences, children: seq<Child>, dr: Draws, c: nat, k: nat, d: nat, date: string, n: nat)
    requires ValidDraws(dr) && c < |p.childIds| && d < 5 && n <= 3
    requires k < |children| && children[k].id == p.childIds[c]
    ensures forall a :: a in DayBlock(p, dr, c, children[k], d, date, n) ==> GoodMock(p, children, a)
  {
    var block := DayBlock(p, dr, c, children[k], d, date, n);
    assert children[k] in children;
    forall i | 0 <= i < n ensures GoodMock(p, children, block[i]) {
      MockItemFacts(p, dr, c, children[k], d, date, i);
    }
  }

  lemma {:induction false} WeekBlockGood(p: Preferences, children: seq<Child>, dr: Draws, monday: Date, c: nat, k: nat, d: nat)
    requires ValidDate(monday) && ValidDraws(dr) && c < |p.childIds| && d <= 5
    requires k < |children| && children[k].id == p.childIds[c]
    ensures forall a :: a in WeekBlock(p, dr, c, children[k], monday, d) ==> GoodMock(p, children, a)
  {
    if d > 0 {
      WeekBlockGood(p, children, dr, monday, c, k, d - 1);
      DayBlockGood(p, children, dr, c, k, d - 1, MockDayDate(monday, d - 1), DayCount(p, dr, c, d - 1));
    }
  }

  /**
   * Mock activities go only to preferred ids found in the roster, only on
   * Monday to Friday, with subjects from `subjectFocus` (or the defaults)
   * and start times among the first three slots.
   */
  lemma {:induction false} MockPlanGood(p: Preferences, children: seq<Child>, dr: Draws, monday: Date, n: nat)
    requires ValidDate(monday) && ValidDraws(dr) && n <= |p.childIds|
    ensures forall a :: a in MockPlan(p, children, dr, monday, n) ==> GoodMock(p, children, a)
  {
    if n > 0 {
      MockPlanGood(p, children, dr, monday, n - 1);
      var found := FindById(children, p.childIds[n - 1]);
      if found.Some? {
        WeekBlockGood(p, children, dr, monday, n - 1, found.value, 5);
      }
    }
  }
}

=== FILE: planwizard.dfy ===
/**
 * The "Generate Weekly Plan" dialog: preferences, then activity ideas to
 * pick from, then detailed activities to pick from, and the picked ones
 * handed to the schedule. The two generation calls are passed in as
 * functions from what they are given to what they return or throw.
 */
module PlanWizard {
  import opened Wrappers
  import opened Text
  import opened Lists
  import opened MockData
  import opened Concepts
  import OpenAI
  import Calendar

  /** The dialog's `step`. */
  datatype Step = Preferences | Generating | Ideas | Detailing | Preview | Failed

  /** What an awaited call gives back: its value, or a thrown value with the message of an `Error`. */
  datatype Outcome<T> = Done(value: T) | Thrown(message: Option<string>)

  /** The text shown for a failure: the error's message, else the step's own default. */
  function FailureText(message: Option<string>, fallback: string): (r: string)
    ensures message.Some? ==> r == message.value
    ensures message.None? ==> r == fallback
  {
    message.GetOr(fallback)
  }

  const IdeasFailed := "Failed to generate activity concepts."
  const DetailsFailed := "Failed to generate activity details."

  function ConceptIds(cs: seq<Concept>): set<string>
  {
    set c | c in cs :: c.id
  }

  function ActivityIds(acts: seq<Activity>): set<string>
  {
    set a | a in acts :: a.id
  }

  function PickedConcept(selected: set<string>): Concept -> bool
  {
    (c: Concept) => c.id in selected
  }

  function PickedActivity(selected: set<string>): Activity -> bool
  {
    (a: Activity) => a.id in selected
  }

  /**
   * The idea handed to the detail step: the summary falls back to the
   * description, then to the empty text, and the description is dropped.
   */
  function ForDetailing(c: Concept): (r: Concept)
    ensures r.id == c.id && r.title == c.title && r.day == c.day && r.startTime == c.startTime
    ensures r.conceptSummary == (if c.conceptSummary != "" then c.conceptSummary else c.description.GetOr(""))
    ensures r.description.None?
  {
    c.(conceptSummary := Or(c.conceptSummary, Or(c.description.GetOr(""), "")), description := None)
  }

  function MapForDetailing(cs: seq<Concept>): (r: seq<Concept>)
    ensures |r| == |cs|
    ensures forall i :: 0 <= i < |cs| ==> r[i] == ForDetailing(cs[i])
  {
    seq(|cs|, i requires 0 <= i < |cs| => ForDetailing(cs[i]))
  }

  /** `selectedConceptsList` converted: the selected ideas, in list order. */
  function DetailInput(cs: seq<Concept>, selected: set<string>): (r: seq<Concept>)
    ensures |r| <= |cs|
    ensures forall c :: c in r ==> c.id in selected && c.id in ConceptIds(cs)
  {
    var kept := Filter(cs, PickedConcept(selected));
    var r := MapForDetailing(kept);
    forall c | c in r ensures c.id in selected && c.id in ConceptIds(cs) {
      var i :| 0 <= i < |r| && r[i] == c;
      assert kept[i] in kept;
    }
    r
  }

  /** With every idea selected, the detail step is given all of them, in order. */
  lemma DetailInputAll(cs: seq<Concept>, selected: set<string>)
    requires ConceptIds(cs) <= selected
    ensures DetailInput(cs, selected) == MapForDetailing(cs)
  {
    FilterAll(cs, PickedConcept(selected));
  }

  /** A selected idea present in the list reaches the detail step. */
  lemma SelectedIdeaReachesDetails(cs: seq<Concept>, selected: set<string>, id: string)
    requires id in selected && id in ConceptIds(cs)
    ensures exists c :: c in DetailInput(cs, selected) && c.id == id
  {
    var c :| c in cs && c.id == id;
    var kept := Filter(cs, PickedConcept(selected));
    assert c in kept;
    var i :| 0 <= i < |kept| && kept[i] == c;
    assert DetailInput(cs, selected)[i] == ForDetailing(c);
  }

  /** A non-empty selection of listed ideas gives the detail step at least one idea. */
  lemma DetailInputNotEmpty(cs: seq<Concept>, selected: set<string>)
    requires selected <= ConceptIds(cs) && selected != {}
    ensures DetailInput(cs, selected) != []
  {
    var id :| id in selected;
    SelectedIdeaReachesDetails(cs, selected, id);
  }

  /** `handleAccept`'s filter: the selected activities, in list order. */
  function Accepted(acts: seq<Activity>, selected: set<string>): (r: seq<Activity>)
    ensures forall a :: a in r <==> a in acts && a.id in selected
  {
    Filter(acts, PickedActivity(selected))
  }

  /** Accepting with every activity selected hands over the whole list. */
  lemma AcceptAll(acts: seq<Activity>)
    ensures Accepted(acts, ActivityIds(acts)) == acts
  {
    FilterAll(acts, PickedActivity(ActivityIds(acts)));
  }

  /** A non-empty selection of listed activities accepts at least one activity. */
  lemma AcceptNotEmpty(acts: seq<Activity>, selected: set<string>)
    requires selected <= ActivityIds(acts) && selected != {}
    ensures Accepted(acts, selected) != []
  {
    var id :| id in selected;
    var a :| a in acts && a.id == id;
    assert a in Accepted(acts, selected);
  }

  /** A child checkbox: checking appends the id, unchecking removes every copy of it. */
  function CheckedChildren(ids: seq<string>, id: string, checked: bool): (r: seq<string>)
    ensures checked ==> r == ids + [id]
    ensures !checked ==> id !in r && forall x :: x != id ==> (x in r <==> x in ids)
  {
    if checked then ids + [id] else RemoveAll(ids, id)
  }

  /** The concept editor: the idea with `id` gets the new title and nothing else changes. */
  function Retitled(cs: seq<Concept>, id: string, title: string): (r: seq<Concept>)
    ensures |r| == |cs|
    ensures forall i :: 0 <= i < |cs| ==> r[i] == (if cs[i].id == id then cs[i].(title := title) else cs[i])
    ensures ConceptIds(r) == ConceptIds(cs)
  {
    var r := seq(|cs|, i requires 0 <= i < |cs| => if cs[i].id == id then cs[i].(title := title) else cs[i]);
    SameIds(cs, r);
    r
  }

  /** The concept editor: the idea with `id` gets the new summary and nothing else changes. */
  function Resummarized(cs: seq<Concept>, id: string, summary: string): (r: seq<Concept>)
    ensures |r| == |cs|
    ensures forall i :: 0 <= i < |cs| ==> r[i] == (if cs[i].id == id then cs[i].(conceptSummary := summary) else cs[i])
    ensures ConceptIds(r) == ConceptIds(cs)
  {
    var r := seq(|cs|, i requires 0 <= i < |cs| => if cs[i].id == id then cs[i].(conceptSummary := summary) else cs[i]);
    SameIds(cs, r);
    r
  }

  lemma SameIds(cs: seq<Concept>, r: seq<Concept>)
    requires |r| == |cs| && forall i :: 0 <= i < |cs| ==> r[i].id == cs[i].id
    ensures ConceptIds(r) == ConceptIds(cs)
  {
    forall id | id in ConceptIds(cs) ensures id in ConceptIds(r) {
      var i :| 0 <= i < |cs| && cs[i].id == id;
      assert r[i] in r;
    }
    forall id | id in ConceptIds(r) ensures id in ConceptIds(cs) {
      var i :| 0 <= i < |r| && r[i].id == id;
      assert cs[i] in cs;
    }
  }

  /** The dialog's state. */
  class PlanDialog {
    var step: Step
    var error: Option<string>
    var prefs: OpenAI.Preferences
    var concepts: seq<Concept>
    var selectedConcepts: set<string>
    var editingConcept: Option<string>
    var generated: seq<Activity>
    var selectedActivities: set<string>
    var open: bool

    /** Every selected id belongs to a listed idea or activity. */
    ghost predicate Valid()
      reads this
    {
      selectedConcepts <= ConceptIds(concepts) && selectedActivities <= ActivityIds(generated)
    }

    /** "Generate Ideas" is enabled only with at least one child chosen. */
    predicate CanGenerate()
      reads this
    {
      prefs.childIds != []
    }

    /** "Generate Full Details" is enabled only with at least one idea selected. */
    predicate CanDetail()
      reads this
    {
      selectedConcepts != {}
    }

    /** "Add Activities" is enabled only with at least one activity selected. */
    predicate CanAccept()
      reads this
    {
      selectedActivities != {}
    }

    /** The dialog opens on the preferences with every child chosen and nothing generated. */
    constructor(children: seq<Child>, currentWeek: Calendar.Date)
      ensures Valid() && open && step == Preferences && error.None?
      ensures prefs.childIds == seq(|children|, i requires 0 <= i < |children| => children[i].id)
      ensures prefs.weekStart == currentWeek && prefs.subjectFocus == [] && prefs.maxActivitiesPerDay == 3
      ensures prefs.difficulty == OpenAI.Medium && !prefs.includeFieldTrips && prefs.includeGroupActivities
      ensures concepts == [] && generated == [] && selectedConcepts == {} && selectedActivities == {}
    {
      step := Preferences;
      error := None;
      prefs := OpenAI.Preferences(seq(|children|, i requires 0 <= i < |children| => children[i].id),
                                  currentWeek, [], 3, OpenAI.Medium, false, true, []);
      concepts := [];
      selectedConcepts := {};
      editingConcept := None;
      generated := [];
      selectedActivities := {};
      open := true;
    }

    /**
     * A child's checkbox. Checking any child enables "Generate Ideas";
     * it is disabled again only when the last chosen child is unchecked.
     */
    method CheckChild(id: string, checked: bool)
      modifies this
      ensures prefs == old(prefs).(childIds := CheckedChildren(old(prefs.childIds), id, checked))
      ensures checked ==> CanGenerate()
      ensures !CanGenerate() ==> !checked && forall x :: x in old(prefs.childIds) ==> x == id
      ensures step == old(step) && error == old(error) && open == old(open)
      ensures concepts == old(concepts) && selectedConcepts == old(selectedConcepts)
      ensures editingConcept == old(editingConcept)
      ensures generated == old(generated) && selectedActivities == old(selectedActivities)
    {
      prefs := prefs.(childIds := CheckedChildren(prefs.childIds, id, checked));
    }

    /** A subject-focus button: toggles that subject only. */
    method ToggleSubject(subject: string)
      modifies this
      ensures prefs == old(prefs).(subjectFocus := Toggle(old(prefs.subjectFocus), subject))
      ensures step == old(step) && error == old(error) && open == old(open)
      ensures concepts == old(concepts) && selectedConcepts == old(selectedConcepts)
      ensures editingConcept == old(editingConcept)
      ensures generated == old(generated) && selectedActivities == old(selectedActivities)
    {
      prefs := prefs.(subjectFocus := Toggle(prefs.subjectFocus, subject));
    }

    /** The activities-per-day slider, which runs from 1 to 6 in steps of 1. */
    method SetMaxPerDay(n: int)
      requires 1 <= n <= 6
      modifies this
      ensures prefs == old(prefs).(maxActivitiesPerDay := n)
      ensures step == old(step) && error == old(error) && open == old(open)
      ensures concepts == old(concepts) && selectedConcepts == old(selectedConcepts)
      ensures editingConcept == old(editingConcept)
      ensures generated == old(generated) && selectedActivities == old(selectedActivities)
    {
      prefs := prefs.(maxActivitiesPerDay := n);
    }

    /** A difficulty button. */
    method SetDifficulty(level: OpenAI.Difficulty)
      modifies this
      ensures prefs == old(prefs).(difficulty := level)
      ensures step == old(step) && error == old(error) && open == old(open)
      ensures concepts == old(concepts) && selectedConcepts == old(selectedConcepts)
      ensures editingConcept == old(editingConcept)
      ensures generated == old(generated) && selectedActivities == old(selectedActivities)
    {
      prefs := prefs.(difficulty := level);
    }

    /** The field-trip checkbox. */
    method SetFieldTrips(on: bool)
      modifies this
      ensures prefs == old(prefs).(includeFieldTrips := on)
      ensures step == old(step) && error == old(error) && open == old(open)
      ensures concepts == old(concepts) && selectedConcepts == old(selectedConcepts)
      ensures editingConcept == old(editingConcept)
      ensures generated == old(generated) && selectedActivities == old(selectedActivities)
    {
      prefs := prefs.(includeFieldTrips := on);
    }

    /** The group-activities checkbox. */
    method SetGroupActivities(on: bool)
      modifies this
      ensures prefs == old(prefs).(includeGroupActivities := on)
      ensures step == old(step) && error == old(error) && open == old(open)
      ensures concepts == old(concepts) && selectedConcepts == old(selectedConcepts)
      ensures editingConcept == old(editingConcept)
      ensures generated == old(generated) && selectedActivities == old(selectedActivities)
    {
      prefs := prefs.(includeGroupActivities := on);
    }

    /**
     * `handleGenerateConcepts`: ideas for the current preferences; on
     * success all of them are selected, on failure the message is shown.
     */
    method GenerateIdeas(ask: OpenAI.Preferences -> Outcome<seq<Concept>>)
      requires Valid()
      modifies this
      ensures Valid()
      ensures prefs == old(prefs) && generated == old(generated) && selectedActivities == old(selectedActivities)
      ensures editingConcept == old(editingConcept) && open == old(open)
      ensures match ask(old(prefs))
        case Done(cs) =>
          step == Ideas && error.None? && concepts == cs && selectedConcepts == ConceptIds(cs)
        case Thrown(message) =>
          step == Failed && error == Some(FailureText(message, IdeasFailed)) &&
          concepts == old(concepts) && selectedConcepts == old(selectedConcepts)
    {
      step := Generating;
      error := None;
      var outcome := ask(prefs);
      match outcome
      case Done(cs) =>
        concepts := cs;
        selectedConcepts := ConceptIds(cs);
        step := Ideas;
      case Thrown(message) =>
        error := Some(FailureText(message, IdeasFailed));
        step := Failed;
    }

    /** An idea's checkbox. */
    method CheckConcept(i: nat, checked: bool)
      requires Valid() && i < |concepts|
      modifies this
      ensures Valid()
      ensures selectedConcepts == if checked then old(selectedConcepts) + {old(concepts)[i].id}
                                  else old(selectedConcepts) - {old(concepts)[i].id}
      ensures step == old(step) && error == old(error) && open == old(open) && prefs == old(prefs)
      ensures concepts == old(concepts) && editingConcept == old(editingConcept)
      ensures generated == old(generated) && selectedActivities == old(selectedActivities)
    {
      assert concepts[i] in concepts;
      if checked {
        selectedConcepts := selectedConcepts + {concepts[i].id};
      } else {
        selectedConcepts := selectedConcepts - {concepts[i].id};
      }
    }

    /** "Select All" and "Clear" over the ideas. */
    method SelectAllConcepts(all: bool)
      requires Valid()
      modifies this
      ensures Valid()
      ensures selectedConcepts == if all then ConceptIds(concepts) else {}
      ensures step == old(step) && error == old(error) && open == old(open) && prefs == old(prefs)
      ensures concepts == old(concepts) && editingConcept == old(editingConcept)
      ensures generated == old(generated) && selectedActivities == old(selectedActivities)
    {
      selectedConcepts := if all then ConceptIds(concepts) else {};
    }

    /** An idea's "Edit" link opens its editor. */
    method EditConcept(id: string)
      modifies this
      ensures editingConcept == Some(id)
      ensures step == old(step) && error == old(error) && open == old(open) && prefs == old(prefs)
      ensures concepts == old(concepts) && selectedConcepts == old(selectedConcepts)
      ensures generated == old(generated) && selectedActivities == old(selectedActivities)
    {
      editingConcept := Some(id);
    }

    /** The editor's Save and Cancel buttons both just close it; the edits stay. */
    method CloseEditor()
      modifies this
      ensures editingConcept == None
      ensures step == old(step) && error == old(error) && open == old(open) && prefs == old(prefs)
      ensures concepts == old(concepts) && selectedConcepts == old(selectedConcepts)
      ensures generated == old(generated) && selectedActivities == old(selectedActivities)
    {
      editingConcept := None;
    }

    /** The concept editor's title field. */
    method EditConceptTitle(id: string, title: string)
      requires Valid()
      modifies this
      ensures Valid()
      ensures concepts == Retitled(old(concepts), id, title)
      ensures step == old(step) && error == old(error) && open == old(open) && prefs == old(prefs)
      ensures selectedConcepts == old(selectedConcepts) && editingConcept == old(editingConcept)
      ensures generated == old(generated) && selectedActivities == old(selectedActivities)
    {
      concepts := Retitled(concepts, id, title);
    }

    /** The concept editor's summary field. */
    method EditConceptSummary(id: string, summary: string)
      requires Valid()
      modifies this
      ensures Valid()
      ensures concepts == Resummarized(old(concepts), id, summary)
      ensures step == old(step) && error == old(error) && open == old(open) && prefs == old(prefs)
      ensures selectedConcepts == old(selectedConcepts) && editingConcept == old(editingConcept)
      ensures generated == old(generated) && selectedActivities == old(selectedActivities)
    {
      concepts := Resummarized(concepts, id, summary);
    }

    /**
     * `handleGenerateDetails`: the detail step is given the selected
     * ideas in list order; on success every activity is selected, on
     * failure the message is shown.
     */
    method GenerateDetails(detail: seq<Concept> -> Outcome<seq<Activity>>)
      requires Valid()
      modifies this
      ensures Valid()
      ensures prefs == old(prefs) && concepts == old(concepts) && selectedConcepts == old(selectedConcepts)
      ensures open == old(open) && editingConcept == old(editingConcept)
      ensures old(CanDetail()) ==> DetailInput(old(concepts), old(selectedConcepts)) != []
      ensures match detail(DetailInput(old(concepts), old(selectedConcepts)))
        case Done(acts) =>
          step == Preview && error.None? && generated == acts && selectedActivities == ActivityIds(acts)
        case Thrown(message) =>
          step == Failed && error == Some(FailureText(message, DetailsFailed)) &&
          generated == old(generated) && selectedActivities == old(selectedActivities)
    {
      if selectedConcepts != {} {
        DetailInputNotEmpty(concepts, selectedConcepts);
      }
      step := Detailing;
      error := None;
      var outcome := detail(DetailInput(concepts, selectedConcepts));
      match outcome
      case Done(acts) =>
        generated := acts;
        selectedActivities := ActivityIds(acts);
        step := Preview;
      case Thrown(message) =>
        error := Some(FailureText(message, DetailsFailed));
        step := Failed;
    }

    /** Clicking a generated activity flips whether it is selected. */
    method ToggleActivity(i: nat)
      requires Valid() && i < |generated|
      modifies this
      ensures Valid()
      ensures old(generated)[i].id in selectedActivities <==> old(generated)[i].id !in old(selectedActivities)
      ensures forall id :: id != old(generated)[i].id ==> (id in selectedActivities <==> id in old(selectedActivities))
      ensures step == old(step) && error == old(error) && open == old(open) && prefs == old(prefs)
      ensures concepts == old(concepts) && selectedConcepts == old(selectedConcepts)
      ensures editingConcept == old(editingConcept) && generated == old(generated)
    {
      var id := generated[i].id;
      assert generated[i] in generated;
      if id in selectedActivities {
        selectedActivities := selectedActivities - {id};
      } else {
        selectedActivities := selectedActivities + {id};
      }
    }

    /** "Select All" and "Deselect All" over the generated activities. */
    method SelectAllActivities(all: bool)
      requires Valid()
      modifies this
      ensures Valid()
      ensures selectedActivities == if all then ActivityIds(generated) else {}
      ensures step == old(step) && error == old(error) && open == old(open) && prefs == old(prefs)
      ensures concepts == old(concepts) && selectedConcepts == old(selectedConcepts)
      ensures editingConcept == old(editingConcept) && generated == old(generated)
    {
      selectedActivities := if all then ActivityIds(generated) else {};
    }

    /** The Back buttons return to the preferences and keep everything else. */
    method Back()
      modifies this
      ensures step == Preferences
      ensures error == old(error) && open == old(open) && prefs == old(prefs)
      ensures concepts == old(concepts) && selectedConcepts == old(selectedConcepts)
      ensures editingConcept == old(editingConcept)
      ensures generated == old(generated) && selectedActivities == old(selectedActivities)
    {
      step := Preferences;
    }

    /** `handleAccept`: the selected activities, in order, go to the schedule and the dialog closes. */
    method Accept() returns (accepted: seq<Activity>)
      requires Valid()
      modifies this
      ensures accepted == Accepted(generated, selectedActivities)
      ensures CanAccept() ==> accepted != []
      ensures !open
      ensures step == old(step) && error == old(error) && prefs == old(prefs)
      ensures concepts == old(concepts) && selectedConcepts == old(selectedConcepts)
      ensures editingConcept == old(editingConcept)
      ensures generated == old(generated) && selectedActivities == old(selectedActivities)
    {
      accepted := Accepted(generated, selectedActivities);
      if selectedActivities != {} {
        AcceptNotEmpty(generated, selectedActivities);
      }
      open := false;
    }

    /** Cancel and the close button: the dialog closes and nothing is added. */
    method Close()
      modifies this
      ensures !open
      ensures step == old(step) && error == old(error) && prefs == old(prefs)
      ensures concepts == old(concepts) && selectedConcepts == old(selectedConcepts)
      ensures editingConcept == old(editingConcept)
      ensures generated == old(generated) && selectedActivities == old(selectedActivities)
    {
      open := false;
    }
  }
}

=== FILE: records.dfy ===
/**
 * The record mapping between the app's camel-case children and activities
 * and the store's snake-case rows: the insert and partial-update payloads
 * written to the `children` and `activities` tables, and the renaming
 * applied to the rows read back. A row is a map from column name to value;
 * a property that is `undefined` is absent from the map, as it is from the
 * JSON sent to the store.
 */
module Records {
  import opened Wrappers
  import opened MockData

  datatype Value = Text(s: string) | Texts(items: seq<string>) | Flag(b: bool) | Null

  /** A property or column name, numbered; each name below is the one the code writes. */
  newtype Key = int

  const id: Key := 0
  const user_id: Key := 1
  const created_at: Key := 2
  const updated_at: Key := 3
  const name: Key := 4
  const age: Key := 5
  const grade: Key := 6
  const goals: Key := 7
  const curriculum_types: Key := 8
  const curriculumTypes: Key := 9
  const notes: Key := 10
  const color: Key := 11
  const emoji: Key := 12
  const child_id: Key := 13
  const childId: Key := 14
  const title: Key := 15
  const subject: Key := 16
  const description: Key := 17
  const day: Key := 18
  const date: Key := 19
  const start_time: Key := 20
  const startTime: Key := 21
  const end_time: Key := 22
  const endTime: Key := 23
  const materials: Key := 24
  const instructions: Key := 25
  const objectives: Key := 26
  const enhanced: Key := 27
  const status: Key := 28
  const completed_at: Key := 29
  const completedAt: Key := 30
  const recurring: Key := 31
  const recurrence_rule: Key := 32
  const recurrenceRule: Key := 33

  type Row = map<Key, Value>

  /** JavaScript truthiness, as `x || []` tests it. */
  predicate Truthy(v: Value)
  {
    match v
    case Text(s) => s != ""
    case Texts(_) => true
    case Flag(b) => b
    case Null => false
  }

  /** The error a store call returns, raised unchanged by every operation here. */
  datatype StoreError = StoreError(message: string)

  /** `if (error) throw error`, then the rows mapped: `(data || []).map(f)`. */
  function Rows(resp: Result<Option<seq<Row>>, StoreError>, f: Row -> Row): (r: Result<seq<Row>, StoreError>)
    ensures resp.Err? ==> r == Err(resp.error)
    ensures resp.Ok? && resp.value.None? ==> r == Ok([])
    ensures resp.Ok? && resp.value.Some? ==>
      r.Ok? && |r.value| == |resp.value.value| &&
      forall i :: 0 <= i < |r.value| ==> r.value[i] == f(resp.value.value[i])
  {
    match resp
    case Err(e) => Err(e)
    case Ok(data) =>
      var rows := data.GetOr([]);
      Ok(seq(|rows|, i requires 0 <= i < |rows| => f(rows[i])))
  }

  /** `if (error) throw error`, then the single row mapped. */
  function OneRow(resp: Result<Row, StoreError>, f: Row -> Row): (r: Result<Row, StoreError>)
    ensures resp.Err? ==> r == Err(resp.error)
    ensures resp.Ok? ==> r == Ok(f(resp.value))
  {
    match resp
    case Err(e) => Err(e)
    case Ok(row) => Ok(f(row))
  }

  /** `if (v !== undefined) row[column] = v`. */
  function Put(row: Row, column: Key, v: Option<Value>): Row
  {
    if v.Some? then row[column := v.value] else row
  }

  function TextOf(x: Option<string>): Option<Value>
  {
    if x.Some? then Some(Text(x.value)) else None
  }

  function TextsOf(x: Option<seq<string>>): Option<Value>
  {
    if x.Some? then Some(Texts(x.value)) else None
  }

  function FlagOf(x: Option<bool>): Option<Value>
  {
    if x.Some? then Some(Flag(x.value)) else None
  }

  /**
   * A payload as the code writes it: each column in order with the value
   * it is given, `None` where that value is `undefined`.
   */
  type Fields = seq<(Key, Option<Value>)>

  predicate DistinctKeys(fs: Fields)
  {
    forall i, j :: 0 <= i < j < |fs| ==> fs[i].0 != fs[j].0
  }

  /** Every column of the table is one of `columns`. */
  predicate Within(fs: Fields, columns: set<Key>)
  {
    forall i :: 0 <= i < |fs| ==> fs[i].0 in columns
  }

  /** The object sent: the fields written in order, the undefined ones left out. */
  function Payload(fs: Fields): Row
  {
    if fs == [] then map[] else Put(Payload(fs[..|fs| - 1]), fs[|fs| - 1].0, fs[|fs| - 1].1)
  }

  /** With distinct columns, the payload holds a column exactly when its value is defined, and holds that value. */
  lemma {:induction false} PayloadAt(fs: Fields, j: nat)
    requires DistinctKeys(fs) && j < |fs|
    ensures fs[j].0 in Payload(fs) <==> fs[j].1.Some?
    ensures fs[j].1.Some? ==> Payload(fs)[fs[j].0] == fs[j].1.value
  {
    var init := fs[..|fs| - 1];
    assert DistinctKeys(init);
    if j < |fs| - 1 {
      assert init[j] == fs[j];
      PayloadAt(init, j);
    } else {
      PayloadOmits(init, fs[j].0);
    }
  }

  /** A column missing from the table is missing from the payload. */
  lemma {:induction false} PayloadOmits(fs: Fields, k: Key)
    requires forall i :: 0 <= i < |fs| ==> fs[i].0 != k
    ensures k !in Payload(fs)
  {
    if fs != [] {
      PayloadOmits(fs[..|fs| - 1], k);
    }
  }

  /** The payload names no column outside its table. */
  lemma {:induction false} PayloadKeys(fs: Fields, columns: set<Key>)
    requires Within(fs, columns)
    ensures Payload(fs).Keys <= columns
  {
    if fs != [] {
      var init := fs[..|fs| - 1];
      assert Within(init, columns);
      PayloadKeys(init, columns);
      assert fs[|fs| - 1].0 in columns;
    }
  }

  /** Writing one more field: the step each `if` of a payload builder takes. */
  lemma PayloadStep(fs: Fields, i: nat)
    requires i < |fs|
    ensures Payload(fs[..i + 1]) == Put(Payload(fs[..i]), fs[i].0, fs[i].1)
  {
    assert fs[..i + 1][..i] == fs[..i];
  }

  /** `{ ...row, [to]: row[from] }`: the copy is absent where the source column is. */
  function Renamed(row: Row, from: Key, to: Key): (r: Row)
    ensures from in row ==> to in r && r[to] == row[from]
    ensures from !in row ==> to !in r
    ensures forall k :: k != to ==> (k in r <==> k in row) && (k in r ==> r[k] == row[k])
  {
    if from in row then row[to := row[from]] else row - {to}
  }

  // ------------------------------------------------------------ children

  /** The columns of the `children` table, as reads and updates name them. */
  const ChildColumns: set<Key> :=
    {id, user_id, name, age, grade, goals, curriculum_types, notes, color, emoji,
     created_at, updated_at}

  /** `getChildren`'s mapping: `curriculumTypes` is `curriculum_types`, or `[]` when that is falsy. */
  function ChildFromRow(row: Row): (r: Row)
    ensures curriculumTypes in r
    ensures curriculum_types in row && Truthy(row[curriculum_types]) ==>
      r[curriculumTypes] == row[curriculum_types]
    ensures !(curriculum_types in row && Truthy(row[curriculum_types])) ==> r[curriculumTypes] == Texts([])
    ensures forall k :: k != curriculumTypes ==> (k in r <==> k in row) && (k in r ==> r[k] == row[k])
  {
    row[curriculumTypes := if curriculum_types in row && Truthy(row[curriculum_types])
                           then row[curriculum_types] else Texts([])]
  }

  function ChildRows(): Row -> Row
  {
    (row: Row) => ChildFromRow(row)
  }

  /** `getChildren`. */
  function GetChildren(resp: Result<Option<seq<Row>>, StoreError>): (r: Result<seq<Row>, StoreError>)
    ensures resp.Err? ==> r == Err(resp.error)
    ensures r.Ok? ==> forall row :: row in r.value ==> curriculumTypes in row
  {
    Rows(resp, ChildRows())
  }

  /** The object `createChild` is given. */
  datatype NewChild = NewChild(
    userId: string,
    name: string,
    age: string,
    grade: string,
    goals: seq<string>,
    curriculumTypes: seq<string>,
    notes: string,
    color: string,
    emoji: string)

  /** A new child's fields, with the curriculum under `curriculumKey`. */
  function NewChildFields(c: NewChild, curriculumKey: Key): Fields
  {
    [(user_id, Some(Text(c.userId))), (name, Some(Text(c.name))), (age, Some(Text(c.age))),
     (grade, Some(Text(c.grade))), (goals, Some(Texts(c.goals))),
     (curriculumKey, Some(Texts(c.curriculumTypes))), (notes, Some(Text(c.notes))),
     (color, Some(Text(c.color))), (emoji, Some(Text(c.emoji)))]
  }

  /** `createChild` inserts its argument as it is: the curriculum keeps its camel-case name. */
  function NewChildRow(c: NewChild): (r: Row)
    ensures curriculumTypes in r && curriculum_types !in r
  {
    var fs := NewChildFields(c, curriculumTypes);
    PayloadAt(fs, 5);
    PayloadOmits(fs, curriculum_types);
    Payload(fs)
  }

  /** The insert with the curriculum renamed to its column, as `updateChild` writes it. */
  function NewChildRowRenamed(c: NewChild): (r: Row)
    ensures r.Keys <= ChildColumns
    ensures curriculum_types in r && r[curriculum_types] == Texts(c.curriculumTypes)
    ensures name in r && r[name] == Text(c.name)
  {
    var fs := NewChildFields(c, curriculum_types);
    PayloadAt(fs, 1);
    PayloadAt(fs, 5);
    PayloadKeys(fs, ChildColumns);
    Payload(fs)
  }

  /**
   * The store's insert: a row naming a column the table does not have is
   * refused; otherwise it is stored with its new id.
   */
  function Insert(columns: set<Key>, row: Row, newId: string): (r: Result<Row, StoreError>)
    ensures r.Ok? <==> row.Keys <= columns
    ensures r.Ok? ==> r.value == row[id := Text(newId)]
  {
    if row.Keys <= columns then Ok(row[id := Text(newId)])
    else Err(StoreError("unknown column"))
  }

  /** As written, no child can be inserted: its `curriculumTypes` key names no column. */
  lemma NewChildRefused(c: NewChild, newId: string)
    ensures Insert(ChildColumns, NewChildRow(c), newId).Err?
  {
    assert curriculumTypes in NewChildRow(c);
  }

  /** With the curriculum renamed, a created child reads back with its curriculum, name and id. */
  lemma NewChildRoundTrip(c: NewChild, newId: string)
    ensures var stored := Insert(ChildColumns, NewChildRowRenamed(c), newId);
      stored.Ok? &&
      ChildFromRow(stored.value)[curriculumTypes] == Texts(c.curriculumTypes) &&
      ChildFromRow(stored.value)[name] == Text(c.name) && ChildFromRow(stored.value)[id] == Text(newId)
  {
  }

  /** The `Partial<Child>` given to `updateChild`: `None` is `undefined`. */
  datatype ChildUpdates = ChildUpdates(
    name: Option<string>,
    age: Option<string>,
    grade: Option<string>,
    goals: Option<seq<string>>,
    curriculumTypes: Option<seq<string>>,
    notes: Option<string>,
    color: Option<string>,
    emoji: Option<string>)

  /** Each property of the update under the column `updateChild` writes it to. */
  function ChildUpdateFields(u: ChildUpdates): (fs: Fields)
    ensures |fs| == 8
  {
    var fs := [(name, TextOf(u.name)), (age, TextOf(u.age)), (grade, TextOf(u.grade)),
               (goals, TextsOf(u.goals)), (curriculum_types, TextsOf(u.curriculumTypes)),
               (notes, TextOf(u.notes)), (color, TextOf(u.color)), (emoji, TextOf(u.emoji))];
    fs
  }
  /** Each property goes to a column of its own. */
  lemma ChildUpdateColumns(u: ChildUpdates)
    ensures DistinctKeys(ChildUpdateFields(u)) && Within(ChildUpdateFields(u), ChildColumns)
  {
  }


  /**
   * `updateChild`'s `dbUpdates`: exactly the defined properties, each
   * under its column, `curriculumTypes` as `curriculum_types`.
   */
  method ChildUpdateRow(u: ChildUpdates) returns (db: Row)
    ensures db == Payload(ChildUpdateFields(u))
  {
    var fs := ChildUpdateFields(u);
    db := map[];
    assert fs[..0] == [];
    PayloadStep(fs, 0);
    db := Put(db, name, TextOf(u.name));
    PayloadStep(fs, 1);
    db := Put(db, age, TextOf(u.age));
    PayloadStep(fs, 2);
    db := Put(db, grade, TextOf(u.grade));
    PayloadStep(fs, 3);
    db := Put(db, goals, TextsOf(u.goals));
    PayloadStep(fs, 4);
    db := Put(db, curriculum_types, TextsOf(u.curriculumTypes));
    PayloadStep(fs, 5);
    db := Put(db, notes, TextOf(u.notes));
    PayloadStep(fs, 6);
    db := Put(db, color, TextOf(u.color));
    PayloadStep(fs, 7);
    db := Put(db, emoji, TextOf(u.emoji));
    assert fs[..8] == fs;
  }

  /**
   * The update payload holds exactly the defined properties, each under its
   * column, and no camel-case curriculum key.
   */
  lemma ChildUpdatePayload(u: ChildUpdates)
    ensures var db := Payload(ChildUpdateFields(u));
      db.Keys <= ChildColumns && curriculumTypes !in db &&
      forall j :: 0 <= j < 8 ==>
        (ChildUpdateFields(u)[j].0 in db <==> ChildUpdateFields(u)[j].1.Some?) &&
        (ChildUpdateFields(u)[j].1.Some? ==> db[ChildUpdateFields(u)[j].0] == ChildUpdateFields(u)[j].1.value)
  {
    var fs := ChildUpdateFields(u);
    ChildUpdateColumns(u);
    PayloadKeys(fs, ChildColumns);
    forall j | 0 <= j < 8
      ensures (fs[j].0 in Payload(fs) <==> fs[j].1.Some?) && (fs[j].1.Some? ==> Payload(fs)[fs[j].0] == fs[j].1.value)
    {
      PayloadAt(fs, j);
    }
  }

  /** The curriculum an update writes is the curriculum read back. */
  lemma ChildUpdateReadBack(u: ChildUpdates, row: Row)
    requires u.curriculumTypes.Some?
    ensures ChildFromRow(row + Payload(ChildUpdateFields(u)))[curriculumTypes] == Texts(u.curriculumTypes.value)
  {
    ChildUpdateColumns(u);
    PayloadAt(ChildUpdateFields(u), 4);
  }

  // ------------------------------------------------------------ activities

  function StatusText(s: Status): string
  {
    match s
    case Pending => "pending"
    case Completed => "completed"
    case Skipped => "skipped"
  }

  function RecurrenceText(r: Recurrence): string
  {
    match r
    case Weekly => "weekly"
    case Biweekly => "biweekly"
    case Monthly => "monthly"
  }

  function StatusOf(s: Option<Status>): Option<Value>
  {
    if s.Some? then Some(Text(StatusText(s.value))) else None
  }

  function RuleOf(r: Option<Recurrence>): Option<Value>
  {
    if r.Some? then Some(Text(RecurrenceText(r.value))) else None
  }

  /** The columns of the `activities` table that the app writes, and the id. */
  const ActivityColumns: set<Key> :=
    {id, user_id, child_id, title, subject, description, day, start_time, end_time,
     materials, instructions, objectives, enhanced, status, completed_at, recurring,
     recurrence_rule}

  /** `createActivity`'s `dbActivity`: every listed property under its snake-case column; no date. */
  function NewActivityFields(userId: string, a: Activity): (fs: Fields)
    ensures |fs| == 16
  {
    var fs := [(user_id, Some(Text(userId))), (child_id, Some(Text(a.childId))), (title, Some(Text(a.title))),
               (subject, Some(Text(a.subject))), (description, Some(Text(a.description))), (day, Some(Text(a.day))),
               (start_time, Some(Text(a.startTime))), (end_time, Some(Text(a.endTime))),
               (materials, TextsOf(a.materials)), (instructions, TextsOf(a.instructions)),
               (objectives, TextsOf(a.objectives)), (enhanced, Some(Flag(a.enhanced))),
               (status, StatusOf(a.status)), (completed_at, TextOf(a.completedAt)),
               (recurring, FlagOf(a.recurring)), (recurrence_rule, RuleOf(a.recurrenceRule))];
    fs
  }
  /** Each property goes to a column of its own. */
  lemma NewActivityColumns(userId: string, a: Activity)
    ensures DistinctKeys(NewActivityFields(userId, a)) && Within(NewActivityFields(userId, a), ActivityColumns)
  {
  }


  /** `createActivity`'s insert: the activity under snake-case columns, the date left out. */
  function NewActivityRow(userId: string, a: Activity): (r: Row)
    ensures r.Keys <= ActivityColumns
    ensures user_id in r && r[user_id] == Text(userId)
    ensures child_id in r && r[child_id] == Text(a.childId)
    ensures start_time in r && r[start_time] == Text(a.startTime)
    ensures end_time in r && r[end_time] == Text(a.endTime)
    ensures completed_at in r <==> a.completedAt.Some?
    ensures a.completedAt.Some? ==> r[completed_at] == Text(a.completedAt.value)
    ensures a.recurrenceRule.Some? ==>
      recurrence_rule in r && r[recurrence_rule] == Text(RecurrenceText(a.recurrenceRule.value))
  {
    var fs := NewActivityFields(userId, a);
    NewActivityColumns(userId, a);
    PayloadKeys(fs, ActivityColumns);
    PayloadAt(fs, 0);
    PayloadAt(fs, 1);
    PayloadAt(fs, 6);
    PayloadAt(fs, 7);
    PayloadAt(fs, 13);
    PayloadAt(fs, 15);
    Payload(fs)
  }


  /** The read mapping: the five renamed properties copied from their snake-case columns. */
  function ActivityFromRow(row: Row): (r: Row)
    ensures forall k :: k !in {childId, startTime, endTime, completedAt, recurrenceRule} ==>
      (k in r <==> k in row) && (k in r ==> r[k] == row[k])
    ensures child_id in row ==> childId in r && r[childId] == row[child_id]
    ensures start_time in row ==> startTime in r && r[startTime] == row[start_time]
    ensures end_time in row ==> endTime in r && r[endTime] == row[end_time]
    ensures completed_at in row <==> completedAt in r
    ensures completed_at in row ==> r[completedAt] == row[completed_at]
    ensures recurrence_rule in row ==> recurrenceRule in r && r[recurrenceRule] == row[recurrence_rule]
  {
    var r1 := Renamed(row, child_id, childId);
    var r2 := Renamed(r1, start_time, startTime);
    var r3 := Renamed(r2, end_time, endTime);
    var r4 := Renamed(r3, completed_at, completedAt);
    Renamed(r4, recurrence_rule, recurrenceRule)
  }

  function ActivityRows(): Row -> Row
  {
    (row: Row) => ActivityFromRow(row)
  }

  /** `getActivities`. */
  function GetActivities(resp: Result<Option<seq<Row>>, StoreError>): (r: Result<seq<Row>, StoreError>)
    ensures resp.Err? ==> r == Err(resp.error)
    ensures resp.Ok? ==> r.Ok? && |r.value| == |resp.value.GetOr([])|
  {
    Rows(resp, ActivityRows())
  }

  /** `createActivity` and `updateActivity` once the store answers. */
  function StoredActivity(resp: Result<Row, StoreError>): (r: Result<Row, StoreError>)
    ensures resp.Err? ==> r == Err(resp.error)
    ensures resp.Ok? ==> r.Ok?
  {
    OneRow(resp, ActivityRows())
  }

  /**
   * Writing an activity and reading the stored row back gives the child,
   * the times, the completion time and the recurrence rule their
   * camel-case names again, with the activity's values; the date is lost.
   */
  lemma ActivityRoundTrip(userId: string, a: Activity, newId: string)
    ensures var stored := Insert(ActivityColumns, NewActivityRow(userId, a), newId);
      stored.Ok? &&
      var back := ActivityFromRow(stored.value);
      childId in back && back[childId] == Text(a.childId) &&
      startTime in back && back[startTime] == Text(a.startTime) &&
      endTime in back && back[endTime] == Text(a.endTime) &&
      (completedAt in back <==> a.completedAt.Some?) &&
      (a.completedAt.Some? ==> back[completedAt] == Text(a.completedAt.value)) &&
      (a.recurrenceRule.Some? ==>
        recurrenceRule in back && back[recurrenceRule] == Text(RecurrenceText(a.recurrenceRule.value))) &&
      id in back && back[id] == Text(newId) && date !in back
  {
    var row := NewActivityRow(userId, a);
    assert Insert(ActivityColumns, row, newId) == Ok(row[id := Text(newId)]);
    var stored := row[id := Text(newId)];
    assert child_id in stored && start_time in stored && end_time in stored && date !in stored;
    assert completed_at in stored <==> a.completedAt.Some?;
  }

  /** The `Partial<Activity>` given to `updateActivity`: `None` is `undefined`. */
  datatype ActivityUpdates = ActivityUpdates(
    childId: Option<string>,
    title: Option<string>,
    subject: Option<string>,
    description: Option<string>,
    day: Option<string>,
    startTime: Option<string>,
    endTime: Option<string>,
    materials: Option<seq<string>>,
    instructions: Option<seq<string>>,
    objectives: Option<seq<string>>,
    enhanced: Option<bool>,
    status: Option<Status>,
    completedAt: Option<string>,
    recurring: Option<bool>,
    recurrenceRule: Option<Recurrence>)

  /** Each property of the update under the column `updateActivity` writes it to. */
  function ActivityUpdateFields(u: ActivityUpdates): (fs: Fields)
    ensures |fs| == 15
  {
    var fs := [(child_id, TextOf(u.childId)), (title, TextOf(u.title)), (subject, TextOf(u.subject)),
               (description, TextOf(u.description)), (day, TextOf(u.day)),
               (start_time, TextOf(u.startTime)), (end_time, TextOf(u.endTime)),
               (materials, TextsOf(u.materials)), (instructions, TextsOf(u.instructions)),
               (objectives, TextsOf(u.objectives)), (enhanced, FlagOf(u.enhanced)),
               (status, StatusOf(u.status)), (completed_at, TextOf(u.completedAt)),
               (recurring, FlagOf(u.recurring)), (recurrence_rule, RuleOf(u.recurrenceRule))];
    fs
  }
  /** Each property goes to a column of its own. */
  lemma ActivityUpdateColumns(u: ActivityUpdates)
    ensures DistinctKeys(ActivityUpdateFields(u)) && Within(ActivityUpdateFields(u), ActivityColumns)
  {
  }


  /**
   * `updateActivity`'s `dbUpdates`: exactly the defined properties, each
   * under its snake-case column.
   */
  method ActivityUpdateRow(u: ActivityUpdates) returns (db: Row)
    ensures db == Payload(ActivityUpdateFields(u))
  {
    var fs := ActivityUpdateFields(u);
    db := map[];
    assert fs[..0] == [];
    PayloadStep(fs, 0);
    db := Put(db, child_id, TextOf(u.childId));
    PayloadStep(fs, 1);
    db := Put(db, title, TextOf(u.title));
    PayloadStep(fs, 2);
    db := Put(db, subject, TextOf(u.subject));
    PayloadStep(fs, 3);
    db := Put(db, description, TextOf(u.description));
    PayloadStep(fs, 4);
    db := Put(db, day, TextOf(u.day));
    PayloadStep(fs, 5);
    db := Put(db, start_time, TextOf(u.startTime));
    PayloadStep(fs, 6);
    db := Put(db, end_time, TextOf(u.endTime));
    PayloadStep(fs, 7);
    db := Put(db, materials, TextsOf(u.materials));
    PayloadStep(fs, 8);
    db := Put(db, instructions, TextsOf(u.instructions));
    PayloadStep(fs, 9);
    db := Put(db, objectives, TextsOf(u.objectives));
    PayloadStep(fs, 10);
    db := Put(db, enhanced, FlagOf(u.enhanced));
    PayloadStep(fs, 11);
    db := Put(db, status, StatusOf(u.status));
    PayloadStep(fs, 12);
    db := Put(db, completed_at, TextOf(u.completedAt));
    PayloadStep(fs, 13);
    db := Put(db, recurring, FlagOf(u.recurring));
    PayloadStep(fs, 14);
    db := Put(db, recurrence_rule, RuleOf(u.recurrenceRule));
    assert fs[..15] == fs;
  }

  /**
   * The update payload holds exactly the defined properties, each under its
   * snake-case column, and no camel-case name.
   */
  lemma ActivityUpdatePayload(u: ActivityUpdates)
    ensures var db := Payload(ActivityUpdateFields(u));
      db.Keys <= ActivityColumns && childId !in db && startTime !in db && endTime !in db &&
      completedAt !in db && recurrenceRule !in db &&
      forall j :: 0 <= j < 15 ==>
        (ActivityUpdateFields(u)[j].0 in db <==> ActivityUpdateFields(u)[j].1.Some?) &&
        (ActivityUpdateFields(u)[j].1.Some? ==> db[ActivityUpdateFields(u)[j].0] == ActivityUpdateFields(u)[j].1.value)
  {
    var fs := ActivityUpdateFields(u);
    ActivityUpdateColumns(u);
    PayloadKeys(fs, ActivityColumns);
    forall j | 0 <= j < 15
      ensures (fs[j].0 in Payload(fs) <==> fs[j].1.Some?) && (fs[j].1.Some? ==> Payload(fs)[fs[j].0] == fs[j].1.value)
    {
      PayloadAt(fs, j);
    }
  }

  /**
   * `{...activityToUpdate, status, completedAt}`: what the dashboard's status
   * change hands to `updateActivity`; the completion time is `now` for a
   * completed activity and `undefined` otherwise.
   */
  function StatusChangeUpdates(a: Activity, s: Status, now: string): (u: ActivityUpdates)
    ensures u.status == Some(s) && (u.completedAt.Some? <==> s == Completed)
  {
    ActivityUpdates(Some(a.childId), Some(a.title), Some(a.subject), Some(a.description), Some(a.day),
                    Some(a.startTime), Some(a.endTime), a.materials, a.instructions, a.objectives,
                    Some(a.enhanced), Some(s), if s == Completed then Some(now) else None,
                    a.recurring, a.recurrenceRule)
  }

  /**
   * The status change writes the new status, and a completion time only when
   * completing: resetting a completed activity leaves the stored
   * `completed_at` as it was.
   */
  lemma StatusChangePayload(a: Activity, s: Status, now: string, row: Row)
    ensures var db := Payload(ActivityUpdateFields(StatusChangeUpdates(a, s, now)));
      status in db && db[status] == Text(StatusText(s)) &&
      (completed_at in db <==> s == Completed) &&
      (s == Completed ==> db[completed_at] == Text(now)) &&
      (s != Completed && completed_at in row ==> (row + db)[completed_at] == row[completed_at])
  {
    var fs := ActivityUpdateFields(StatusChangeUpdates(a, s, now));
    ActivityUpdateColumns(StatusChangeUpdates(a, s, now));
    PayloadAt(fs, 11);
    PayloadAt(fs, 12);
  }
}

=== FILE: remote.dfy ===
/**
 * The replies of the AI generation calls and the failures they raise, as
 * thrown by `lib/openai.ts`, `lib/openai-concepts.ts` and
 * `lib/openai-multistep.ts`. Each call's reply is passed in as a value.
 */
module Remote {
  /**
   * One chat-completion reply: a non-OK HTTP status, a reply without message
   * content, content that `JSON.parse` rejects, or the decoded document.
   */
  datatype Reply<T> =
    | HttpFailure(status: int)
    | Empty
    | Unparseable
    | Parsed(doc: T)

  /**
   * A chat-completion reply whose content is decoded by the caller: a
   * non-OK status, a reply without message content, or the content text.
   */
  datatype Completion =
    | Failed(status: int)
    | Missing
    | Content(text: string)

  /**
   * A list-valued property of the decoded reply as `x || []` sees it: a
   * falsy value (absent, null, empty string) becomes the empty list, a list
   * is kept, and any other truthy value has no `map` to call.
   */
  datatype ListField<T> =
    | Falsy
    | Items(items: seq<T>)
    | NotList

  datatype GenError =
    | MissingApiKey          // no VITE_OPENAI_API_KEY
    | HttpStatus(code: int)  // `!response.ok`
    | NoContent              // the reply carries no message content
    | InvalidJson            // `JSON.parse` threw
    | NoJsonObject           // no `{...}` span to retry on
    | NotAList               // the decoded value has no `map`
    | MissingChild           // a property read on an `undefined` child
    | MissingMaterials       // a property read on an `undefined` materials table
}

=== FILE: settings.dfy ===
/**
 * The settings page: the account profile with its edit buffer, and the
 * saved children, edited one at a time with a snapshot to cancel to.
 *
 * The store's calls (`updateChild`, `deleteChild`, `updateProfile` with
 * the account-metadata update) are parameters saying whether the call
 * succeeded; the three-second clearing of the message is not modelled.
 */
module Settings {
  import opened Wrappers
  import opened Lists
  import Records

  /** A saved child as the page holds it; the lists may be missing (`child.goals || []`). */
  datatype Kid = Kid(
    id: string,
    name: string,
    age: string,
    grade: string,
    goals: Option<seq<string>>,
    curriculumTypes: Option<seq<string>>,
    notes: Option<string>,
    color: string,
    emoji: string)

  datatype ProfileData = ProfileData(fullName: string, email: string)

  const ChildSaved: string := "Child information updated!"
  const ChildSaveFailed: string := "Failed to update child"
  const ChildIncomplete: string := "Please select at least 3 education goals and 1 curriculum type"
  const ChildRemoved: string := "Child removed successfully"
  const ChildRemoveFailed: string := "Failed to delete child"
  const ProfileSaved: string := "Profile updated successfully!"
  const ProfileSaveFailed: string := "Failed to update profile"

  function Goals(k: Kid): seq<string> { k.goals.GetOr([]) }

  function Curricula(k: Kid): seq<string> { k.curriculumTypes.GetOr([]) }

  /** The save button's guard: at least three goals and a curriculum. */
  predicate Savable(k: Kid)
  {
    |Goals(k)| >= 3 && |Curricula(k)| > 0
  }

  /** `children.find(c => c.id === childId)`: the first child with that id. */
  function Find(cs: seq<Kid>, childId: string): (r: Option<Kid>)
    ensures r.Some? ==> r.value in cs && r.value.id == childId
    ensures r.None? ==> forall i :: 0 <= i < |cs| ==> cs[i].id != childId
    ensures r.Some? ==> exists k :: 0 <= k < |cs| && cs[k] == r.value && forall j :: 0 <= j < k ==> cs[j].id != childId
  {
    if cs == [] then None
    else if cs[0].id == childId then Some(cs[0])
    else
      var r := Find(cs[1..], childId);
      if r.Some? then
        var k :| 0 <= k < |cs[1..]| && cs[1..][k] == r.value && forall j :: 0 <= j < k ==> cs[1..][j].id != childId;
        assert cs[k + 1] == r.value;
        r
      else r
  }

  /** `children.map(c => c.id === childId ? k : c)`: every entry with that id becomes `k`. */
  function Replaced(cs: seq<Kid>, childId: string, k: Kid): (r: seq<Kid>)
    ensures |r| == |cs|
    ensures forall i :: 0 <= i < |cs| ==> r[i] == (if cs[i].id == childId then k else cs[i])
  {
    seq(|cs|, i requires 0 <= i < |cs| => if cs[i].id == childId then k else cs[i])
  }

  /** The goal button: the goal leaves or joins that child's goals. */
  function GoalFlipped(k: Kid, goal: string): (r: Kid)
    ensures r == k.(goals := r.goals) && r.goals.Some?
    ensures goal in Goals(r) <==> goal !in Goals(k)
    ensures forall g :: g != goal ==> (g in Goals(r) <==> g in Goals(k))
  {
    k.(goals := Some(Toggle(Goals(k), goal)))
  }

  /** The curriculum button: removed if chosen, otherwise added, the older of two making way. */
  function CurriculumFlipped(k: Kid, curriculum: string): (r: Kid)
    ensures r == k.(curriculumTypes := r.curriculumTypes) && r.curriculumTypes.Some?
    ensures curriculum in Curricula(r) <==> curriculum !in Curricula(k)
    ensures |Curricula(k)| <= 2 ==> |Curricula(r)| <= 2
  {
    k.(curriculumTypes := Some(ToggleCapped(Curricula(k), curriculum)))
  }

  /** The object `handleSaveChild` hands to `updateChild`: every property of the child. */
  function UpdatesOf(k: Kid): (u: Records.ChildUpdates)
    ensures u.name == Some(k.name) && u.curriculumTypes == k.curriculumTypes && u.goals == k.goals
  {
    Records.ChildUpdates(Some(k.name), Some(k.age), Some(k.grade), k.goals, k.curriculumTypes,
                         k.notes, Some(k.color), Some(k.emoji))
  }

  /**
   * Cancelling restores the roster: whatever edits were made to the
   * entries of the child being edited, putting its snapshot back gives the
   * roster as it was when editing began.
   */
  lemma RestoreUndoesEdits(before: seq<Kid>, edited: seq<Kid>, childId: string, snapshot: Kid)
    requires |edited| == |before|
    requires forall i :: 0 <= i < |before| && before[i].id != childId ==> edited[i] == before[i]
    requires forall i :: 0 <= i < |before| ==> edited[i].id == before[i].id
    requires forall i :: 0 <= i < |before| && before[i].id == childId ==> before[i] == snapshot
    ensures Replaced(edited, childId, snapshot) == before
  {
    var r := Replaced(edited, childId, snapshot);
    forall i | 0 <= i < |before| ensures r[i] == before[i] {
      if before[i].id == childId {
        assert edited[i].id == childId;
      }
    }
  }

  /** A child saved from the settings page reads back with the curriculum it was saved with. */
  lemma SavedCurriculumReadBack(k: Kid, row: Records.Row)
    requires k.curriculumTypes.Some?
    ensures var db := Records.Payload(Records.ChildUpdateFields(UpdatesOf(k)));
      Records.ChildFromRow(row + db)[Records.curriculumTypes] == Records.Texts(Curricula(k))
  {
    Records.ChildUpdateReadBack(UpdatesOf(k), row);
  }

  class SettingsPage {
    var children: seq<Kid>
    var editingId: Option<string>
    var snapshot: Option<Kid>
    var confirmDelete: Option<string>
    var message: Option<string>
    var saving: bool
    var profile: ProfileData
    var draft: ProfileData
    var editingProfile: bool

    /** What `loadUserData` leaves: the profile in both buffers and the loaded children. */
    constructor(loaded: ProfileData, kids: seq<Kid>)
      ensures children == kids && profile == loaded && draft == loaded
      ensures editingId == None && snapshot == None && confirmDelete == None && message == None
      ensures !saving && !editingProfile
    {
      children := kids;
      profile := loaded;
      draft := loaded;
      editingId := None;
      snapshot := None;
      confirmDelete := None;
      message := None;
      saving := false;
      editingProfile := false;
    }

    /** `handleEditChild`: a copy of the child is kept and the child enters edit mode. */
    method EditChild(childId: string)
      modifies this
      ensures Find(old(children), childId).Some? ==>
        snapshot == Find(old(children), childId) && editingId == Some(childId)
      ensures Find(old(children), childId).None? ==>
        snapshot == old(snapshot) && editingId == old(editingId)
      ensures children == old(children) && confirmDelete == old(confirmDelete) && message == old(message)
      ensures saving == old(saving) && profile == old(profile) && draft == old(draft)
      ensures editingProfile == old(editingProfile)
    {
      var child := Find(children, childId);
      if child.Some? {
        snapshot := child;
        editingId := Some(childId);
      }
    }

    /** A goal button of the child being edited. */
    method ToggleGoal(childId: string, goal: string)
      modifies this
      ensures Find(old(children), childId).Some? ==>
        children == Replaced(old(children), childId, GoalFlipped(Find(old(children), childId).value, goal))
      ensures Find(old(children), childId).None? ==> children == old(children)
      ensures editingId == old(editingId) && snapshot == old(snapshot)
      ensures confirmDelete == old(confirmDelete) && message == old(message)
      ensures saving == old(saving) && profile == old(profile) && draft == old(draft)
      ensures editingProfile == old(editingProfile)
    {
      var child := Find(children, childId);
      if child.Some? {
        children := Replaced(children, childId, GoalFlipped(child.value, goal));
      }
    }

    /**
     * A curriculum button of the child being edited; it is disabled, and
     * so without effect, while two other types are chosen.
     */
    method ToggleCurriculum(childId: string, curriculum: string)
      modifies this
      ensures Find(old(children), childId).Some? ==>
        var k := Find(old(children), childId).value;
        children == if CapBlocks(Curricula(k), curriculum) then old(children)
                    else Replaced(old(children), childId, CurriculumFlipped(k, curriculum))
      ensures Find(old(children), childId).Some? && !CapBlocks(Curricula(Find(old(children), childId).value), curriculum) ==>
        var k := Find(old(children), childId).value;
        forall y :: y != curriculum ==> (y in Curricula(CurriculumFlipped(k, curriculum)) <==> y in Curricula(k))
      ensures Find(old(children), childId).None? ==> children == old(children)
      ensures editingId == old(editingId) && snapshot == old(snapshot)
      ensures confirmDelete == old(confirmDelete) && message == old(message)
      ensures saving == old(saving) && profile == old(profile) && draft == old(draft)
      ensures editingProfile == old(editingProfile)
    {
      var child := Find(children, childId);
      if child.Some? && !CapBlocks(Curricula(child.value), curriculum) {
        EnabledToggleKeepsOthers(Curricula(child.value), curriculum);
        children := Replaced(children, childId, CurriculumFlipped(child.value, curriculum));
      }
    }

    /**
     * The "Save Changes" button: a child with fewer than three goals or no
     * curriculum is not sent, and the message says why. Otherwise
     * `handleSaveChild` sends all its properties (`sent`); on success the
     * child replaces its entries and edit mode ends; on failure nothing
     * but the message changes.
     */
    method SaveChild(childId: string, stored: bool) returns (sent: Option<Records.ChildUpdates>)
      modifies this
      ensures var k := Find(old(children), childId);
        if k.None? || !Savable(k.value) then
          sent == None && message == Some(ChildIncomplete) &&
          children == old(children) && editingId == old(editingId) && snapshot == old(snapshot)
        else
          sent == Some(UpdatesOf(k.value)) &&
          (stored ==> children == Replaced(old(children), childId, k.value) &&
                      editingId == None && snapshot == None && message == Some(ChildSaved)) &&
          (!stored ==> children == old(children) && editingId == old(editingId) &&
                       snapshot == old(snapshot) && message == Some(ChildSaveFailed))
      ensures sent.Some? ==> !saving
      ensures sent.None? ==> saving == old(saving)
      ensures confirmDelete == old(confirmDelete) && profile == old(profile) && draft == old(draft)
      ensures editingProfile == old(editingProfile)
    {
      var k := Find(children, childId);
      if k.None? || !Savable(k.value) {
        message := Some(ChildIncomplete);
        return None;
      }
      saving := true;
      sent := Some(UpdatesOf(k.value));
      if stored {
        children := Replaced(children, childId, k.value);
        editingId := None;
        snapshot := None;
        message := Some(ChildSaved);
      } else {
        message := Some(ChildSaveFailed);
      }
      saving := false;
    }

    /** The "Cancel" button: the snapshot, if any, replaces the child's entries; edit mode ends. */
    method CancelChild(childId: string)
      modifies this
      ensures old(snapshot).Some? ==> children == Replaced(old(children), childId, old(snapshot).value)
      ensures old(snapshot).None? ==> children == old(children)
      ensures editingId == None && snapshot == None
      ensures confirmDelete == old(confirmDelete) && message == old(message)
      ensures saving == old(saving) && profile == old(profile) && draft == old(draft)
      ensures editingProfile == old(editingProfile)
    {
      if snapshot.Some? {
        children := Replaced(children, childId, snapshot.value);
      }
      editingId := None;
      snapshot := None;
    }

    /** The trash button: the delete confirmation opens for that child. */
    method AskDelete(childId: string)
      modifies this
      ensures confirmDelete == Some(childId)
      ensures children == old(children) && editingId == old(editingId) && snapshot == old(snapshot)
      ensures message == old(message) && saving == old(saving)
      ensures profile == old(profile) && draft == old(draft) && editingProfile == old(editingProfile)
    {
      confirmDelete := Some(childId);
    }

    /**
     * `handleDeleteChild`: on success exactly the entries with that id
     * leave, in order, and the confirmation closes; on failure only the
     * message changes.
     */
    method DeleteChild(childId: string, deleted: bool)
      modifies this
      ensures deleted ==> children == Filter(old(children), Others(childId))
      ensures deleted ==>
        (forall k :: k in children <==> k in old(children) && k.id != childId) &&
        |children| <= |old(children)| &&
        confirmDelete == None && message == Some(ChildRemoved)
      ensures !deleted ==>
        children == old(children) && confirmDelete == old(confirmDelete) && message == Some(ChildRemoveFailed)
      ensures !saving
      ensures editingId == old(editingId) && snapshot == old(snapshot)
      ensures profile == old(profile) && draft == old(draft) && editingProfile == old(editingProfile)
    {
      saving := true;
      if deleted {
        children := Filter(children, Others(childId));
        confirmDelete := None;
        message := Some(ChildRemoved);
      } else {
        message := Some(ChildRemoveFailed);
      }
      saving := false;
    }

    /** The "Edit Profile" button. */
    method EditProfile()
      modifies this
      ensures editingProfile && draft == old(draft) && profile == old(profile)
      ensures children == old(children) && editingId == old(editingId) && snapshot == old(snapshot)
      ensures confirmDelete == old(confirmDelete) && message == old(message) && saving == old(saving)
    {
      editingProfile := true;
    }

    /** Typing into the profile form changes the draft only. */
    method TypeProfile(fullName: string, email: string)
      modifies this
      ensures draft == ProfileData(fullName, email) && profile == old(profile)
      ensures editingProfile == old(editingProfile)
      ensures children == old(children) && editingId == old(editingId) && snapshot == old(snapshot)
      ensures confirmDelete == old(confirmDelete) && message == old(message) && saving == old(saving)
    {
      draft := ProfileData(fullName, email);
    }

    /**
     * `handleSaveProfile`: signed out, nothing happens; the draft becomes
     * the profile only when the store accepts it, and only then does edit
     * mode end.
     */
    method SaveProfile(signedIn: bool, stored: bool)
      modifies this
      ensures !signedIn ==>
        profile == old(profile) && editingProfile == old(editingProfile) &&
        message == old(message) && saving == old(saving)
      ensures signedIn && stored ==>
        profile == old(draft) && !editingProfile && message == Some(ProfileSaved) && !saving
      ensures signedIn && !stored ==>
        profile == old(profile) && editingProfile == old(editingProfile) &&
        message == Some(ProfileSaveFailed) && !saving
      ensures draft == old(draft)
      ensures children == old(children) && editingId == old(editingId) && snapshot == old(snapshot)
      ensures confirmDelete == old(confirmDelete)
    {
      if !signedIn {
        return;
      }
      saving := true;
      if stored {
        profile := draft;
        editingProfile := false;
        message := Some(ProfileSaved);
      } else {
        message := Some(ProfileSaveFailed);
      }
      saving := false;
    }

    /** `handleCancelProfile`: the draft goes back to the saved profile. */
    method CancelProfile()
      modifies this
      ensures draft == old(profile) && profile == old(profile) && !editingProfile
      ensures children == old(children) && editingId == old(editingId) && snapshot == old(snapshot)
      ensures confirmDelete == old(confirmDelete) && message == old(message) && saving == old(saving)
    {
      draft := profile;
      editingProfile := false;
    }
  }

  /** `child => child.id !== childId`. */
  function Others(childId: string): Kid -> bool
  {
    (k: Kid) => k.id != childId
  }
}

=== FILE: text.dfy ===
/**
 * JavaScript string behaviour the application relies on: `String(n)`,
 * `padStart(2, '0')`, `Number(s)`, `toLowerCase`, `trim`, `includes`,
 * `split` on one character, `||` on strings and the `<` order on strings.
 * Characters are UTF-16 code units; only the ASCII part of case mapping and
 * of white space is modelled.
 */
module Text {
  import opened Wrappers

  predicate IsDigit(c: char) { '0' <= c <= '9' }

  predicate AllDigits(s: string) { forall i :: 0 <= i < |s| ==> IsDigit(s[i]) }

  function DigitValue(c: char): nat
    requires IsDigit(c)
  {
    c as int - '0' as int
  }

  function DigitChar(d: nat): (c: char)
    requires d < 10
    ensures IsDigit(c) && DigitValue(c) == d
  {
    ('0' as int + d) as char
  }

  function Pow10(w: nat): (p: nat)
    ensures p >= 1
  {
    if w == 0 then 1 else 10 * Pow10(w - 1)
  }

  lemma Pow10Small()
    ensures Pow10(1) == 10 && Pow10(2) == 100 && Pow10(4) == 10000 && Pow10(6) == 1000000
  {
    assert Pow10(1) == 10 * Pow10(0);
    assert Pow10(3) == 10 * Pow10(2);
    assert Pow10(5) == 10 * Pow10(4);
  }

  /** Value of a string of decimal digits; the empty string is 0. */
  function ParseDigits(s: string): nat
    requires AllDigits(s)
  {
    if s == [] then 0 else 10 * ParseDigits(s[..|s| - 1]) + DigitValue(s[|s| - 1])
  }

  /** `String(n)` for a non-negative integer: shortest decimal form. */
  function DecimalString(n: nat): (r: string)
    ensures 1 <= |r| && AllDigits(r)
    ensures |r| > 1 ==> r[0] != '0'
    ensures |r| == 1 <==> n < 10
  {
    if n < 10 then [DigitChar(n)] else DecimalString(n / 10) + [DigitChar(n % 10)]
  }

  lemma {:induction false} ParseDecimalString(n: nat)
    ensures ParseDigits(DecimalString(n)) == n
  {
    if n >= 10 {
      var s := DecimalString(n);
      assert s[..|s| - 1] == DecimalString(n / 10);
      ParseDecimalString(n / 10);
    }
  }

  /** The last `w` decimal digits of `n`, zero-padded on the left. */
  function Digits(n: nat, w: nat): (r: string)
    ensures |r| == w && AllDigits(r)
  {
    if w == 0 then [] else Digits(n / 10, w - 1) + [DigitChar(n % 10)]
  }

  lemma {:induction false} ParseDigitsOfDigits(n: nat, w: nat)
    requires n < Pow10(w)
    ensures ParseDigits(Digits(n, w)) == n
  {
    if w > 0 {
      var s := Digits(n, w);
      assert s[..|s| - 1] == Digits(n / 10, w - 1);
      ParseDigitsOfDigits(n / 10, w - 1);
    }
  }

  /** A number below 10^w written in full width has the same digits as `String(n)` padded. */
  lemma {:induction false} DigitsIsDecimal(n: nat, w: nat)
    requires w >= 1 && Pow10(w - 1) <= n < Pow10(w)
    ensures Digits(n, w) == DecimalString(n)
  {
    if w > 1 {
      assert n >= 10;
      DigitsIsDecimal(n / 10, w - 1);
    }
  }

  /** `String(n).padStart(2, '0')`. */
  function Pad2(n: nat): (r: string)
    ensures n >= 10 ==> r == DecimalString(n)
    ensures n < 10 ==> r == ['0', DigitChar(n)]
  {
    var s := DecimalString(n);
    if |s| < 2 then "0" + s else s
  }

  /** Below 100, padding to two places gives the two-digit numeral. */
  lemma Pad2Digits(n: nat)
    requires n < 100
    ensures Pad2(n) == Digits(n, 2)
  {
    assert Pow10(2) == 10 * Pow10(1) == 100;
    if n >= 10 {
      DigitsIsDecimal(n, 2);
    } else {
      assert Digits(n, 2) == Digits(0, 1) + [DigitChar(n)];
      assert Digits(0, 1) == ['0'];
    }
  }

  lemma Digits2(n: nat)
    requires n < 100
    ensures Pad2(n) == Digits(n, 2) == [DigitChar(n / 10), DigitChar(n % 10)]
  {
    Pad2Digits(n);
  }

  /** `${y}` for an integer year. */
  function IntString(y: int): string
  {
    if y < 0 then "-" + DecimalString(-y) else DecimalString(y)
  }

  /**
   * `Number(s)` on digit strings only, the only kind the application reads
   * (the parts of an `HH:MM` time): a run of decimal digits is its value
   * and the empty string is 0, as in JavaScript. Signs, spaces and
   * fractions, which `Number` also accepts, are outside the model and give
   * None, standing for NaN.
   */
  function NumberOf(s: string): (r: Option<nat>)
    ensures r.Some? <==> AllDigits(s)
  {
    if AllDigits(s) then Some(ParseDigits(s)) else None
  }

  /** `String(x)` for a value that may be NaN. */
  function NumberText(x: Option<nat>): string
  {
    match x
    case Some(n) => DecimalString(n)
    case None => "NaN"
  }

  /** `String(x).padStart(2, '0')` for a value that may be NaN. */
  function PadNumber(x: Option<nat>): string
  {
    match x
    case Some(n) => Pad2(n)
    case None => "NaN"
  }

  // ---------------------------------------------------------------- case

  function LowerChar(c: char): char
  {
    if 'A' <= c <= 'Z' then (c as int + 32) as char else c
  }

  /** `s.toLowerCase()` on ASCII letters. */
  function Lower(s: string): (r: string)
    ensures |r| == |s|
    ensures forall i :: 0 <= i < |s| ==> r[i] == LowerChar(s[i])
  {
    if s == [] then [] else [LowerChar(s[0])] + Lower(s[1..])
  }

  lemma {:induction false} LowerAppend(a: string, b: string)
    ensures Lower(a + b) == Lower(a) + Lower(b)
  {
    var l, r := Lower(a + b), Lower(a) + Lower(b);
    forall i | 0 <= i < |l| ensures l[i] == r[i] {
      if i < |a| {
        assert (a + b)[i] == a[i];
      } else {
        assert (a + b)[i] == b[i - |a|];
      }
    }
    assert l == r;
  }

  /** Digits, separators and lower-case letters are left alone. */
  lemma LowerOfNoUpper(s: string)
    requires forall i :: 0 <= i < |s| ==> !('A' <= s[i] <= 'Z')
    ensures Lower(s) == s
  {
  }

  // ---------------------------------------------------------------- search

  predicate IsPrefix(p: string, s: string)
  {
    |p| <= |s| && s[..|p|] == p
  }

  /** `s.includes(sub)`. */
  predicate Contains(s: string, sub: string)
    decreases |s|
  {
    IsPrefix(sub, s) || (s != [] && Contains(s[1..], sub))
  }

  predicate OccursAt(s: string, sub: string, i: int)
  {
    0 <= i <= |s| - |sub| && s[i..i + |sub|] == sub
  }

  /** `includes` holds exactly when `sub` occurs at some offset. */
  lemma {:induction false} ContainsIff(s: string, sub: string)
    ensures Contains(s, sub) <==> exists i :: OccursAt(s, sub, i)
    decreases |s|
  {
    if IsPrefix(sub, s) {
      assert OccursAt(s, sub, 0);
    } else if s != [] {
      ContainsIff(s[1..], sub);
      if Contains(s[1..], sub) {
        var i :| OccursAt(s[1..], sub, i);
        assert s[1..][i..i + |sub|] == s[i + 1..i + 1 + |sub|];
        assert OccursAt(s, sub, i + 1);
      } else if exists i :: OccursAt(s, sub, i) {
        var i :| OccursAt(s, sub, i);
        assert i != 0;
        assert s[1..][i - 1..i - 1 + |sub|] == s[i..i + |sub|];
        assert OccursAt(s[1..], sub, i - 1);
      }
    }
  }

  // ---------------------------------------------------------------- trim

  /** The ASCII white space `trim` removes. */
  predicate IsSpace(c: char)
  {
    c == ' ' || c == '\t' || c == '\n' || c == '\r' || c == '\U{000B}' || c == '\U{000C}'
  }

  /** The first position at or after `i` that holds no white space, or `|s|`. */
  function SkipSpaces(s: string, i: nat): (n: nat)
    requires i <= |s|
    ensures i <= n <= |s|
    ensures forall k :: i <= k < n ==> IsSpace(s[k])
    ensures n < |s| ==> !IsSpace(s[n])
    decreases |s| - i
  {
    if i < |s| && IsSpace(s[i]) then SkipSpaces(s, i + 1) else i
  }

  /** The end of `s[..j]` once trailing white space is dropped. */
  function SkipSpacesBack(s: string, j: nat): (n: nat)
    requires j <= |s|
    ensures n <= j
    ensures forall k :: n <= k < j ==> IsSpace(s[k])
    ensures n > 0 ==> !IsSpace(s[n - 1])
  {
    if j > 0 && IsSpace(s[j - 1]) then SkipSpacesBack(s, j - 1) else j
  }

  function TrimStart(s: string): (r: string)
    ensures |r| <= |s| && r == s[|s| - |r|..]
    ensures forall k :: 0 <= k < |s| - |r| ==> IsSpace(s[k])
    ensures r != [] ==> !IsSpace(r[0])
  {
    s[SkipSpaces(s, 0)..]
  }

  function TrimEnd(s: string): (r: string)
    ensures |r| <= |s| && r == s[..|r|]
    ensures forall k :: |r| <= k < |s| ==> IsSpace(s[k])
    ensures r != [] ==> !IsSpace(r[|r| - 1])
  {
    s[..SkipSpacesBack(s, |s|)]
  }

  /** `s.trim()`: the longest infix without white space at either end. */
  function Trim(s: string): (r: string)
    ensures r != [] ==> !IsSpace(r[0]) && !IsSpace(r[|r| - 1])
    ensures r == [] <==> forall k :: 0 <= k < |s| ==> IsSpace(s[k])
  {
    var t := TrimStart(s);
    var r := TrimEnd(t);
    assert r != [] ==> r[0] == t[0];
    TrimEmpty(s, t, r);
    r
  }

  lemma TrimEmpty(s: string, t: string, r: string)
    requires t == TrimStart(s) && r == TrimEnd(t)
    ensures r == [] <==> forall k :: 0 <= k < |s| ==> IsSpace(s[k])
  {
    if r == [] {
      assert |t| == 0;
    }
  }

  // ---------------------------------------------------------------- split

  /** `s.split(c)` for a one-character separator. */
  function Split(s: string, c: char): (r: seq<string>)
    ensures |r| >= 1
    ensures forall i, k :: 0 <= i < |r| && 0 <= k < |r[i]| ==> r[i][k] != c
    decreases |s|
  {
    if s == [] then [""]
    else
      var rest := Split(s[1..], c);
      if s[0] == c then [""] + rest
      else [[s[0]] + rest[0]] + rest[1..]
  }

  /** `parts.join(c)`. */
  function Join(parts: seq<string>, c: char): string
    requires |parts| >= 1
  {
    if |parts| == 1 then parts[0] else parts[0] + [c] + Join(parts[1..], c)
  }

  /** `parts.join(sep)` for a separator of any length; `[].join(sep)` is empty. */
  function JoinWith(parts: seq<string>, sep: string): string
  {
    if parts == [] then ""
    else if |parts| == 1 then parts[0]
    else parts[0] + sep + JoinWith(parts[1..], sep)
  }

  lemma {:induction false} JoinSplit(s: string, c: char)
    ensures Join(Split(s, c), c) == s
    decreases |s|
  {
    if s != [] {
      var rest := Split(s[1..], c);
      JoinSplit(s[1..], c);
      if s[0] != c {
        var r := Split(s, c);
        if |rest| == 1 {
          assert Join(r, c) == [s[0]] + rest[0];
        } else {
          assert r[1..] == rest[1..];
          assert Join(r, c) == [s[0]] + rest[0] + [c] + Join(rest[1..], c);
        }
      }
    }
  }

  predicate Free(s: string, c: char) { forall k :: 0 <= k < |s| ==> s[k] != c }

  lemma {:induction false} SplitFree(s: string, c: char)
    requires Free(s, c)
    ensures Split(s, c) == [s]
    decreases |s|
  {
    if s != [] {
      SplitFree(s[1..], c);
      assert [s[0]] + s[1..] == s;
    }
  }

  lemma {:induction false} SplitJoined(a: string, b: string, c: char)
    requires Free(a, c)
    ensures Split(a + [c] + b, c) == [a] + Split(b, c)
    decreases |a|
  {
    if a == [] {
      assert a + [c] + b == [c] + b;
    } else {
      assert (a + [c] + b)[1..] == a[1..] + [c] + b;
      SplitJoined(a[1..], b, c);
      assert [a[0]] + a[1..] == a;
    }
  }

  /** Joining two separator-free strings and splitting again gives them back. */
  lemma SplitPair(a: string, b: string, c: char)
    requires Free(a, c) && Free(b, c)
    ensures Split(a + [c] + b, c) == [a, b]
  {
    SplitJoined(a, b, c);
    SplitFree(b, c);
  }

  // ---------------------------------------------------------------- misc

  /** JavaScript `a || b` on strings: the empty string is falsy. */
  function Or(a: string, b: string): (r: string)
    ensures a != "" ==> r == a
    ensures a == "" ==> r == b
  {
    if a != "" then a else b
  }

  predicate IsHexDigit(c: char)
  {
    IsDigit(c) || 'a' <= c <= 'f' || 'A' <= c <= 'F'
  }

  /**
   * The test `/^[0-9a-f]{8}-[0-9a-f]{4}-[0-9a-f]{4}-[0-9a-f]{4}-[0-9a-f]{12}$/i`:
   * the textual UUID layout of section 3 of RFC 4122, in either case.
   */
  predicate IsUuidShaped(s: string)
  {
    |s| == 36 &&
    forall i :: 0 <= i < 36 ==>
      if i == 8 || i == 13 || i == 18 || i == 23 then s[i] == '-' else IsHexDigit(s[i])
  }

  /** The relational `a < b` on strings: code-unit lexicographic order. */
  predicate StrLt(a: string, b: string)
  {
    if a == [] then b != []
    else if b == [] then false
    else if a[0] != b[0] then a[0] < b[0]
    else StrLt(a[1..], b[1..])
  }

  predicate StrLe(a: string, b: string) { StrLt(a, b) || a == b }

  /** Comparing two concatenations whose first parts have equal length. */
  lemma {:induction false} StrLtAppend(p1: string, s1: string, p2: string, s2: string)
    requires |p1| == |p2|
    ensures StrLt(p1 + s1, p2 + s2) <==> StrLt(p1, p2) || (p1 == p2 && StrLt(s1, s2))
  {
    if p1 == [] {
      assert p1 + s1 == s1 && p2 + s2 == s2;
    } else {
      assert (p1 + s1)[0] == p1[0] && (p2 + s2)[0] == p2[0];
      assert (p1 + s1)[1..] == p1[1..] + s1 && (p2 + s2)[1..] == p2[1..] + s2;
      StrLtAppend(p1[1..], s1, p2[1..], s2);
      if p1[0] == p2[0] {
        assert p1 == p2 <==> p1[1..] == p2[1..];
      }
    }
  }

  /** Fixed-width numerals compare as strings exactly as the numbers compare. */
  lemma {:induction false} DigitsLt(a: nat, b: nat, w: nat)
    requires a < Pow10(w) && b < Pow10(w)
    ensures StrLt(Digits(a, w), Digits(b, w)) <==> a < b
  {
    if w > 0 {
      var pa, pb := Digits(a / 10, w - 1), Digits(b / 10, w - 1);
      StrLtAppend(pa, [DigitChar(a % 10)], pb, [DigitChar(b % 10)]);
      DigitsLt(a / 10, b / 10, w - 1);
      DigitsEq(a / 10, b / 10, w - 1);
    }
  }

  lemma DigitsEq(a: nat, b: nat, w: nat)
    requires a < Pow10(w) && b < Pow10(w)
    ensures Digits(a, w) == Digits(b, w) <==> a == b
  {
    ParseDigitsOfDigits(a, w);
    ParseDigitsOfDigits(b, w);
  }

  lemma {:induction false} StrLtIrreflexive(a: string)
    ensures !StrLt(a, a)
  {
    if a != [] { StrLtIrreflexive(a[1..]); }
  }
}

=== FILE: views.dfy ===
/**
 * What the dashboard shows of the activity list: the today/week/month view
 * filters, the child and search filters, the completion statistics, the
 * query for one grid cell, and the month grid with its padding cells.
 *
 * The filters compare date strings against a `Window` of the current date;
 * the lemmas tie string comparison back to the calendar.
 */
module ScheduleView {
  import opened Wrappers
  import opened Text
  import opened Lists
  import opened Calendar
  import opened MockData
  import opened ViewWindow

  datatype ViewType = TodayView | WeekView | MonthView

  // ------------------------------------------------------------ the view filters

  /** Whether `activity.date` is set; the empty string counts as unset. */
  predicate Dated(a: Activity)
  {
    DateText(a) != ""
  }

  /** The test each view applies to one activity. */
  predicate ShownIn(a: Activity, view: ViewType, w: Window)
  {
    match view
    case WeekView => Dated(a) && StrLe(w.weekStart, DateText(a)) && StrLe(DateText(a), w.weekEnd)
    case TodayView => if Dated(a) then DateText(a) == w.today else a.day == w.todayName
    case MonthView => Dated(a) && StrLe(w.monthStart, DateText(a)) && StrLt(DateText(a), w.monthEnd)
  }

  /** `activity.title` or `activity.subject` holds the query, ignoring letter case. */
  predicate Matches(a: Activity, query: string)
  {
    Contains(Lower(a.title), Lower(query)) || Contains(Lower(a.subject), Lower(query))
  }

  function InView(view: ViewType, w: Window): Activity -> bool
  {
    (a: Activity) => ShownIn(a, view, w)
  }

  function OfChild(childId: string): Activity -> bool
  {
    (a: Activity) => a.childId == childId
  }

  function MatchesQuery(query: string): Activity -> bool
  {
    (a: Activity) => Matches(a, query)
  }

  /**
   * `filteredActivities`: the view filter, then the child filter unless the
   * family view is selected, then the search filter when the query is
   * non-empty. An item is shown exactly when it passes all three.
   */
  function Filtered(acts: seq<Activity>, view: ViewType, w: Window, selected: string, query: string): (r: seq<Activity>)
    ensures |r| <= |acts|
    ensures forall a :: a in r <==>
              a in acts && ShownIn(a, view, w) &&
              (selected == "family" || a.childId == selected) &&
              (query == "" || Matches(a, query))
  {
    var byView := Filter(acts, InView(view, w));
    var byChild := if selected != "family" then Filter(byView, OfChild(selected)) else byView;
    if query != "" then Filter(byChild, MatchesQuery(query)) else byChild
  }

  /** Undated activities never appear in the week or the month view. */
  lemma UndatedOnlyToday(acts: seq<Activity>, view: ViewType, w: Window, selected: string, query: string, a: Activity)
    requires a in Filtered(acts, view, w, selected, query) && !Dated(a)
    ensures view == TodayView && a.day == w.todayName
  {
  }

  /**
   * For dates of years 0 to 9999, the week view's string test holds exactly
   * for the days of the current date's Monday-to-Sunday week.
   */
  lemma WeekViewIsCalendarWeek(current: Date, d: Date, a: Activity)
    requires ValidDate(current) && ValidDate(d) && 0 <= d.year <= 9999
    requires var m := MondayOf(current); 0 <= m.year && AddDays(m, 6).year <= 9999
    requires a.date == Some(IsoDate(d))
    ensures ShownIn(a, WeekView, WindowOf(current)) <==> MondayOf(d) == MondayOf(current)
  {
    var m := MondayOf(current);
    var e := AddDays(m, 6);
    WindowWeek(current, m, e);
    WeekSpan(m, e, d);
    WeekTest(a, WindowOf(current), m, e, d);
  }

  lemma WeekTest(a: Activity, w: Window, m: Date, e: Date, d: Date)
    requires ValidDate(m) && 0 <= m.year <= 9999 && ValidDate(e) && 0 <= e.year <= 9999
    requires ValidDate(d) && 0 <= d.year <= 9999 && a.date == Some(IsoDate(d))
    requires w.weekStart == IsoDate(m) && w.weekEnd == IsoDate(e)
    ensures ShownIn(a, WeekView, w) <==> DayNumber(m) <= DayNumber(d) <= DayNumber(e)
  {
    var date := IsoDate(d);
    assert DateText(a) == date && Dated(a);
    assert ShownIn(a, WeekView, w) <==> StrLe(IsoDate(m), date) && StrLe(date, IsoDate(e));
    IsoDateLeIff(m, d);
    IsoDateLeIff(d, e);
  }

  /** For four-digit years, the today view keeps exactly the items dated the current day. */
  lemma TodayViewIsCurrentDay(current: Date, d: Date, a: Activity)
    requires ValidDate(current) && 1000 <= current.year <= 9999
    requires ValidDate(d) && 0 <= d.year <= 9999 && a.date == Some(IsoDate(d))
    ensures ShownIn(a, TodayView, WindowOf(current)) <==> d == current
  {
    TodayWindow(current);
    IsoDateInjective(d, current);
  }

  /**
   * For current years 1000 to 9998, the month view's string test holds
   * exactly for the days of the current month, December included.
   */
  lemma MonthViewIsCalendarMonth(current: Date, d: Date, a: Activity)
    requires ValidDate(current) && 1000 <= current.year <= 9998
    requires ValidDate(d) && 0 <= d.year <= 9999 && a.date == Some(IsoDate(d))
    ensures ShownIn(a, MonthView, WindowOf(current)) <==> d.year == current.year && d.month == current.month
  {
    var first := Date(current.year, current.month, 1);
    var next := if current.month == 12 then Date(current.year + 1, 1, 1) else Date(current.year, current.month + 1, 1);
    MonthWindow(current, first, next);
    MonthTest(a, WindowOf(current), first, next, d);
  }

  lemma MonthTest(a: Activity, w: Window, first: Date, next: Date, d: Date)
    requires ValidDate(first) && 1000 <= first.year <= 9998 && first.day == 1
    requires next == if first.month == 12 then Date(first.year + 1, 1, 1) else Date(first.year, first.month + 1, 1)
    requires ValidDate(next) && w.monthStart == IsoDate(first) && w.monthEnd == IsoDate(next)
    requires ValidDate(d) && 0 <= d.year <= 9999 && a.date == Some(IsoDate(d))
    ensures ShownIn(a, MonthView, w) <==> d.year == first.year && d.month == first.month
  {
    var date := IsoDate(d);
    assert DateText(a) == date && Dated(a);
    assert ShownIn(a, MonthView, w) <==> StrLe(IsoDate(first), date) && StrLt(date, IsoDate(next));
    IsoDateOrder(first, d);
    IsoDateInjective(first, d);
    IsoDateOrder(d, next);
  }

  /** The search ignores the letter case of the query. */
  lemma SearchIgnoresCase(a: Activity, query: string)
    ensures Matches(a, query) == Matches(a, Lower(query))
  {
    LowerTwice(query);
  }

  /** A title holding the query verbatim always matches. */
  lemma TitleMatches(a: Activity, query: string)
    requires Contains(a.title, query)
    ensures Matches(a, query)
  {
    ContainsIff(a.title, query);
    var i :| OccursAt(a.title, query, i);
    assert Lower(a.title)[i..i + |query|] == Lower(query);
    ContainsIff(Lower(a.title), Lower(query));
    assert OccursAt(Lower(a.title), Lower(query), i);
  }

  lemma LowerTwice(s: string)
    ensures Lower(Lower(s)) == Lower(s)
  {
  }

  // ------------------------------------------------------------ statistics

  function HasStatus(s: Status): Activity -> bool
  {
    (a: Activity) => a.status == Some(s)
  }

  /** Neither completed nor skipped: explicitly pending, or with no status at all. */
  function Open(): Activity -> bool
  {
    (a: Activity) => a.status != Some(Completed) && a.status != Some(Skipped)
  }

  datatype Stats = Stats(total: nat, completed: nat, skipped: nat, pending: int, completionRate: int)

  /**
   * `Math.round((c / t) * 100)` in exact arithmetic: the nearest integer,
   * halves rounded up. The page divides in floating point first, which can
   * land just below a half (23 of 40 shows 57, not 58).
   */
  function RoundedPercent(c: nat, t: nat): (r: nat)
    requires t > 0
    ensures 2 * t * r <= 200 * c + t < 2 * t * (r + 1)
  {
    (200 * c + t) / (2 * t)
  }

  /**
   * `stats`: the counts of the shown items; pending is what is neither
   * completed nor skipped, and the rate is the rounded completed percentage,
   * 0 for an empty view.
   */
  function StatsOf(shown: seq<Activity>): (r: Stats)
    ensures r.total == |shown|
    ensures r.completed == |Filter(shown, HasStatus(Completed))|
    ensures r.skipped == |Filter(shown, HasStatus(Skipped))|
    ensures r.completed + r.skipped + r.pending == r.total
    ensures r.pending == |Filter(shown, Open())| >= 0
    ensures r.total == 0 ==> r.completionRate == 0
    ensures r.total > 0 ==> 2 * r.total * r.completionRate <= 200 * r.completed + r.total < 2 * r.total * (r.completionRate + 1)
    ensures 0 <= r.completionRate <= 100
  {
    var total := |shown|;
    var completed := |Filter(shown, HasStatus(Completed))|;
    var skipped := |Filter(shown, HasStatus(Skipped))|;
    StatusCounts(shown);
    var rate := if total > 0 then RoundedPercent(completed, total) else 0;
    assert total > 0 ==> rate <= 100 by {
      if total > 0 {
        RateBound(completed, total, rate);
      }
    }
    Stats(total, completed, skipped, total - completed - skipped, rate)
  }

  lemma RateBound(c: nat, t: nat, r: nat)
    requires t > 0 && c <= t && 2 * t * r <= 200 * c + t
    ensures r <= 100
  {
    assert 2 * t * r <= 201 * t;
    assert r >= 101 ==> 2 * t * r >= 202 * t;
  }

  /** Every item is completed, skipped or open, and only one of them. */
  lemma {:induction false} StatusCounts(s: seq<Activity>)
    ensures |Filter(s, HasStatus(Completed))| + |Filter(s, HasStatus(Skipped))| + |Filter(s, Open())| == |s|
  {
    if s != [] {
      StatusCounts(s[1..]);
    }
  }

  // ------------------------------------------------------------ one grid cell

  /** `getActivitiesForSlot`: the shown items of one day and start time, in list order. */
  function SlotActivities(shown: seq<Activity>, day: string, time: string): (r: seq<Activity>)
    ensures forall a :: a in r <==> a in shown && a.day == day && a.startTime == time
  {
    Filter(shown, (a: Activity) => a.day == day && a.startTime == time)
  }

  /**
   * A slot of the today view: the shown items named for the weekday of
   * `current` (`todayName`, from `getDay()`) that start at `time`.
   */
  function TodaySlot(shown: seq<Activity>, current: Date, time: string): (r: seq<Activity>)
    requires ValidDate(current)
    ensures forall a :: a in r <==> a in shown && a.day == DayNames[Weekday(current)] && a.startTime == time
  {
    SlotActivities(shown, WindowOf(current).todayName, time)
  }

  /** Each shown item sits in the one cell of its own day and start time and in no other. */
  lemma OneCellPerItem(shown: seq<Activity>, a: Activity, day: string, time: string)
    requires a in shown
    ensures a in SlotActivities(shown, day, time) <==> day == a.day && time == a.startTime
  {
  }

  // ------------------------------------------------------------ the month grid

  /** A cell of the month grid: blank, or the day of the month it shows. */
  datatype Cell = Pad | Day(day: nat)

  /** The date string a day cell looks items up by, `${year}-${pad(month)}-${pad(day)}`. */
  function DayDate(year: int, month: nat, day: nat): string
  {
    LocalDateString(year, month, day)
  }

  function DatedOn(date: string): Activity -> bool
  {
    (a: Activity) => a.date == Some(date)
  }

  /** The shown items a day cell lists: those whose `date` is that day's string. */
  function DayActivities(shown: seq<Activity>, year: int, month: nat, day: nat): (r: seq<Activity>)
    ensures forall a :: a in r <==> a in shown && a.date == Some(DayDate(year, month, day))
  {
    Filter(shown, DatedOn(DayDate(year, month, day)))
  }

  /** For four-digit years a day cell lists exactly the shown items dated that calendar day. */
  lemma DayActivitiesOnDate(shown: seq<Activity>, year: int, month: nat, day: nat, d: Date, a: Activity)
    requires 1000 <= year <= 9999 && ValidDate(Date(year, month, day))
    requires ValidDate(d) && 0 <= d.year <= 9999 && a in shown && a.date == Some(IsoDate(d))
    ensures a in DayActivities(shown, year, month, day) <==> d == Date(year, month, day)
  {
    LocalIsIso(Date(year, month, day));
    IsoDateInjective(d, Date(year, month, day));
  }

  /**
   * Whole rows of seven: `lead` blank cells, the days 1 to `days` in order,
   * and fewer than seven blank cells after them; four to six rows in all.
   */
  predicate GridShape(cells: seq<Cell>, lead: int, days: int)
  {
    |cells| % 7 == 0 && 0 <= lead && 0 <= days && lead + days <= |cells| < lead + days + 7 &&
    28 <= |cells| <= 42 &&
    (forall j :: 0 <= j < lead ==> cells[j] == Pad) &&
    (forall j :: lead <= j < lead + days ==> cells[j] == Day(j - lead + 1)) &&
    (forall j :: lead + days <= j < |cells| ==> cells[j] == Pad)
  }

  /**
   * The month view's cells: blank cells up to the first day's weekday, one
   * cell per day, and blank cells to the end of the last week row.
   */
  method MonthGrid(year: int, month: nat) returns (cells: seq<Cell>)
    requires 1 <= month <= 12
    ensures GridShape(cells, Weekday(Date(year, month, 1)), DaysInMonth(year, month))
  {
    MonthLength(year, month);
    var startPadding := Weekday(Date(year, month, 1));
    var totalDays := DaysInMonth(year, month);
    cells := LayOut(startPadding, totalDays);
  }

  lemma MonthLength(y: int, m: int)
    requires 1 <= m <= 12
    ensures 28 <= DaysInMonth(y, m) <= 31 && ValidDate(Date(y, m, 1))
  {
  }

  method LayOut(startPadding: nat, totalDays: nat) returns (cells: seq<Cell>)
    requires startPadding < 7 && 28 <= totalDays <= 31
    ensures GridShape(cells, startPadding, totalDays)
  {
    var weeks := (startPadding + totalDays + 6) / 7;
    assert weeks == 4 || weeks == 5 || weeks == 6;
    cells := [];
    var i := 0;
    while i < startPadding
      invariant 0 <= i <= startPadding && |cells| == i
      invariant forall j :: 0 <= j < i ==> cells[j] == Pad
    {
      cells := cells + [Pad];
      i := i + 1;
    }
    var day := 1;
    while day <= totalDays
      invariant 1 <= day <= totalDays + 1 && |cells| == startPadding + day - 1
      invariant forall j :: 0 <= j < startPadding ==> cells[j] == Pad
      invariant forall j :: startPadding <= j < |cells| ==> cells[j] == Day(j - startPadding + 1)
    {
      cells := cells + [Day(day)];
      day := day + 1;
    }
    var endPadding := weeks * 7 - (startPadding + totalDays);
    i := 0;
    while i < endPadding
      invariant 0 <= i <= endPadding && |cells| == startPadding + totalDays + i
      invariant forall j :: 0 <= j < startPadding ==> cells[j] == Pad
      invariant forall j :: startPadding <= j < startPadding + totalDays ==> cells[j] == Day(j - startPadding + 1)
      invariant forall j :: startPadding + totalDays <= j < |cells| ==> cells[j] == Pad
    {
      cells := cells + [Pad];
      i := i + 1;
    }
    assert |cells| == weeks * 7;
  }
}

=== FILE: window.dfy ===
/**
 * The date strings the dashboard's view filters compare against, computed
 * from the current date, and what they are in calendar terms.
 */
module ViewWindow {
  import opened Text
  import opened Calendar

  /** The strings the three view filters compare `date` against. */
  datatype Window = Window(
    weekStart: string,
    weekEnd: string,
    today: string,
    todayName: string,
    monthStart: string,
    monthEnd: string)

  const DayNames: seq<string> :=
    ["Sunday", "Monday", "Tuesday", "Wednesday", "Thursday", "Friday", "Saturday"]

  /** `${year}-${pad(month)}-01` for a month numbered 1 to 12. */
  function MonthStart(y: int, m: nat): string
  {
    LocalDateString(y, m, 1)
  }

  /** The first day of the next month; December wraps to January of the next year. */
  function MonthEnd(y: int, m: nat): (s: string)
    ensures m == 12 ==> s == MonthStart(y + 1, 1)
    ensures m != 12 ==> s == MonthStart(y, m + 1)
  {
    if m == 12 then MonthStart(y + 1, 1) else MonthStart(y, m + 1)
  }

  /**
   * The window of the current date: `getWeekDateRange` as ISO strings of the
   * Monday and the Sunday of its week, the unpadded local string of the day
   * itself and its weekday name, and the bounds of its month.
   */
  function WindowOf(current: Date): Window
    requires ValidDate(current)
  {
    var monday := MondayOf(current);
    Window(
      DateString(monday),
      DateString(AddDays(monday, 6)),
      LocalDateString(current.year, current.month, current.day),
      DayNames[Weekday(current)],
      MonthStart(current.year, current.month),
      MonthEnd(current.year, current.month))
  }

  /** The week range runs from a Monday to the Sunday six days later and holds the current day. */
  lemma WeekRangeFacts(current: Date)
    requires ValidDate(current)
    ensures var monday := MondayOf(current); var sunday := AddDays(monday, 6);
      Weekday(monday) == 1 && Weekday(sunday) == 0 &&
      DayNumber(monday) <= DayNumber(current) <= DayNumber(sunday) == DayNumber(monday) + 6
  {
    WeekdayInWeek(current, 6);
  }

  lemma WindowWeek(current: Date, m: Date, e: Date)
    requires ValidDate(current) && m == MondayOf(current) && e == AddDays(m, 6)
    requires 0 <= m.year <= 9999 && 0 <= e.year <= 9999
    ensures WindowOf(current).weekStart == IsoDate(m) && WindowOf(current).weekEnd == IsoDate(e)
  {
  }

  lemma WeekSpan(m: Date, e: Date, d: Date)
    requires ValidDate(m) && Weekday(m) == 1 && e == AddDays(m, 6) && ValidDate(d)
    ensures DayNumber(m) <= DayNumber(d) <= DayNumber(e) <==> MondayOf(d) == m
  {
    AddDaysNumber(m, 6);
    WeekOfDay(m, d);
  }

  /** A day lies in the seven days from a Monday exactly when that Monday is its own. */
  lemma WeekOfDay(m: Date, d: Date)
    requires ValidDate(m) && ValidDate(d) && Weekday(m) == 1
    ensures DayNumber(m) <= DayNumber(d) <= DayNumber(m) + 6 <==> MondayOf(d) == m
  {
    if DayNumber(m) <= DayNumber(d) <= DayNumber(m) + 6 {
      ShiftedMonday(m, d, DayNumber(d) - DayNumber(m));
    }
  }

  lemma MonthWindow(current: Date, first: Date, next: Date)
    requires ValidDate(current) && 1000 <= current.year <= 9998
    requires first == Date(current.year, current.month, 1)
    requires next == if current.month == 12 then Date(current.year + 1, 1, 1) else Date(current.year, current.month + 1, 1)
    ensures ValidDate(first) && ValidDate(next)
    ensures WindowOf(current).monthStart == IsoDate(first) && WindowOf(current).monthEnd == IsoDate(next)
  {
    LocalIsIso(first);
    LocalIsIso(next);
  }

  /** For four-digit years the unpadded local string of the current day is its ISO date. */
  lemma TodayWindow(current: Date)
    requires ValidDate(current) && 1000 <= current.year <= 9999
    ensures WindowOf(current).today == IsoDate(current)
  {
    LocalIsIso(current);
  }
}

=== FILE: wrappers.dfy ===
/** Option and Result, used for the source's `undefined` values and thrown errors. */
module Wrappers {

  datatype Option<+T> = None | Some(value: T) {
    function GetOr(default: T): T {
      match this
      case Some(v) => v
      case None => default
    }
  }

  datatype Result<+T, +E> = Ok(value: T) | Err(error: E)
}
